=== FILE: README.md ===
# clear-dil dashboard core, modelled in Dafny

This project models the deterministic core of the clear-dil case-management
dashboard and proves properties of it:

- **`ApiClient`**: a token lifecycle state machine over a four-key
  credential cookie store (`access_token`, `refresh_token`, `token_expiry`,
  `user_id`) plus a cached user profile. It covers:
  - the OAuth2 password grant (section 4.3.2 of RFC 6749), with HTTP Basic
    client authentication (section 2.3.1 of RFC 6749);
  - the refresh-token grant (section 6 of RFC 6749);
  - the expiry pre-check;
  - the 401 interceptor;
  - logout;
  - the verb methods, which send `Authorization: Bearer …` (section 2.1 of
    RFC 6750).
- **`BaseResource` and the facades** (cases, projects, workspaces, BPMNs,
  members, auth): how each operation composes its URL, and how failures turn
  into `{ error }` / `{ data, error }` results.
- **`lib/utils`**: image-type sniffing by magic bytes, `snake_case` to
  Title Case, and invitation codes.
- **The zod schemas** of the auth and task forms, as parse functions over
  strings.
- **Route-level data shaping** in the task, workspace, project and member
  server routes, plus `members/utils`:
  - composite-id splitting;
  - the case-list filter;
  - display names;
  - examine/review payloads;
  - BPMN id selection;
  - the monthly analytics counters;
  - member listings and role updates.
- **The kanban board**: grouping cases into status columns, and the
  drag-and-drop move with its position payload and mutations.
- **The edit-task form**: the comment guard, assignee routing, and the
  activity feed builder.

The network, cookies, clock and random numbers are parameters:
- The cookie store is a `map<string, string>`.
- `Date.now()` is an `int`.
- Every HTTP exchange is a `Reply` taken from a script of outcomes.
- Date-library month and day tests are predicates passed in.
- `Math.random()` draws are reals in `[0, 1)`.

An exhausted script stands for a request still in flight (`Pending`). This
is how the interceptor's unbounded re-send is modelled without inventing a
retry limit.

Module layout follows the program:

| Module | What it models |
|---|---|
| `Text` | The JavaScript string operations the code relies on. |
| `Seqs` | `filter`, `find` and counting over sequences. |
| `Domain` | The records of `types.ts`. |
| `ApiClient` | The token state machine and the verb methods. |
| `BaseResource` | URL plans, the `try`/`catch` result layer, and the facades' result wrappers. |
| `CaseResource`, `ProjectResource`, `WorkspaceResource`, `BpmnResource`, `MembersResource`, `AuthResource` | The facades. |
| `Wrapper` | The six-resource singleton and which resource ever caches a profile. |
| `Validation`, `AuthSchemas`, `TaskSchemas` | The zod schemas. |
| `Routes` | What the server routes share. |
| `TaskRoutes`, `Analytics`, `WorkspaceRoutes`, `ProjectRoutes`, `MemberRoutes` | The server routes and `members/utils`. |
| `Kanban` | The kanban board. |
| `EditTaskForm` | The edit-task form. |

## Model

| member | source | states |
|---|---|---|
| ApiClient.CookieValue | src/clearDil/ApiClient.ts:82-94 | A cookie reads as present exactly when it is set and non-empty, and then as its stored text |
| ApiClient.ReadExpiry | src/clearDil/ApiClient.ts:82-94 | `token_expiry` is absent when missing or empty; otherwise it is `parseInt` of the stored text, and not a number when that text has no leading integer |
| ApiClient.SetTokenCookies | src/clearDil/ApiClient.ts:40-78 | Stores the access token, the refresh token and expiry `now + expires_in * 1000`; writes `user_id` only when the response carries a non-empty one; leaves every other cookie as it was |
| ApiClient.ReadAfterSet | src/clearDil/ApiClient.ts:40-94 | Reading the tokens back after setting them gives the stored access token, refresh token and expiry |
| ApiClient.FetchToken | src/clearDil/ApiClient.ts:97-140 | Sends the password grant first. Asks for the profile with `Bearer <access token>` exactly when the grant succeeded. Fails iff either exchange fails; a failure leaves store and client unchanged. A rejected grant gives the grant's error message; a rejected profile request after a granted token gives the profile request's message. On success the profile is cached. With `returnToken` the store is untouched and the token response is returned |
| ApiClient.Refresh | src/clearDil/ApiClient.ts:142-167 | Raises "No Refresh Token Found" before any exchange when no refresh token is stored. Succeeds exactly when the grant is fulfilled, and then stores the new tokens. Leaves the store unchanged otherwise. Never changes cookies other than the credentials, nor `user_id` when the grants carry none |
| ApiClient.EnsureToken | src/clearDil/ApiClient.ts:169-178 | Raises "No Token Found", with no exchange, when the access token is missing or empty or the expiry is missing, empty, not a number or zero. Returns with store and log unchanged while `now < expiry`. Issues a refresh exchange exactly when `now >= expiry` and a refresh token exists; it then succeeds exactly when the grant is fulfilled, storing the new tokens, and a rejected grant raises its own message with the store unchanged. Without a refresh token an expired session raises "No Refresh Token Found" |
| ApiClient.FreshTokensNeedNoRefresh | src/clearDil/ApiClient.ts:40-78 | Once tokens are stored at `now`, the pre-check passes without any exchange at every clock reading from `now` up to (not including) `now + expires_in * 1000` |
| ApiClient.Dispatch | src/clearDil/ApiClient.ts:180-204 | Sends the request first. A fulfilled reply is returned. A non-401 rejection is re-raised unchanged. A 401 with no refresh token raises the refresh error. A 401 whose refresh grant is rejected raises the grant's message after exactly the request and the refresh exchange. A 401 otherwise refreshes and re-sends. Only replies the server sent are ever returned |
| ApiClient.RetryCarriesRefreshedToken | src/clearDil/ApiClient.ts:180-204 | After a 401 and a successful refresh, the re-sent request carries `Bearer` with the new access token |
| ApiClient.Send | src/clearDil/ApiClient.ts:216-343 | The verb methods. Without a session, the pre-check's error escapes with nothing sent. `put` with an explicit token skips the pre-check and sends that token. Once the pre-check passes, a fulfilled reply comes back as `{ data: <the reply>, error: null }` and a non-401 rejection comes back as `{ data: null, error: <its message> }`. Data and error are never both present; returned data was sent by the server. The expired-session outcomes are stated by ApiClient.SendOnExpiredSession |
| ApiClient.PreCheck | src/clearDil/ApiClient.ts:216-343 | The verb methods' `ensureToken` step: skipped for `put` with an explicit token; passes with nothing sent while the session is live; raises "No Token Found" without a session. On an expired session its only exchange is the refresh grant: a missing refresh token raises "No Refresh Token Found", a rejected grant raises the grant's message with the store unchanged, and a fulfilled grant passes with the new tokens stored |
| ApiClient.SendOnExpiredSession | src/clearDil/ApiClient.ts:168-232 | On an expired session the verb methods' `ensureToken` refreshes outside the `try`: with no refresh token "No Refresh Token Found" is thrown with nothing sent; a rejected grant's message is thrown with the store unchanged after only the grant; after a fulfilled grant the request follows it carrying the new access token, or `put`'s explicit one |
| ApiClient.Deliver | src/clearDil/ApiClient.ts:180-240 | A request past the pre-check never raises: a fulfilled reply gives `{ data: <the reply>, error: null }`, a non-401 rejection gives `{ data: null, error: <its message> }`, a 401 without a refresh token gives "No Refresh Token Found" as the error, and a 401 whose refresh grant is rejected gives the grant's message as the error |
| ApiClient.HandleLogout | src/clearDil/ApiClient.ts:206-214 | Removes the four credential cookies and the cached profile; keeps every other cookie and the client credentials |
| ApiClient.LogoutEndsSession | src/clearDil/ApiClient.ts:206-214 | After logout no token, refresh token or expiry can be read, so there is no session |
| ApiClient.LogoutIdempotent | src/clearDil/ApiClient.ts:206-214 | Logging out twice is logging out once |
| BaseResource.NewResource | src/clearDil/BaseResource.ts:12-17 | The endpoint is the API URL followed by the resource path; a new resource has no cached profile |
| BaseResource.PlanMatchesSegments | src/clearDil/BaseResource.ts:25-380 | Every operation's URL is its base joined by `/` with its path segments, and its verb is the operation's verb |
| BaseResource.UrlSegments | src/clearDil/BaseResource.ts:25-380 | Splitting an operation's URL on `/` gives the base's parts followed by exactly the operation's segments (id and fixed suffix) |
| BaseResource.RootIsEndpointOrOverride | src/clearDil/BaseResource.ts:174-240 | Role and password operations always start at the endpoint; the other operations start at the override when one is given, else at the endpoint |
| BaseResource.FailureNamesTarget | src/clearDil/BaseResource.ts:19-23 | An operation's failure message names the URL it requested, except where the source names a different one |
| BaseResource.DownloadFailureDiffers | src/clearDil/BaseResource.ts:243-268 | `downloadAttachment`'s failure message never names the URL it requested |
| BaseResource.GetByIdFailure | src/clearDil/BaseResource.ts:36-42 | `getById`'s failure message names its URL exactly when no override base is given |
| BaseResource.Perform | src/clearDil/BaseResource.ts:19-23 | No operation raises. A caught failure becomes `{ error: <message> }`. Once the pre-check passes, a fulfilled first reply is returned as `{ data: <the reply>, error: null }`. The pre-check still fails without a session, except for a password change with a token |
| BaseResource.DataField | src/clearDil/BaseResource.ts:19-23 | Reading `.data` of an operation's result gives `undefined` for a caught failure, `null` for an answer without data, else the data |
| BaseResource.Unwrap | src/clearDil/BaseResource.ts:243-287 | `downloadAttachment` and `getIcon` return the bare data, or the error object when caught |
| BaseResource.Relay | src/clearDil/CaseResource.ts:395-409 | A facade's `{ data, error: null }`: the error is always null, and the data is present exactly when the server answered with data |
| BaseResource.RelayForgetsFailures | src/clearDil/CaseResource.ts:395-409 | Two failures with different messages give the same facade result |
| BaseResource.WholeKeepsThrows | src/clearDil/ProjectResources.ts:36-49 | `getProjectIcon` wraps `getIcon`'s unwrapped result whole: it reports no error, yet keeps a throw's message under `data`: two throws give the same result exactly when their messages agree |
| BaseResource.PassThrough | src/clearDil/CaseResource.ts:213-227 | `deleteCase` returns the operation's result as it is: an error exactly when the request failed or the server reported one |
| BaseResource.Logout | src/clearDil/BaseResource.ts:382-384 | A resource's logout ends the session (no token, refresh token or expiry can be read) and drops the cached profile; the endpoint, the client credentials and every non-credential cookie are kept |
| Wrapper.With | src/clearDil/wrapper.ts:9-49 | Replacing one resource of the wrapper leaves the other five unchanged |
| Wrapper.NewWrapper | src/clearDil/wrapper.ts:17-24 | No resource starts with a cached profile. The auth resource's endpoint is the API URL; the others' endpoints are the API URL plus their path |
| Wrapper.Apply | src/clearDil/wrapper.ts:9-53 | Only a login through the auth resource can change a resource's cached profile, and no step changes an endpoint |
| Wrapper.ProfilesStayWithAuth | src/clearDil/ApiClient.ts:119-124 | Starting from a wrapper where only the auth resource may know the user, every sequence of steps keeps it so |
| Wrapper.LoginCachesProfile | src/clearDil/AuthResources.ts:12-26 | A successful login caches the fetched profile in the auth resource |
| Wrapper.ReachableProfiles | src/clearDil/wrapper.ts:51 | In every state reachable from the singleton, no resource other than auth has a cached profile |
| AuthResource.Login | src/clearDil/AuthResources.ts:12-26 | The error is always null. The data is present exactly when both exchanges succeed. `returnToken` reaches `fetchToken` unchanged. On failure resource and store are unchanged |
| AuthResource.FailedLoginReportsSuccess | src/clearDil/AuthResources.ts:20-22 | A rejected password grant gives a login result the login route treats as success |
| AuthResource.LoginReportingErrors | src/clearDil/AuthResources.ts:12-26 | Corrected login: the same data and state, with `fetchToken`'s error passed on |
| AuthResource.CorrectedLoginSucceedsIffFetched | src/features/auth/server/route.ts:32-38 | With the corrected login, the login route succeeds exactly when the token and profile were fetched |
| AuthResource.LoginHandler | src/features/auth/server/route.ts:32-38 | The login route throws exactly when the login result has a truthy error |
| AuthResource.GetUserInfo | src/clearDil/AuthResources.ts:28-33 | Null exactly when no profile is cached, else the cached profile unchanged |
| CaseResource.GenerateId | src/clearDil/CaseResource.ts:182-186 | 24 lowercase hexadecimal digits, each the floor of 16 times its draw. The identical `generateId` of the workspace, BPMN and members resources is this function |
| CaseResource.MapActivityData | src/clearDil/CaseResource.ts:188-195 | The order-preserving subsequence of the activities whose id is `StartEvent`, `examine`, `review` or `EndEvent`, with every such activity kept as often as it occurs |
| CaseResource.MapActivityDataIdempotent | src/clearDil/CaseResource.ts:188-195 | Filtering twice is filtering once |
| CaseResource.MapActivityDataKeepsTracked | src/clearDil/CaseResource.ts:188-195 | A history of tracked activities only is left as it is |
| CaseResource.OperationOf | src/clearDil/CaseResource.ts:197-423 | Every case method passes `endpoint/{ws}/projects/{p}/cases` as its override base |
| CaseResource.CaseUrl | src/clearDil/CaseResource.ts:197-423 | Each case method's URL is that base followed by its id and fixed suffix |
| CaseResource.CaseUrlSegments | src/clearDil/CaseResource.ts:197-423 | Splitting a case URL on `/` gives the endpoint's parts, then workspace, `projects`, project, `cases`, then the method's own segments |
| CaseResource.Contents | src/clearDil/CaseResource.ts:411-423 | `getCases` returns the paged list's `content`. A missing page or a missing `content` becomes the TypeError message of reading `content` |
| CaseResource.History | src/clearDil/CaseResource.ts:335-350 | `getCaseHistory` returns the history filtered by `mapActivityData`. A missing history becomes the TypeError message of calling `filter` |
| CaseResource.HistoryIsFiltered | src/clearDil/CaseResource.ts:335-350 | The returned history is a fixed point of the filter |
| CaseResource.DeleteReportsFailures | src/clearDil/CaseResource.ts:213-227 | `deleteCase` reports an error exactly when its result has no data |
| CaseResource.UpdateCaseBody | src/clearDil/CaseResource.ts:368-393 | Title, summary and status pass through. `case_type` defaults to `PEP_MATCH` and priority to `MEDIUM` only when absent. The concerned customer list is fixed |
| CaseResource.UpdateCaseBodyStable | src/clearDil/CaseResource.ts:368-393 | Re-submitting an update body gives the same body |
| CaseResource.UpdateCaseBodyRoundTrip | src/clearDil/CaseResource.ts:368-393 | When case type and priority are supplied, the body carries back exactly the changes given |
| ProjectResource.OperationOf | src/clearDil/ProjectResources.ts:6-98 | Every project method passes `endpoint/{ws}/projects` as its override base |
| ProjectResource.ProjectUrls | src/clearDil/ProjectResources.ts:6-98 | List and create go to `…/projects`. Get, update and delete go to `…/projects/{id}` with their verbs. The icon goes to `…/projects/{id}/icon` as binary |
| ProjectResource.Icon | src/clearDil/ProjectResources.ts:36-49 | `getProjectIcon` puts `getIcon`'s bare result under `data` with no error |
| WorkspaceResource.OperationOf | src/clearDil/WorkspaceResource.ts:12-78 | No workspace method passes an override base |
| WorkspaceResource.WorkspaceUrls | src/clearDil/WorkspaceResource.ts:12-78 | List and create go to the endpoint; get, update and delete go to `endpoint/{id}`; the icon goes to `endpoint/{id}/icon` as binary |
| BpmnResource.OperationOf | src/clearDil/BpmnResource.ts:13-73 | Every BPMN method passes `endpoint/{ws}/bpmns` as its override base |
| BpmnResource.BpmnUrls | src/clearDil/BpmnResource.ts:13-73 | List and create go to `…/bpmns`, one BPMN to `…/bpmns/{id}`, the download to `…/bpmns/{id}/download`; only creation posts |
| MembersResource.OperationOf | src/clearDil/MembersResource.ts:37-112 | No member method passes an override base |
| MembersResource.MemberUrls | src/clearDil/MembersResource.ts:37-112 | Roles are at `endpoint/{id}/roles` (GET, and PUT to update). The role list is at `endpoint/roles`. The password is at `endpoint/{id}/password`. Creation posts to the endpoint; deletion goes to `endpoint/{id}` |
| MembersResource.PasswordChangeSkipsTokenCheck | src/clearDil/MembersResource.ts:92-103 | With an explicit token, the password change is sent as a PUT with `Bearer <token>`, even with no session |
| MembersResource.PasswordChangeWithoutTokenNeedsSession | src/clearDil/MembersResource.ts:92-103 | Without a token, the pre-check applies, and its failure becomes the PUT failure message |
| MembersResource.PickMember | src/clearDil/MembersResource.ts:22-35 | `getMember` never reports an error. Its data is the first listed member with the id, or undefined when none matches or the listing failed |
| MembersResource.PickMemberIsFirst | src/clearDil/MembersResource.ts:22-35 | The member picked is the first with the id |
| Utils.AlphabetIsAlnum | src/lib/utils.ts:8-16 | The invitation alphabet has 62 characters, all ASCII letters or digits |
| Utils.GenerateInviteCode | src/lib/utils.ts:8-16 | Exactly `length` characters (none for a non-positive length); each is the alphabet character its draw selects |
| Utils.SnakeCaseToTitleCase | src/lib/utils.ts:18-23 | Same length, and no `_` is left: each `_` becomes a space. A letter is upper case exactly when it is first or follows a non-word character, lower case otherwise. Other characters are kept |
| Utils.TitleCaseIdempotent | src/lib/utils.ts:18-23 | Title-casing a title-cased string changes nothing |
| Utils.DetectImageMimeType | src/lib/utils.ts:25-71 | `image/png`, `image/jpeg`, `image/gif`, `image/webp`, `image/svg+xml` exactly for their byte signatures (GIF `GIF87a`/`GIF89a`, WebP `RIFF`…`WEBP` with bytes 4-7 free, SVG `<?xm`), null otherwise; a buffer shorter than three bytes is never recognised |
| Utils.SignaturesExclusive | src/lib/utils.ts:28-68 | At most one signature matches a buffer, so the order of the checks does not matter |
| Utils.StandardHeadersRecognised | src/lib/utils.ts:28-48 | A buffer that starts with the eight-byte PNG signature (section 5.2 of the W3C PNG specification) is PNG. One with a GIF89a or GIF87a header (section 17 of GIF89a) is GIF |
| Domain.PriorityOf | src/clearDil/types.ts:80-84 | A string parses as a priority exactly when it is one of the three enum values, and then names that priority |
| Domain.StatusOf | src/clearDil/types.ts:73-78 | A string parses as a status exactly when it is one of the four enum values, and then names that status |
| Domain.StatusOfName | src/clearDil/types.ts:73-78 | Reading back a status's string value gives the status |
| AuthSchemas.ParseLogin | src/features/auth/schemas.ts:3-6 | Valid exactly when the username is not blank and the password is non-empty (untrimmed); yields the trimmed username |
| AuthSchemas.BlankPasswordAccepted | src/features/auth/schemas.ts:3-6 | A password of one space passes |
| AuthSchemas.LoginNormalised | src/features/auth/schemas.ts:3-6 | Parsing the parsed values again gives them back |
| AuthSchemas.ParseResetPasswordApi | src/features/auth/schemas.ts:8-12 | Every input is valid; only the username is trimmed |
| AuthSchemas.PolicyIssues | src/features/auth/schemas.ts:14-25 | No issue exactly for a password of length at least 8 with an upper-case letter, a lower-case letter, a digit and a character outside `[A-Za-z0-9]` |
| AuthSchemas.ParseResetPassword | src/features/auth/schemas.ts:14-31 | Valid exactly when the policy holds, the confirmation is non-empty and the two passwords are equal. Each failed rule reports its own issue: a mismatch is reported on `confirmPassword` |
| AuthSchemas.WeakMatchingPasswordRefused | src/features/auth/schemas.ts:14-25 | `password`/`password` is refused |
| AuthSchemas.StrongPasswordAccepted | src/features/auth/schemas.ts:14-31 | Example: `Abcdef1!`/`Abcdef1!` is accepted (`PolicyIssues` states the rule for all inputs) |
| AuthSchemas.ParseRegister | src/features/auth/schemas.ts:33-39 | Valid exactly when username, first name, last name and e-mail are not blank and the password has at least 8 characters; yields the trimmed fields |
| AuthSchemas.ResetPolicyImpliesRegisterLength | src/features/auth/schemas.ts:14-39 | A password the reset policy accepts is long enough to register with |
| TaskSchemas.StatusIssues | src/features/tasks/schemas.ts:7 | No issue exactly for one of the four status values |
| TaskSchemas.PriorityIssues | src/features/tasks/schemas.ts:8 | No issue exactly for one of the three priority values |
| TaskSchemas.ParseEditTask | src/features/tasks/schemas.ts:5-14 | Valid exactly when name, workspace, project and assignee are not blank, status and priority are enum values and a due date is given; yields trimmed values; the description is optional |
| TaskSchemas.ParseCreateTask | src/features/tasks/schemas.ts:16-23 | Like the edit schema without status and date, but the description is required and must not be blank |
| TaskSchemas.CreateTaskNormalised | src/features/tasks/schemas.ts:16-23 | Parsing the parsed values again gives them back |
| TaskSchemas.BlankDescriptionRefusedOnCreate | src/features/tasks/schemas.ts:22 | A blank description refuses a task creation |
| TaskSchemas.DescriptionOptionalOnEdit | src/features/tasks/schemas.ts:13 | Any description, or none, passes the edit schema |
| TaskSchemas.ParseExamineTask | src/features/tasks/schemas.ts:25-31 | Valid exactly when the action is not blank; action and task id are trimmed |
| TaskSchemas.ParseReviewTask | src/features/tasks/schemas.ts:32-39 | Valid exactly when the action is not blank; action and task id are trimmed; `closed` is optional |
| TaskSchemas.BlankTaskIdAccepted | src/features/tasks/schemas.ts:26-34 | A blank task id passes both schemas and becomes empty |
| TaskSchemas.ParseTaskComments | src/features/tasks/schemas.ts:41-46 | Valid exactly when the comment is non-empty (untrimmed) |
| TaskSchemas.BlankCommentAccepted | src/features/tasks/schemas.ts:42 | A comment of white space only passes, unchanged |
| TaskSchemas.ParseTaskAttachments | src/features/tasks/schemas.ts:48-53 | Valid exactly when the attachment is a file |
| TaskSchemas.ParseDownloadAttachments | src/features/tasks/schemas.ts:55-61 | Always valid; attachment id, task id and MIME type are trimmed |
| TaskSchemas.ParseDownloadBpmn | src/features/tasks/schemas.ts:63-66 | Always valid; the project id is optional and trimmed when given; the workspace id is trimmed |
| Routes.Demand | src/features/tasks/server/route.ts:62-71 | A handler continues exactly when the call's error is falsy and data is present. A truthy error throws the failure message; missing data throws the missing message |
| Routes.Forward | src/features/tasks/server/route.ts:487-498 | A handler returns the call's data exactly when its error is falsy; otherwise it throws the failure message |
| Routes.MemberName | src/features/members/server/route.ts:46-49 | `first last` when either name is non-empty, else the username |
| Routes.MemberNameWords | src/features/members/server/route.ts:46-49 | A full name splits on spaces into the first name's words followed by the last name's |
| Routes.AssigneeName | src/features/tasks/server/route.ts:113-122 | The display name of the first member with the id, or `senior` when none matches |
| TaskRoutes.Part | src/features/tasks/server/route.ts:28-32 | The `k`th comma-separated part, present exactly when there are more than `k` parts, and free of commas |
| TaskRoutes.DeleteRequest | src/features/tasks/server/route.ts:28-38 | The delete route deletes the case named by part 0, in the workspace of part 1 and the project of part 2 (`undefined` when missing) |
| TaskRoutes.BreadcrumbDeleteRoundTrip | src/features/tasks/components/task-breadcrumbs.tsx:36 | The delete route recovers exactly the task, workspace and project the breadcrumb packed, when none of them contains a comma |
| TaskRoutes.CommaInTaskIdShiftsParts | src/features/tasks/server/route.ts:30-32 | A comma in the task id shifts the parts: the route then deletes the wrong case |
| TaskRoutes.DeleteResponse | src/features/tasks/server/route.ts:40-44 | The deletion's data is answered exactly when its error is falsy |
| TaskRoutes.ListRequestUrl | src/features/tasks/server/route.ts:62-65 | The listing GETs `endpoint/{workspace}/projects/{project}/cases`, the project segment being `""` when the query names none |
| TaskRoutes.Populate | src/features/tasks/server/route.ts:113-132 | Each case keeps its fields, gains its assignee's display name, and gains the listed project with its id when there is one |
| TaskRoutes.ListTasks | src/features/tasks/server/route.ts:59-147 | Succeeds exactly when the cases and projects gates pass, every project's icon can be handed to `Buffer.from`, and the members gate passes. An icon that is `null` or an `{ error }` object throws `Buffer.from`'s TypeError before the members are checked. Otherwise returns the order-preserving subsequence of the populated cases that satisfy every filter supplied, each matching row as many times as it is populated |
| TaskRoutes.NoFiltersListEverything | src/features/tasks/server/route.ts:134-143 | Without filters, and with every icon encodable, every populated case is listed |
| TaskRoutes.StatusFilterNarrows | src/features/tasks/server/route.ts:134-143 | Adding a status filter is filtering the previous result by that status |
| TaskRoutes.NameAttachment | src/features/tasks/server/route.ts:289-293 | An attachment's name is its file name when non-empty, else its title |
| TaskRoutes.NameAttachments | src/features/tasks/server/route.ts:289-293 | Every attachment is named, in order; a missing list gives none |
| TaskRoutes.NameComments | src/features/tasks/server/route.ts:261-275 | One comment per comment, in order, with the same id, body and date, and the author's id replaced by the author's display name |
| TaskRoutes.CommentsOf | src/features/tasks/server/route.ts:248-276 | The page's comments named, or none when the page or its `content` is missing |
| TaskRoutes.DetailRequests | src/features/tasks/server/route.ts:227-300 | The case, its comments, attachments and history are all asked for under the first listed project |
| TaskRoutes.GetTask | src/features/tasks/server/route.ts:212-362 | Reading the first project of an empty list throws. Past the earlier gates, an icon error throws, a missing icon throws "No icon found", and an `{ error }` object throws `Buffer.from`'s TypeError; the route succeeds exactly when every gate passes and the icon is bytes. A detail has the case, its assignee's name, the named comments and attachments, the history (empty when missing) and the case's project |
| TaskRoutes.BpmnDownloadId | src/features/tasks/server/route.ts:363-388 | Without a project id, the first listed project's BPMN id; with one, that project's; `""` when the project has no BPMN |
| TaskRoutes.BpmnDownloadUrl | src/features/tasks/server/route.ts:389-390 | The download GETs `endpoint/{workspace}/bpmns/{bpmn}/download` for the chosen BPMN in the route's workspace |
| TaskRoutes.ExaminePayload | src/features/tasks/server/route.ts:469-485 | `COMPLETE` asks to close with resolution `CANCELLED` and no assignee; any other action sends the assignee and the action |
| TaskRoutes.ReviewPayload | src/features/tasks/server/route.ts:504-520 | `COMPLETE` sends `close: closed` with resolution `CANCELLED`; any other action sends the assignee and the action |
| TaskRoutes.PaddedCompleteCompletes | src/features/tasks/server/route.ts:465-485 | A padded ` COMPLETE ` is trimmed by the schema and completes |
| Analytics.Tally | src/features/workspaces/server/route.ts:320-419 | Each month's counters are the number of cases in scope created that month, then those assigned to the user, the closed ones (case-insensitive) and the others. Each difference is this month's count minus last month's. Overdue counters are 0 |
| Analytics.CompletedAndIncompletePartition | src/features/workspaces/server/route.ts:365-411 | In both months, completed plus incomplete equals the task count |
| Analytics.AssignedWithinTasks | src/features/workspaces/server/route.ts:341-361 | In both months, the assigned count is at most the task count |
| Analytics.OnlyScopeCounts | src/features/workspaces/server/route.ts:320-336 | Dropping the cases out of scope first changes no counter |
| Analytics.ScopedCounts | src/features/projects/server/route.ts:232-248 | Each month's four counts are the same over the in-scope cases alone |
| Analytics.DifferenceCanBeNegative | src/features/workspaces/server/route.ts:338-339 | A month with fewer cases than the month before gives a negative difference |
| WorkspaceRoutes.AnalyticsUrl | src/features/workspaces/server/route.ts:300-303 | The analytics GET the case listing of the first project only, `endpoint/{workspace}/projects/{first project}/cases` |
| WorkspaceRoutes.WorkspaceAnalytics | src/features/workspaces/server/route.ts:272-435 | Throws when the project listing fails, and gives all zeros when the workspace has no projects. Otherwise it passes the case gates and counts the workspace's cases |
| WorkspaceRoutes.AssignedCountsUnassigned | src/features/workspaces/server/route.ts:312-361 | As written, the analytics equal those with no user: the assigned counters count unassigned cases |
| WorkspaceRoutes.CorrectedCountsTheUsersCases | src/features/workspaces/server/route.ts:341-361 | Corrected, the assigned count is the number of this month's workspace cases assigned to the logged-in user |
| WorkspaceRoutes.AnalyticsFindingWitness | src/features/workspaces/server/route.ts:312 | One case of this month assigned to the logged-in user counts 0 as written and 1 corrected |
| WorkspaceRoutes.InviteUsername | src/features/workspaces/server/route.ts:218 | The e-mail's text before the first `@`, or all of it without one |
| WorkspaceRoutes.Invite | src/features/workspaces/server/route.ts:211-226 | The account has that username, the fixed password, empty names and the reset mail. The login URL contains the username after the reset-password prefix |
| WorkspaceRoutes.InviteUsesLocalPart | src/features/workspaces/server/route.ts:218-225 | An address's local part is the username |
| WorkspaceRoutes.InviteResponse | src/features/workspaces/server/route.ts:227-232 | `success` exactly when the creation's error is falsy, else it throws "Error inviting user" |
| WorkspaceRoutes.CreatorMembers | src/features/workspaces/server/route.ts:146 | `[user.id]` when a profile with a non-empty id exists, else `[]` |
| WorkspaceRoutes.CreatedWorkspacesHaveNoMembers | src/features/workspaces/server/route.ts:121-146 | As written, every new workspace has no members |
| WorkspaceRoutes.LoggedInCreatorBecomesMember | src/features/workspaces/server/route.ts:146 | Corrected, after a successful login the creator is the new workspace's only member |
| ProjectRoutes.TargetOf | src/features/projects/server/route.ts:195-197 | Part 0 of the composite id is the project and part 1 the workspace |
| ProjectRoutes.TargetRoundTrip | src/features/projects/server/route.ts:195-197 | `project,workspace` splits back into the two, when neither contains a comma |
| ProjectRoutes.AnalyticsRequestRoundTrip | src/features/projects/server/route.ts:195-202 | For the parameter `project,workspace` (no commas inside) the analytics list the cases of that project in that workspace, at `endpoint/{workspace}/projects/{project}/cases` |
| ProjectRoutes.ProjectAnalytics | src/features/projects/server/route.ts:194-347 | Throws on a truthy error; gives all zeros for a missing or empty listing; otherwise counts the cases of the parsed project |
| ProjectRoutes.ProjectAssignedCountsUnassigned | src/features/projects/server/route.ts:224-275 | As written, with the user taken from the cases resource, the analytics equal those with no user |
| ProjectRoutes.ProjectCorrectedCountsTheUsersCases | src/features/projects/server/route.ts:253-261 | With the auth resource's user, the assigned count is the number of this month's project cases assigned to that user |
| ProjectRoutes.GetCurrent | src/features/auth/queries.ts:5-27 | The current member is the first listed member whose id is the `user_id` cookie; it is found exactly when the cookie is set, the listing succeeds and such a member exists |
| ProjectRoutes.CreateProjectBody | src/features/projects/server/route.ts:16-75 | Throws "BPMN not created" exactly when BPMN creation fails. The body has the name, the fixed description with the workspace, the BPMN's id, and the creator as only member when known |
| ProjectRoutes.ListedCreatorBecomesMember | src/features/projects/server/route.ts:63 | When the cookie names a listed member, that member is the new project's only member |
| MemberRoutes.ListedRoles | src/features/members/server/route.ts:51-63 | A member's listed roles are the names of its roles, or none when they are missing |
| MemberRoutes.ListMembers | src/features/members/server/route.ts:10-70 | Each gate throws its message ("Something went wrong", "Workspace not found", "Members not found"). Otherwise the route lists, in order, the members whose id is in the workspace's list, each with its details; it throws exactly when a role lookup fails |
| MemberRoutes.ListingIsWorkspaceMembers | src/features/members/server/route.ts:36-38 | The listing is the order-preserving subsequence of all members whose id is in the workspace's member list |
| MemberRoutes.DeleteMember | src/features/members/server/route.ts:72-81 | Answers the member id exactly when deletion's error is falsy |
| MemberRoutes.RoleBodyFor | src/features/members/server/route.ts:105-111 | The id and name of the first catalogue role named like the requested role, or an empty body when none is |
| MemberRoutes.RoleUpdateRequest | src/features/members/server/route.ts:82-117 | Throws "Member not found" for an unknown member and "Something went wrong" on errors; otherwise sends the role body |
| MemberRoutes.RoleUpdateSendsFirstMatch | src/features/members/server/route.ts:105-111 | The body sent is the first matching role's id and name |
| MemberRoutes.UnknownRoleSendsEmptyBody | src/features/members/server/route.ts:105-111 | When no role matches, the update is sent with neither id nor name |
| MemberRoutes.GetMember | src/features/members/utils.ts:8-40 | Throws "Something went wrong" or "Members not found" when the members gate fails, and "Member not available" when no member has the id. For a listed member, a roles error throws "Something went wrong" and missing roles throw "Members Role not found". Otherwise gives the first listed member with the id, with its display name and role names |
| MemberRoutes.MissingRolesDiffer | src/features/members/utils.ts:27-29 | Missing roles make `getMember` throw while the listing shows no roles |
| MemberRoutes.GetMemberAgreesWithListing | src/features/members/utils.ts:8-40 | For unique ids, `getMember` of a listed member gives the same member, name and roles as the listing |
| Kanban.InsertBy | src/features/tasks/components/data-kanban.tsx:47-52 | Inserting into a sorted column keeps it sorted and adds exactly the card |
| Kanban.SortBy | src/features/tasks/components/data-kanban.tsx:47-52 | The column sorted non-decreasingly by creation time, a permutation of its cards |
| Kanban.Column | src/features/tasks/components/data-kanban.tsx:43-52 | A column holds exactly the cases of its status, sorted |
| Kanban.Group | src/features/tasks/components/data-kanban.tsx:35-55 | Fails with the push-on-undefined TypeError exactly when some case has an unknown status. Otherwise each column is sorted and holds exactly the cases of its status |
| Kanban.GroupCoversInput | src/features/tasks/components/data-kanban.tsx:60-80 | The columns together hold exactly the input cases, their sizes sum to the input size, and every card sits in its status's column |
| Kanban.Position | src/features/tasks/components/data-kanban.tsx:137-156 | Every position lies in [1000, 1000000]; it is `(index + 1) * 1000` below index 1000, and 1000000 from index 999 on |
| Kanban.Remove | src/features/tasks/components/data-kanban.tsx:103-104 | Removing a card takes exactly that card out |
| Kanban.InsertAt | src/features/tasks/components/data-kanban.tsx:126-127 | Inserting places the card at the index, or at the end past it, and adds exactly it |
| Kanban.RemoveInsert | src/features/tasks/components/data-kanban.tsx:103-127 | Putting a removed card back at its index restores the column |
| Kanban.InsertRemove | src/features/tasks/components/data-kanban.tsx:103-127 | Removing an inserted card restores the column |
| Kanban.RenumberFrom | src/features/tasks/components/data-kanban.tsx:140-164 | One entry for each card not skipped, with its column's status and its index's position |
| Kanban.DropMutations | src/features/tasks/components/data-kanban.tsx:168-203 | Examine COMPLETE exactly when the card lands in `UNDER_EXAMINATION`. Review COMPLETE with `closed: true` exactly when it lands in `CLOSED`. Review COMPLETE with `closed: false` exactly when it moves from `REVIEW_REQUESTED` to `UNDER_EXAMINATION` |
| Kanban.Landed | src/features/tasks/components/data-kanban.tsx:113-116 | The moved card takes the destination's status when the columns differ |
| Kanban.Move | src/features/tasks/components/data-kanban.tsx:99-128 | The board loses the card and gains it with the destination status, at the destination index (clamped); the other columns are unchanged |
| Kanban.Drop | src/features/tasks/components/data-kanban.tsx:82-207 | With no destination, or an empty source slot, nothing changes and nothing fires. Otherwise the card moves and the drop mutations fire. Every position is in range, and only the source column gets entries of its status, and only when the columns differ |
| Kanban.DropPayloadShape | src/features/tasks/components/data-kanban.tsx:130-164 | The payload numbers the moved card first, then the destination's other cards, then the source's cards only for a move between columns |
| Kanban.DropUndone | src/features/tasks/components/data-kanban.tsx:99-128 | On a grouped board, dragging the card back from where it landed restores the board |
| EditTaskForm.SubmitComment | src/features/tasks/components/edit-task-form.tsx:70-85 | A comment blank after trimming is not posted and stays in the box; otherwise it is posted as typed and the box is cleared |
| EditTaskForm.PostedCommentsPassTheSchema | src/features/tasks/schemas.ts:41-46 | Every comment the form posts passes the comments schema |
| EditTaskForm.AssigneeChange | src/features/tasks/components/edit-task-form.tsx:186-208 | A review ASSIGN exactly when the case is `REVIEW_REQUESTED`, else an examine ASSIGN, each with the case's ids and the chosen user |
| EditTaskForm.AssigneeReachesServer | src/features/tasks/server/route.ts:465-520 | The resulting payload assigns the chosen user |
| EditTaskForm.Capture | src/features/tasks/components/edit-task-form.tsx:308 | The first group of the leftmost match of `prefix(.+?)'`, or none exactly when nothing matches |
| EditTaskForm.CaptureRoundTrip | src/features/tasks/components/edit-task-form.tsx:308-323 | A prefix followed by a non-empty value free of quotes and line terminators, then a quote, captures exactly that value |
| EditTaskForm.NameOf | src/features/tasks/components/edit-task-form.tsx:277-279 | The name of the first option with the id, or `""` when none matches |
| EditTaskForm.ActionEntry | src/features/tasks/components/edit-task-form.tsx:299-332 | One entry for `ASSIGN_TASK` (assigned user from the match, `Unknown` without one) and `ADD_ATTACHMENT` (file from the match, `Unknown file` without one), none for other actions; each names its actor and date |
| EditTaskForm.ActionEntriesContent | src/features/tasks/components/edit-task-form.tsx:299-332 | One entry per assignment or attachment action, in order: the i-th entry is the entry of the i-th such action |
| EditTaskForm.ActivityEntries | src/features/tasks/components/edit-task-form.tsx:274-333 | A `StartEvent` names `created_by` and an `EndEvent` `completed_by`; that entry comes first and is the only start or end entry; the count is that entry plus the logged actions |
| EditTaskForm.ActivityEntriesTail | src/features/tasks/components/edit-task-form.tsx:274-333 | After the start or end entry, an activity's entries are exactly its action entries (none when `actions` is missing) |
| EditTaskForm.ActionsAreNotEvents | src/features/tasks/components/edit-task-form.tsx:299-332 | No action entry is a start or end entry |
| EditTaskForm.FormatActivities | src/features/tasks/components/edit-task-form.tsx:271-336 | One message per entry, rendered in order; missing activities give none; the count is one per start or end activity plus one per logged action |
| EditTaskForm.EntriesAppend | src/features/tasks/components/edit-task-form.tsx:274-333 | The feed of two activity lists is the feed of the first followed by that of the second: messages keep activity order |
| EditTaskForm.EntriesLength | src/features/tasks/components/edit-task-form.tsx:274-333 | The feed has one entry per start or end activity plus one per logged action |
| EditTaskForm.AssignmentNamesMember | src/features/tasks/components/edit-task-form.tsx:304-318 | An assignment whose details name a member option's id shows that member's name |

## Left out

- I/O is not modelled: axios, `cookies()` and the OAuth, profile and resource servers are replaced by the cookie map and scripted replies. Cookie ageing is not modelled: `setTokenCookies` gives the access token, expiry and user id a `maxAge` of `expires_in` (and the refresh token `refresh_expires_in`), after which the browser drops them and `ensureToken` throws "No Token Found". The model's store keeps a cookie until it is overwritten or deleted, so an expired session's cookies are assumed still present and the model refreshes where the deployed program may report no session. `httpOnly` and the other attributes are transport metadata.
- Retry: the source re-sends a request after a refresh through the same interceptor, with no retry counter, so the model asserts no bound on retries. A script that runs out stands for a request still in flight.
- Concurrency is not modelled: refresh races between requests on the shared cookie store, and the order in which `Promise.all` settles. The route's failure message is the same whichever call settles first.
- React's deferred `setTasks` updater is modelled as running at once, so the kanban mutations read the card the updater just moved.
- Dates: month membership (`startOfMonth`/`endOfMonth`/`subMonths`), same-day comparison (`toDateString`), `created_at` timestamps and `format(…, "Pp")` are parameters.
- Randomness: `Math.random()` draws are parameters.
- Encoding and files: base64, `Buffer`, `File`/`Blob`, object URLs, and the icon data URLs. The detail's project is kept without its `imageUrl`. Only whether `Buffer.from` accepts an icon is modelled; its TypeError message is kept without the "Received …" suffix naming the value.
- Unicode: case mapping covers the ASCII letters only, and lengths count code points, where JavaScript counts UTF-16 units.
- zod itself: issue messages other than the ones the routes or tests rely on, and the order of issues.
- Payloads of case creation, comments and attachment upload: the route only copies its validated input into them, with fixed constants, so they are not modelled.
- Request headers are not modelled: custom headers passed from `BaseResource` to `ApiClient` are overwritten or sent as query parameters.
- Dead and static code is not modelled: the commented-out handlers (bulk update, PATCH task, join), `MOCK_CASE*`, and the `!workspaceMembers` check, which can never fire after `filter`.
- Glue: the workspace GET and info handlers only combine a workspace with its icon; the project GET, PATCH and DELETE handlers forward one facade call. The project DELETE ignores the facade's result.
- Kanban: `updatesPayload` is computed but never sent anywhere; the model computes it so its shape can be stated.
- Kanban.Group: does not state that sorting is stable (the insertion sort used is stable, as is `Array.prototype.sort`), only that each column is a sorted permutation.
- A JSON `null` assignee or project id is modelled like a missing one.
- The React components, the mutation and query hooks, the status colour and icon maps, `types.ts` beyond the records used, `use-token.ts` and `use-task-filters.ts` are UI glue and are not modelled.

## Findings

| source | as written | input that shows it | evidently intended | confidence | as-written member | corrected member |
|---|---|---|---|---|---|---|
| src/clearDil/AuthResources.ts:20-22 | `login` keeps only `data` from `fetchToken`'s result and always answers `error: null` | A rejected password grant: `fetchToken` returns `{ data: null, error }`, `login` returns `{ data: null, error: null }`, and the login route (src/features/auth/server/route.ts:34-38) does not throw | The grant's error reaches the route, which then throws "Error Loging In" | not executed | AuthResource.FailedLoginReportsSuccess | AuthResource.CorrectedLoginSucceedsIffFetched |
| src/features/workspaces/server/route.ts:121 | The creator is read from the workspaces resource's client, whose profile is never set: each resource owns its own `ApiClient`, and only the auth resource's `fetchToken` caches a profile | A logged-in user creates a workspace: `members` is `[]` | `members` is `[user.id]` for the logged-in user | not executed | WorkspaceRoutes.CreatedWorkspacesHaveNoMembers | WorkspaceRoutes.LoggedInCreatorBecomesMember |
| src/features/workspaces/server/route.ts:312 | The current user of the analytics is read from the cases resource, which never has one, so `item.assignee_id === currentUser?.id` compares against `undefined` | One case of this month in the workspace, assigned to the logged-in user: the assigned count is 0 | The assigned count is 1: the cases assigned to the logged-in user | not executed | WorkspaceRoutes.AnalyticsFindingWitness | WorkspaceRoutes.CorrectedCountsTheUsersCases |
| src/features/projects/server/route.ts:224 | The same lookup in the project analytics | The same case in the project: the assigned count equals that with no user at all, 0 | The cases of the project assigned to the logged-in user | not executed | ProjectRoutes.ProjectAssignedCountsUnassigned | ProjectRoutes.ProjectCorrectedCountsTheUsersCases |

=== FILE: analytics.dfy ===
/** The monthly counters of the workspace and project analytics routes
    (the two compute them with the same code, differing only in which
    cases are in scope). Month membership of a creation date, which the
    routes decide with date-fns, is a parameter. */
module Analytics {
  import opened Wrappers
  import opened Text
  import opened Seqs
  import opened Domain
  import ApiClient

  /** The ten numbers the analytics routes answer with. */
  datatype Counters = Counters(
    taskCount: int, taskDifference: int,
    assignedTaskCount: int, assignedTaskDifference: int,
    completedTaskCount: int, completedTaskDifference: int,
    incompleteTaskCount: int, incompleteTaskDifference: int,
    overdueTaskCount: int, overdueTaskDifference: int)

  /** The answer when there is nothing to count. */
  const Zero := Counters(0, 0, 0, 0, 0, 0, 0, 0, 0, 0)

  /** `item.status.toLowerCase() === "closed"`. */
  predicate IsClosed(c: Case) {
    ToLower(c.status) == "closed"
  }

  /** A case created in the month `inMonth` recognises and in scope. */
  function InWindow(inMonth: string -> bool, inScope: Case -> bool): Case -> bool {
    (c: Case) => inMonth(c.createdAt) && inScope(c)
  }

  /** `currentUser?.id`: the id of the profile the route consults. */
  function UserIdOf(p: Option<ApiClient.Profile>): Option<string> {
    match p
    case Some(u) => Some(u.id)
    case None => None
  }

  /** `item.assignee_id === currentUser?.id`: with no current user both
      sides can be `undefined`, so an unassigned case then matches. */
  function AssignedTo(user: Option<string>): Case -> bool {
    (c: Case) => c.assigneeId == user
  }

  function Closed(): Case -> bool {
    (c: Case) => IsClosed(c)
  }

  /** The counters over `cases`: for this month and for last month, the
      cases in scope, those assigned to `user`, the closed ones and the
      others, each as this month's count and its difference to last
      month's. Nothing is ever overdue. */
  function Tally(cases: seq<Case>, inThis: string -> bool, inLast: string -> bool, inScope: Case -> bool, user: Option<string>): (r: Counters)
    ensures r.taskCount == Count(cases, InWindow(inThis, inScope))
    ensures r.taskDifference == r.taskCount - Count(cases, InWindow(inLast, inScope))
    ensures r.assignedTaskCount == Count(cases, And(InWindow(inThis, inScope), AssignedTo(user)))
    ensures r.assignedTaskDifference == r.assignedTaskCount - Count(cases, And(InWindow(inLast, inScope), AssignedTo(user)))
    ensures r.completedTaskCount == Count(cases, And(InWindow(inThis, inScope), Closed()))
    ensures r.completedTaskDifference == r.completedTaskCount - Count(cases, And(InWindow(inLast, inScope), Closed()))
    ensures r.incompleteTaskCount == Count(cases, And(InWindow(inThis, inScope), Not(Closed())))
    ensures r.incompleteTaskDifference == r.incompleteTaskCount - Count(cases, And(InWindow(inLast, inScope), Not(Closed())))
    ensures r.overdueTaskCount == 0 && r.overdueTaskDifference == 0
  {
    var thisMonth := InWindow(inThis, inScope);
    var lastMonth := InWindow(inLast, inScope);
    var tasks := (|Filter(cases, thisMonth)|);
    var toUser := (|Filter(cases, And(thisMonth, AssignedTo(user)))|);
    var incomplete := (|Filter(cases, And(thisMonth, Not(Closed())))|);
    var completed := (|Filter(cases, And(thisMonth, Closed()))|);
    CountIsFilterLength(cases, thisMonth);
    CountIsFilterLength(cases, lastMonth);
    CountIsFilterLength(cases, And(thisMonth, AssignedTo(user)));
    CountIsFilterLength(cases, And(lastMonth, AssignedTo(user)));
    CountIsFilterLength(cases, And(thisMonth, Not(Closed())));
    CountIsFilterLength(cases, And(lastMonth, Not(Closed())));
    CountIsFilterLength(cases, And(thisMonth, Closed()));
    CountIsFilterLength(cases, And(lastMonth, Closed()));
    Counters(
      tasks, tasks - |Filter(cases, lastMonth)|,
      toUser, toUser - |Filter(cases, And(lastMonth, AssignedTo(user)))|,
      completed, completed - |Filter(cases, And(lastMonth, Closed()))|,
      incomplete, incomplete - |Filter(cases, And(lastMonth, Not(Closed())))|,
      0, 0)
  }

  /** The counts of last month, recovered from the counters. */
  function LastMonth(r: Counters): (int, int, int, int) {
    (r.taskCount - r.taskDifference, r.assignedTaskCount - r.assignedTaskDifference,
     r.completedTaskCount - r.completedTaskDifference, r.incompleteTaskCount - r.incompleteTaskDifference)
  }

  /** In both months, every counted case is either completed or
      incomplete and not both: the two counts add up to the task count. */
  lemma CompletedAndIncompletePartition(cases: seq<Case>, inThis: string -> bool, inLast: string -> bool, inScope: Case -> bool, user: Option<string>)
    ensures var r := Tally(cases, inThis, inLast, inScope, user);
      r.completedTaskCount + r.incompleteTaskCount == r.taskCount &&
      LastMonth(r).2 + LastMonth(r).3 == LastMonth(r).0
  {
    CountSplit(cases, InWindow(inThis, inScope), Closed());
    CountSplit(cases, InWindow(inLast, inScope), Closed());
  }

  /** In both months, no more cases are assigned than counted. */
  lemma AssignedWithinTasks(cases: seq<Case>, inThis: string -> bool, inLast: string -> bool, inScope: Case -> bool, user: Option<string>)
    ensures var r := Tally(cases, inThis, inLast, inScope, user);
      0 <= r.assignedTaskCount <= r.taskCount && 0 <= LastMonth(r).1 <= LastMonth(r).0
  {
    CountMonotone(cases, And(InWindow(inThis, inScope), AssignedTo(user)), InWindow(inThis, inScope));
    CountMonotone(cases, And(InWindow(inLast, inScope), AssignedTo(user)), InWindow(inLast, inScope));
  }

  /** Only the cases in scope matter: dropping the others first changes
      no counter. */
  lemma OnlyScopeCounts(cases: seq<Case>, inThis: string -> bool, inLast: string -> bool, inScope: Case -> bool, user: Option<string>)
    ensures Tally(Filter(cases, inScope), inThis, inLast, inScope, user) == Tally(cases, inThis, inLast, inScope, user)
  {
    var s := Filter(cases, inScope);
    ScopedCounts(cases, inThis, inScope, user);
    ScopedCounts(cases, inLast, inScope, user);
    var a := Tally(s, inThis, inLast, inScope, user);
    var b := Tally(cases, inThis, inLast, inScope, user);
    assert a.taskCount == b.taskCount && a.taskDifference == b.taskDifference;
    assert a.assignedTaskCount == b.assignedTaskCount && a.assignedTaskDifference == b.assignedTaskDifference;
    assert a.completedTaskCount == b.completedTaskCount && a.completedTaskDifference == b.completedTaskDifference;
    assert a.incompleteTaskCount == b.incompleteTaskCount && a.incompleteTaskDifference == b.incompleteTaskDifference;
  }

  /** The four counts of one month are the same over the cases in scope. */
  lemma ScopedCounts(cases: seq<Case>, inMonth: string -> bool, inScope: Case -> bool, user: Option<string>)
    ensures var s := Filter(cases, inScope); var w := InWindow(inMonth, inScope);
      Count(s, w) == Count(cases, w) &&
      Count(s, And(w, AssignedTo(user))) == Count(cases, And(w, AssignedTo(user))) &&
      Count(s, And(w, Closed())) == Count(cases, And(w, Closed())) &&
      Count(s, And(w, Not(Closed()))) == Count(cases, And(w, Not(Closed())))
  {
    var w := InWindow(inMonth, inScope);
    CountWithinFilter(cases, inScope, w);
    CountWithinFilter(cases, inScope, And(w, AssignedTo(user)));
    CountWithinFilter(cases, inScope, And(w, Closed()));
    CountWithinFilter(cases, inScope, And(w, Not(Closed())));
  }

  /** A month with fewer cases than the month before gives a negative
      difference. */
  lemma DifferenceCanBeNegative(c: Case)
    ensures var r := Tally([c], _ => false, _ => true, _ => true, None);
      r.taskCount == 0 && r.taskDifference == -1
  {
  }
}

=== FILE: api_client.dfy ===
/** The token lifecycle of `ApiClient`.

    The cookie store holds four credential keys. Each client object also
    caches the profile of the signed-in user. Three kinds of HTTP exchange
    occur:
    - with the OAuth2 token endpoint: the password grant of section 4.3.2 of
      RFC 6749 and the refresh grant of section 6 of RFC 6749, both
      authenticated with HTTP Basic client credentials as in section 2.3.1;
    - with the profile endpoint;
    - with the resource server, which receives `Authorization: Bearer …` as
      in section 2.1 of RFC 6750.

    The network is not modelled. Each exchange is answered from a script of
    replies; when a script runs out before the operation ends, the
    operation is left `Pending`. One clock reading `now` stands for every
    `Date.now()` of an operation. */
module ApiClient {
  import opened Wrappers
  import opened Text

  /** The cookie jar of one request: cookie name to value. */
  type Store = map<string, string>

  const AccessKey := "access_token"
  const RefreshKey := "refresh_token"
  const ExpiryKey := "token_expiry"
  const UserIdKey := "user_id"
  const CredentialKeys: set<string> := {AccessKey, RefreshKey, ExpiryKey, UserIdKey}

  const NoTokenFound := "No Token Found"
  const NoRefreshTokenFound := "No Refresh Token Found"

  /** The body of a token-endpoint reply. `userId` is the optional `user_id`
      member of the reply type. */
  datatype TokenResponse = TokenResponse(
    accessToken: string,
    refreshToken: string,
    expiresIn: int,
    refreshExpiresIn: int,
    userId: Option<string>)

  /** The user profile returned by the profile endpoint (only its id
      matters here). */
  datatype Profile = Profile(id: string)

  /** The state of one `ApiClient` object: its client credentials and the
      cached profile (`userInfo`). */
  datatype Client = Client(clientId: string, clientSecret: string, userInfo: Option<Profile>)

  /** What one exchange answers: a body, or an error. `status` is the HTTP
      status of the error response (None when no response arrived). */
  datatype Reply<T> = Fulfilled(data: T) | Rejected(status: Option<int>, message: string)

  datatype Grant = PasswordGrant(username: string, password: string) | RefreshGrant(refreshToken: string)

  datatype Verb = Get | GetBinary | Post | Put | Patch | Delete

  /** A resource request as the transport sends it: verb, URL and the value
      of its Authorization header. */
  datatype Request = Request(verb: Verb, url: string, authorization: string)

  /** One request that left the client. */
  datatype Exchange =
    | TokenExchange(grant: Grant, clientId: string, clientSecret: string)
    | ProfileExchange(authorization: string)
    | ResourceExchange(request: Request)

  /** How an operation ends: it returns a value, it throws an `Error`
      with a message, or it still awaits a reply the script does not hold. */
  datatype Completion<R> = Done(value: R) | Raised(message: string) | Pending

  /** An operation's completion, the store it leaves behind, the requests it
      sent in order, and the token-endpoint replies it did not consume. */
  datatype Run<R> = Run(completion: Completion<R>, store: Store, log: seq<Exchange>, grants: seq<Reply<TokenResponse>>)

  /** `{ data, error }` as the verb methods return it; a None `data` is
      `null`. */
  datatype ApiResponse<T> = ApiResponse(data: Option<T>, error: Option<string>)

  function Bearer(token: string): string {
    "Bearer " + token
  }

  /** A cookie's value, with an absent or empty cookie read as missing
      (`cookie?.value || null`). */
  function CookieValue(store: Store, key: string): (r: Option<string>)
    ensures r.Some? <==> key in store && store[key] != ""
    ensures r.Some? ==> r.value == store[key]
  {
    if key in store && store[key] != "" then Some(store[key]) else None
  }

  /** The stored expiry: no cookie, a cookie `parseInt` reads as `NaN`, or
      a number of milliseconds. */
  datatype Expiry = Absent | NotANumber | At(millis: int)

  datatype Tokens = Tokens(accessToken: Option<string>, refreshToken: Option<string>, tokenExpiry: Expiry)

  function ReadExpiry(store: Store): (e: Expiry)
    ensures e.Absent? <==> CookieValue(store, ExpiryKey).None?
    ensures e.At? ==> ParseInt(store[ExpiryKey]) == Some(e.millis)
    ensures e.NotANumber? ==> ParseInt(store[ExpiryKey]).None?
  {
    match CookieValue(store, ExpiryKey)
    case None => Absent
    case Some(v) =>
      match ParseInt(v)
      case None => NotANumber
      case Some(n) => At(n)
  }

  /** `getTokensFromCookies`. */
  function ReadTokens(store: Store): Tokens {
    Tokens(CookieValue(store, AccessKey), CookieValue(store, RefreshKey), ReadExpiry(store))
  }

  /** The test `ensureToken` makes before anything else: an access token is
      present and the expiry is a truthy number (not `NaN`, not 0). */
  predicate HasSession(store: Store) {
    var t := ReadTokens(store);
    t.accessToken.Some? && t.tokenExpiry.At? && t.tokenExpiry.millis != 0
  }

  /** `setTokenCookies`: writes the access token, the refresh token and the
      absolute expiry `now + expires_in * 1000`; writes `user_id` only when
      the response carries a non-empty one. */
  function SetTokenCookies(store: Store, t: TokenResponse, now: int): (r: Store)
    ensures SameOtherCookies(r, store)
    ensures StoredTokens(r, t, now)
    ensures t.userId.Some? && t.userId.value != "" ==> UserIdKey in r && r[UserIdKey] == t.userId.value
    ensures !(t.userId.Some? && t.userId.value != "") ==>
      (UserIdKey in r <==> UserIdKey in store) && (UserIdKey in store ==> r[UserIdKey] == store[UserIdKey])
  {
    var a := WriteCookie(store, AccessKey, t.accessToken);
    var b := WriteCookie(a, RefreshKey, t.refreshToken);
    var written := WriteCookie(b, ExpiryKey, IntToString(now + t.expiresIn * 1000));
    match t.userId
    case Some(id) => if id != "" then WriteCookie(written, UserIdKey, id) else written
    case None => written
  }

  /** Writes one credential cookie. */
  function WriteCookie(store: Store, key: string, value: string): (r: Store)
    requires key in CredentialKeys
    ensures key in r && r[key] == value
    ensures forall k | k in store && k != key :: k in r && r[k] == store[k]
    ensures SameOtherCookies(r, store)
  {
    store[key := value]
  }

  /** The store holds the access and refresh tokens of `t` and the decimal
      rendering of the absolute expiry `now + expires_in * 1000`. */
  predicate StoredTokens(store: Store, t: TokenResponse, now: int) {
    && AccessKey in store && store[AccessKey] == t.accessToken
    && RefreshKey in store && store[RefreshKey] == t.refreshToken
    && ExpiryKey in store && store[ExpiryKey] == IntToString(now + t.expiresIn * 1000)
  }

  /** Tokens just written are read back as written. */
  lemma ReadAfterSet(store: Store, t: TokenResponse, now: int)
    ensures ReadTokens(SetTokenCookies(store, t, now)).tokenExpiry == At(now + t.expiresIn * 1000)
    ensures t.accessToken != "" ==> ReadTokens(SetTokenCookies(store, t, now)).accessToken == Some(t.accessToken)
    ensures t.refreshToken != "" ==> ReadTokens(SetTokenCookies(store, t, now)).refreshToken == Some(t.refreshToken)
  {
    ParseIntToString(now + t.expiresIn * 1000);
  }

  // ---------------------------------------------------------------------
  // fetchToken

  datatype Credentials = Credentials(username: string, password: string)

  /** The `data` of a `fetchToken` result: `"success"` when the tokens were
      stored, the token response when the caller asked for it. */
  datatype FetchData = SessionStored | TokenReturned(token: TokenResponse)

  datatype FetchRun = FetchRun(response: ApiResponse<FetchData>, client: Client, store: Store, log: seq<Exchange>)

  /** `fetchToken`: the password grant, then the profile request with the
      new access token; the profile is cached, and unless `returnToken` is
      set the tokens and the profile id are stored. Any failure yields
      `{ data: null, error }` and changes nothing. */
  function FetchToken(
    c: Client, store: Store, user: Credentials, returnToken: bool,
    tokenReply: Reply<TokenResponse>, profileReply: Reply<Profile>, now: int): (r: FetchRun)
    ensures |r.log| >= 1 && r.log[0] == TokenExchange(PasswordGrant(user.username, user.password), c.clientId, c.clientSecret)
    ensures |r.log| == 2 <==> tokenReply.Fulfilled?
    ensures |r.log| == 2 ==> r.log[1] == ProfileExchange(Bearer(tokenReply.data.accessToken))
    ensures r.response.error.None? <==> tokenReply.Fulfilled? && profileReply.Fulfilled?
    ensures r.response.data.Some? <==> r.response.error.None?
    ensures r.response.error.Some? ==> r.client == c && r.store == store
    ensures r.response.error.Some? && tokenReply.Rejected? ==> r.response.error == Some(tokenReply.message)
    ensures tokenReply.Fulfilled? && profileReply.Rejected? ==> r.response.error == Some(profileReply.message)
    ensures r.response.error.None? ==> r.client == c.(userInfo := Some(profileReply.data))
    ensures returnToken ==> r.store == store
    ensures returnToken && r.response.error.None? ==> r.response.data == Some(TokenReturned(tokenReply.data))
    ensures !returnToken && r.response.error.None? ==>
      r.response.data == Some(SessionStored) &&
      StoredTokens(r.store, tokenReply.data, now) &&
      (profileReply.data.id != "" ==> UserIdKey in r.store && r.store[UserIdKey] == profileReply.data.id)
  {
    var grant := TokenExchange(PasswordGrant(user.username, user.password), c.clientId, c.clientSecret);
    match tokenReply
    case Rejected(_, m) => FetchRun(ApiResponse(None, Some(m)), c, store, [grant])
    case Fulfilled(t) =>
      var ask := ProfileExchange(Bearer(t.accessToken));
      match profileReply
      case Rejected(_, m) => FetchRun(ApiResponse(None, Some(m)), c, store, [grant, ask])
      case Fulfilled(p) =>
        var cached := c.(userInfo := Some(p));
        if !returnToken then
          FetchRun(ApiResponse(Some(SessionStored), None), cached, SetTokenCookies(store, t.(userId := Some(p.id)), now), [grant, ask])
        else
          FetchRun(ApiResponse(Some(TokenReturned(t)), None), cached, store, [grant, ask])
  }

  // ---------------------------------------------------------------------
  // refreshToken and ensureToken

  /** `refreshToken`: throws before any request when no refresh token is
      stored; otherwise sends the refresh grant and stores the new tokens,
      or rethrows the request's error. */
  function Refresh(c: Client, store: Store, grants: seq<Reply<TokenResponse>>, now: int): (r: Run<()>)
    ensures ReadTokens(store).refreshToken.None? ==> r == Run(Raised(NoRefreshTokenFound), store, [], grants)
    ensures ReadTokens(store).refreshToken.Some? ==>
      r.log == [TokenExchange(RefreshGrant(store[RefreshKey]), c.clientId, c.clientSecret)]
    ensures r.completion.Done? <==> ReadTokens(store).refreshToken.Some? && |grants| > 0 && grants[0].Fulfilled?
    ensures r.completion.Pending? <==> ReadTokens(store).refreshToken.Some? && |grants| == 0
    ensures r.completion.Raised? && ReadTokens(store).refreshToken.Some? ==> r.completion.message == grants[0].message
    ensures !r.completion.Done? ==> r.store == store
    ensures r.completion.Done? ==> StoredTokens(r.store, grants[0].data, now)
    ensures SameOtherCookies(r.store, store)
    ensures NoUserIds(grants) ==> SameUserId(r.store, store)
    ensures r.grants == grants || (|grants| > 0 && r.grants == grants[1..])
  {
    match ReadTokens(store).refreshToken
    case None => Run(Raised(NoRefreshTokenFound), store, [], grants)
    case Some(rt) =>
      var ask := TokenExchange(RefreshGrant(rt), c.clientId, c.clientSecret);
      if |grants| == 0 then Run(Pending, store, [ask], grants)
      else
        match grants[0]
        case Rejected(_, m) => Run(Raised(m), store, [ask], grants[1..])
        case Fulfilled(t) => Run(Done(()), SetTokenCookies(store, t, now), [ask], grants[1..])
  }

  /** No token-endpoint reply in the script carries a `user_id`. */
  predicate NoUserIds(grants: seq<Reply<TokenResponse>>) {
    forall i | 0 <= i < |grants| :: grants[i].Fulfilled? ==> grants[i].data.userId.None?
  }

  /** Two stores agree on every cookie other than the credentials. */
  ghost predicate SameOtherCookies(a: Store, b: Store) {
    forall k | k !in CredentialKeys :: (k in a <==> k in b) && (k in a ==> a[k] == b[k])
  }

  /** Two stores agree on the `user_id` cookie. */
  predicate SameUserId(a: Store, b: Store) {
    (UserIdKey in a <==> UserIdKey in b) && (UserIdKey in a ==> a[UserIdKey] == b[UserIdKey])
  }

  /** The expiry `ensureToken` compares the clock with. */
  function ExpiryOf(store: Store): int
    requires HasSession(store)
  {
    ReadTokens(store).tokenExpiry.millis
  }

  /** `ensureToken`: throws "No Token Found" without a session, refreshes
      when the clock has reached the expiry, and otherwise does nothing. */
  function EnsureToken(c: Client, store: Store, grants: seq<Reply<TokenResponse>>, now: int): (r: Run<()>)
    ensures !HasSession(store) ==> r == Run(Raised(NoTokenFound), store, [], grants)
    ensures HasSession(store) && now < ExpiryOf(store) ==> r == Run(Done(()), store, [], grants)
    ensures |r.log| > 0 <==> HasSession(store) && now >= ExpiryOf(store) && ReadTokens(store).refreshToken.Some?
    ensures |r.log| > 0 ==> RefreshKey in store && r.log == [TokenExchange(RefreshGrant(store[RefreshKey]), c.clientId, c.clientSecret)]
    ensures HasSession(store) && now >= ExpiryOf(store) && ReadTokens(store).refreshToken.None? ==>
      r.completion == Raised(NoRefreshTokenFound)
    ensures HasSession(store) && now >= ExpiryOf(store) && ReadTokens(store).refreshToken.Some? ==>
      (r.completion.Done? <==> |grants| > 0 && grants[0].Fulfilled?) &&
      (r.completion.Done? ==> StoredTokens(r.store, grants[0].data, now)) &&
      (|grants| > 0 && grants[0].Rejected? ==> r.completion == Raised(grants[0].message) && r.store == store)
    ensures SameOtherCookies(r.store, store)
    ensures NoUserIds(grants) ==> SameUserId(r.store, store)
    ensures r.grants == grants || (|grants| > 0 && r.grants == grants[1..])
  {
    if !HasSession(store) then Run(Raised(NoTokenFound), store, [], grants)
    else if now >= ExpiryOf(store) then Refresh(c, store, grants, now)
    else Run(Done(()), store, [], grants)
  }

  /** Tokens stored with a positive lifetime pass the pre-check at any
      moment before their expiry: no refresh is attempted. */
  lemma FreshTokensNeedNoRefresh(c: Client, store: Store, t: TokenResponse, now: int, later: int, grants: seq<Reply<TokenResponse>>)
    requires t.accessToken != "" && now + t.expiresIn * 1000 != 0
    requires now <= later < now + t.expiresIn * 1000
    ensures HasSession(SetTokenCookies(store, t, now))
    ensures EnsureToken(c, SetTokenCookies(store, t, now), grants, later) ==
      Run(Done(()), SetTokenCookies(store, t, now), [], grants)
  {
    ReadAfterSet(store, t, now);
  }

  // ---------------------------------------------------------------------
  // The response interceptor and the verb methods

  /** Carries a failed refresh's completion over to another result type. */
  function Propagate<R>(c: Completion<()>): (r: Completion<R>)
    requires !c.Done?
    ensures r.Raised? <==> c.Raised?
    ensures r.Raised? ==> r.message == c.message
  {
    if c.Raised? then Raised(c.message) else Pending
  }

  /** A resource request through the axios instance and its response
      interceptor: a reply passes through; an error without status 401 is
      rejected as it is; a 401 refreshes the tokens (a failed refresh
      propagates) and re-sends the same request, with the Authorization
      header set from the re-read access token when there is one. The
      re-sent request passes the same interceptor again, with no bound on
      the number of rounds. */
  function Dispatch<T>(c: Client, store: Store, req: Request, replies: seq<Reply<T>>, grants: seq<Reply<TokenResponse>>, now: int): (r: Run<T>)
    ensures |r.log| >= 1 && r.log[0] == ResourceExchange(req)
    ensures |replies| == 0 ==> r == Run(Pending, store, [ResourceExchange(req)], grants)
    ensures |replies| > 0 && replies[0].Fulfilled? ==> r == Run(Done(replies[0].data), store, [ResourceExchange(req)], grants)
    ensures |replies| > 0 && replies[0].Rejected? && replies[0].status != Some(401) ==>
      r == Run(Raised(replies[0].message), store, [ResourceExchange(req)], grants)
    ensures |replies| > 0 && replies[0].Rejected? && replies[0].status == Some(401) && ReadTokens(store).refreshToken.None? ==>
      r == Run(Raised(NoRefreshTokenFound), store, [ResourceExchange(req)], grants)
    ensures (|replies| > 0 && replies[0].Rejected? && replies[0].status == Some(401) && ReadTokens(store).refreshToken.Some? &&
      |grants| > 0 && grants[0].Rejected?) ==>
      r == Run(Raised(grants[0].message), store,
        [ResourceExchange(req), TokenExchange(RefreshGrant(store[RefreshKey]), c.clientId, c.clientSecret)], grants[1..])
    ensures r.completion.Done? ==> Fulfilled(r.completion.value) in replies
    ensures SameOtherCookies(r.store, store)
    ensures NoUserIds(grants) ==> SameUserId(r.store, store)
    decreases |replies|, 2
  {
    if |replies| == 0 then Run(Pending, store, [ResourceExchange(req)], grants)
    else
      match replies[0]
      case Fulfilled(x) => Run(Done(x), store, [ResourceExchange(req)], grants)
      case Rejected(status, m) =>
        if status != Some(401) then Run(Raised(m), store, [ResourceExchange(req)], grants)
        else Reauthorize(c, store, req, replies, grants, now)
  }

  /** The interceptor's answer to a 401 on `req`: refresh, then re-send
      the request with the re-read access token against the remaining
      replies. */
  function Reauthorize<T>(c: Client, store: Store, req: Request, replies: seq<Reply<T>>, grants: seq<Reply<TokenResponse>>, now: int): (r: Run<T>)
    requires |replies| > 0
    ensures |r.log| >= 1 && r.log[0] == ResourceExchange(req)
    ensures ReadTokens(store).refreshToken.None? ==>
      r == Run(Raised(NoRefreshTokenFound), store, [ResourceExchange(req)], grants)
    ensures ReadTokens(store).refreshToken.Some? && |grants| > 0 && grants[0].Rejected? ==>
      r == Run(Raised(grants[0].message), store,
        [ResourceExchange(req), TokenExchange(RefreshGrant(store[RefreshKey]), c.clientId, c.clientSecret)], grants[1..])
    ensures r.completion.Done? ==> Fulfilled(r.completion.value) in replies
    ensures SameOtherCookies(r.store, store)
    ensures NoUserIds(grants) ==> SameUserId(r.store, store)
    decreases |replies|, 1
  {
    var refreshed := Refresh(c, store, grants, now);
    if !refreshed.completion.Done? then
      Run(Propagate(refreshed.completion), refreshed.store, [ResourceExchange(req)] + refreshed.log, refreshed.grants)
    else
      var r := Resend(c, req, replies, Run(Done(()), refreshed.store, [ResourceExchange(req)] + refreshed.log, refreshed.grants), now);
      SameUserIdTransitive(r.store, refreshed.store, store);
      SameOtherCookiesTransitive(r.store, refreshed.store, store);
      r
  }

  /** After a successful refresh (`refreshed`, whose log starts with the
      rejected request), the request goes out again, with the re-read
      access token, against the remaining replies. */
  function Resend<T>(c: Client, req: Request, replies: seq<Reply<T>>, refreshed: Run<()>, now: int): (r: Run<T>)
    requires |replies| > 0 && |refreshed.log| >= 1
    ensures |r.log| >= |refreshed.log| && r.log[..|refreshed.log|] == refreshed.log
    ensures r.completion.Done? ==> Fulfilled(r.completion.value) in replies
    ensures SameOtherCookies(r.store, refreshed.store)
    ensures NoUserIds(refreshed.grants) ==> SameUserId(r.store, refreshed.store)
    decreases |replies|, 0
  {
    var rest := Dispatch(c, refreshed.store, RetryRequest(req, refreshed.store), replies[1..], refreshed.grants, now);
    assert replies == [replies[0]] + replies[1..];
    assert (refreshed.log + rest.log)[..|refreshed.log|] == refreshed.log;
    Run(rest.completion, rest.store, refreshed.log + rest.log, rest.grants)
  }

  /** The re-sent request: the Authorization header is set from the
      re-read access token when there is one. */
  function RetryRequest(req: Request, store: Store): (r: Request)
    ensures r.verb == req.verb && r.url == req.url
    ensures ReadTokens(store).accessToken.Some? ==> r.authorization == Bearer(ReadTokens(store).accessToken.value)
  {
    match ReadTokens(store).accessToken
    case Some(tok) => req.(authorization := Bearer(tok))
    case None => req
  }

  lemma SameUserIdTransitive(a: Store, b: Store, c: Store)
    ensures SameUserId(a, b) && SameUserId(b, c) ==> SameUserId(a, c)
  {
  }

  lemma SameOtherCookiesTransitive(a: Store, b: Store, c: Store)
    requires SameOtherCookies(a, b) && SameOtherCookies(b, c)
    ensures SameOtherCookies(a, c)
  {
  }

  /** A 401 answered by a successful refresh is followed by the same
      request carrying the new access token. */
  lemma RetryCarriesRefreshedToken<T>(c: Client, store: Store, req: Request, replies: seq<Reply<T>>, grants: seq<Reply<TokenResponse>>, now: int)
    requires |replies| > 0 && replies[0].Rejected? && replies[0].status == Some(401)
    requires ReadTokens(store).refreshToken.Some?
    requires |grants| > 0 && grants[0].Fulfilled? && grants[0].data.accessToken != ""
    ensures var r := Dispatch(c, store, req, replies, grants, now);
      |r.log| >= 3 &&
      r.log[1] == TokenExchange(RefreshGrant(store[RefreshKey]), c.clientId, c.clientSecret) &&
      r.log[2] == ResourceExchange(req.(authorization := Bearer(grants[0].data.accessToken)))
  {
    var refreshed := Refresh(c, store, grants, now);
    ReadAfterSet(store, grants[0].data, now);
    assert ReadTokens(refreshed.store).accessToken == Some(grants[0].data.accessToken);
    var retry := RetryRequest(req, refreshed.store);
    assert retry == req.(authorization := Bearer(grants[0].data.accessToken));
    var pre := Run(Done(()), refreshed.store, [ResourceExchange(req)] + refreshed.log, refreshed.grants);
    assert pre.log == [ResourceExchange(req), TokenExchange(RefreshGrant(store[RefreshKey]), c.clientId, c.clientSecret)];
    var rest := Dispatch(c, refreshed.store, retry, replies[1..], refreshed.grants, now);
    var r := Resend(c, req, replies, pre, now);
    assert r.log == pre.log + rest.log;
    assert Reauthorize(c, store, req, replies, grants, now) == r;
    assert Dispatch(c, store, req, replies, grants, now) == r;
  }

  /** The verb methods `get`, `get_download`, `post`, `put`, `patch` and
      `delete`. `ensureToken` runs first, outside the `try`, so its failure
      escapes as a thrown error; `put` skips it when given a non-empty
      explicit token. The request carries `Bearer` and the explicit token,
      or else the stored access token (`null` when there is none). Once
      sent, a reply becomes `{ data }` and any error, including a failed
      refresh inside the interceptor, becomes `{ data: null, error }`. */
  function Send<T>(
    c: Client, store: Store, verb: Verb, url: string, explicit: Option<string>,
    replies: seq<Reply<T>>, grants: seq<Reply<TokenResponse>>, now: int): (r: Run<ApiResponse<T>>)
    requires verb != Put ==> explicit.None?
    ensures !SkipsPreCheck(verb, explicit) && !HasSession(store) ==>
      r == Run(Raised(NoTokenFound), store, [], grants)
    ensures SkipsPreCheck(verb, explicit) ==>
      |r.log| >= 1 && r.log[0] == ResourceExchange(Request(verb, url, Bearer(explicit.value)))
    ensures !SkipsPreCheck(verb, explicit) && HasSession(store) && now < ExpiryOf(store) ==>
      |r.log| >= 1 && r.log[0] == ResourceExchange(Request(verb, url, Bearer(explicit.GetOr(store[AccessKey]))))
    ensures r.completion.Raised? ==> r.log == [] || (RefreshKey in store && r.log == [TokenExchange(RefreshGrant(store[RefreshKey]), c.clientId, c.clientSecret)])
    ensures r.completion.Done? ==> (r.completion.value.data.Some? <==> r.completion.value.error.None?)
    ensures r.completion.Done? && r.completion.value.data.Some? ==> Fulfilled(r.completion.value.data.value) in replies
    ensures PassesPreCheck(store, verb, explicit, now) && |replies| > 0 && replies[0].Fulfilled? ==>
      r.completion == Done(ApiResponse(Some(replies[0].data), None))
    ensures PassesPreCheck(store, verb, explicit, now) && |replies| > 0 && replies[0].Rejected? && replies[0].status != Some(401) ==>
      r.completion == Done(ApiResponse(None, Some(replies[0].message)))
    ensures SameOtherCookies(r.store, store)
    ensures NoUserIds(grants) ==> SameUserId(r.store, store)
  {
    var pre := PreCheck(c, store, verb, explicit, grants, now);
    if !pre.completion.Done? then Run(Propagate(pre.completion), pre.store, pre.log, pre.grants)
    else
      var r := Transmit(c, pre, verb, url, explicit, replies, now);
      SameUserIdTransitive(r.store, pre.store, store);
      SameOtherCookiesTransitive(r.store, pre.store, store);
      r
  }

  /** A verb method on an expired session: `ensureToken` refreshes outside
      the `try`, so a missing refresh token or a rejected grant escapes as
      a thrown error with nothing more sent; after a granted refresh the
      request carries the new access token (or `put`'s explicit one). */
  lemma SendOnExpiredSession<T>(
    c: Client, store: Store, verb: Verb, url: string, explicit: Option<string>,
    replies: seq<Reply<T>>, grants: seq<Reply<TokenResponse>>, now: int)
    requires verb != Put ==> explicit.None?
    requires Expired(store, verb, explicit, now)
    ensures ReadTokens(store).refreshToken.None? ==>
      Send(c, store, verb, url, explicit, replies, grants, now) == Run(Raised(NoRefreshTokenFound), store, [], grants)
    ensures ReadTokens(store).refreshToken.Some? && |grants| > 0 && grants[0].Rejected? ==>
      var r := Send(c, store, verb, url, explicit, replies, grants, now);
      r.completion == Raised(grants[0].message) && r.store == store &&
      r.log == [TokenExchange(RefreshGrant(store[RefreshKey]), c.clientId, c.clientSecret)]
    ensures ReadTokens(store).refreshToken.Some? && |grants| > 0 && grants[0].Fulfilled? && grants[0].data.accessToken != "" ==>
      var r := Send(c, store, verb, url, explicit, replies, grants, now);
      |r.log| >= 2 &&
      r.log[0] == TokenExchange(RefreshGrant(store[RefreshKey]), c.clientId, c.clientSecret) &&
      r.log[1] == ResourceExchange(Request(verb, url, Bearer(explicit.GetOr(grants[0].data.accessToken))))
  {
    if ReadTokens(store).refreshToken.Some? && |grants| > 0 && grants[0].Fulfilled? && grants[0].data.accessToken != "" {
      var pre := PreCheck(c, store, verb, explicit, grants, now);
      ReadAfterSet(store, grants[0].data, now);
      assert BearerToken(pre.store, explicit) == explicit.GetOr(grants[0].data.accessToken);
    }
  }

  /** The bearer a verb method sends: the explicit token when `put` is
      given one (`access_token ?? accessToken`), else the stored access
      token, rendered `null` when there is none. */
  function BearerToken(store: Store, explicit: Option<string>): (tok: string)
    ensures explicit.Some? ==> tok == explicit.value
    ensures explicit.None? && ReadTokens(store).accessToken.Some? ==> tok == ReadTokens(store).accessToken.value
    ensures explicit.None? && ReadTokens(store).accessToken.None? ==> tok == "null"
  {
    match explicit
    case Some(given) => given
    case None => ReadTokens(store).accessToken.GetOr("null")
  }

  /** A verb method once `ensureToken` has passed (`pre`): the request
      goes out with the re-read token and its outcome is delivered after
      the pre-check's exchanges. */
  function Transmit<T>(c: Client, pre: Run<()>, verb: Verb, url: string, explicit: Option<string>, replies: seq<Reply<T>>, now: int): (r: Run<ApiResponse<T>>)
    requires pre.completion.Done?
    ensures |r.log| > |pre.log| && forall i | 0 <= i < |pre.log| :: r.log[i] == pre.log[i]
    ensures r.log[|pre.log|] == ResourceExchange(Request(verb, url, Bearer(BearerToken(pre.store, explicit))))
    ensures !r.completion.Raised?
    ensures r.completion.Done? ==> (r.completion.value.data.Some? <==> r.completion.value.error.None?)
    ensures r.completion.Done? && r.completion.value.data.Some? ==> Fulfilled(r.completion.value.data.value) in replies
    ensures |replies| > 0 && replies[0].Fulfilled? ==> r.completion == Done(ApiResponse(Some(replies[0].data), None))
    ensures |replies| > 0 && replies[0].Rejected? && replies[0].status != Some(401) ==>
      r.completion == Done(ApiResponse(None, Some(replies[0].message)))
    ensures SameOtherCookies(r.store, pre.store)
    ensures NoUserIds(pre.grants) ==> SameUserId(r.store, pre.store)
  {
    var sent := Deliver(c, pre.store, Request(verb, url, Bearer(BearerToken(pre.store, explicit))), replies, pre.grants, now);
    Run(sent.completion, sent.store, pre.log + sent.log, sent.grants)
  }

  /** The `ensureToken` call in front of a verb method, or nothing for a
      `put` given a truthy explicit token. */
  function PreCheck(c: Client, store: Store, verb: Verb, explicit: Option<string>, grants: seq<Reply<TokenResponse>>, now: int): (r: Run<()>)
    ensures PassesPreCheck(store, verb, explicit, now) ==> r == Run(Done(()), store, [], grants)
    ensures !SkipsPreCheck(verb, explicit) && !HasSession(store) ==> r == Run(Raised(NoTokenFound), store, [], grants)
    ensures Expired(store, verb, explicit, now) && ReadTokens(store).refreshToken.None? ==>
      r == Run(Raised(NoRefreshTokenFound), store, [], grants)
    ensures (Expired(store, verb, explicit, now) && ReadTokens(store).refreshToken.Some? &&
      |grants| > 0 && grants[0].Rejected?) ==>
      r == Run(Raised(grants[0].message), store, [TokenExchange(RefreshGrant(store[RefreshKey]), c.clientId, c.clientSecret)], grants[1..])
    ensures (Expired(store, verb, explicit, now) && ReadTokens(store).refreshToken.Some? &&
      |grants| > 0 && grants[0].Fulfilled?) ==>
      r == Run(Done(()), SetTokenCookies(store, grants[0].data, now),
        [TokenExchange(RefreshGrant(store[RefreshKey]), c.clientId, c.clientSecret)], grants[1..])
    ensures Expired(store, verb, explicit, now) && ReadTokens(store).refreshToken.Some? && |grants| == 0 ==>
      r.completion.Pending?
    ensures r.log == [] || (RefreshKey in store && r.log == [TokenExchange(RefreshGrant(store[RefreshKey]), c.clientId, c.clientSecret)])
    ensures SameOtherCookies(r.store, store)
    ensures NoUserIds(grants) ==> SameUserId(r.store, store) && NoUserIds(r.grants)
  {
    if SkipsPreCheck(verb, explicit) then Run(Done(()), store, [], grants) else EnsureToken(c, store, grants, now)
  }

  /** The `try` around the request: the interceptor's reply becomes
      `{ data }` and its error `{ data: null, error }`, so nothing is
      raised past this point. */
  function Deliver<T>(c: Client, store: Store, req: Request, replies: seq<Reply<T>>, grants: seq<Reply<TokenResponse>>, now: int): (r: Run<ApiResponse<T>>)
    ensures |r.log| >= 1 && r.log[0] == ResourceExchange(req)
    ensures !r.completion.Raised?
    ensures r.completion.Done? ==> (r.completion.value.data.Some? <==> r.completion.value.error.None?)
    ensures |replies| > 0 && replies[0].Rejected? && replies[0].status != Some(401) ==>
      r.completion == Done(ApiResponse(None, Some(replies[0].message)))
    ensures |replies| > 0 && replies[0].Rejected? && replies[0].status == Some(401) && ReadTokens(store).refreshToken.None? ==>
      r.completion == Done(ApiResponse(None, Some(NoRefreshTokenFound)))
    ensures (|replies| > 0 && replies[0].Rejected? && replies[0].status == Some(401) && ReadTokens(store).refreshToken.Some? &&
      |grants| > 0 && grants[0].Rejected?) ==>
      r.completion == Done(ApiResponse(None, Some(grants[0].message)))
    ensures r.completion.Done? && r.completion.value.data.Some? ==> Fulfilled(r.completion.value.data.value) in replies
    ensures SameOtherCookies(r.store, store)
    ensures NoUserIds(grants) ==> SameUserId(r.store, store)
    ensures |replies| > 0 && replies[0].Fulfilled? ==> r.completion == Done(ApiResponse(Some(replies[0].data), None))
  {
    var sent := Dispatch(c, store, req, replies, grants, now);
    var completion := match sent.completion
      case Done(x) => Done(ApiResponse(Some(x), None))
      case Raised(m) => Done(ApiResponse(None, Some(m)))
      case Pending => Pending;
    Run(completion, sent.store, sent.log, sent.grants)
  }

  /** The request leaves without any exchange before it: the pre-check is
      skipped, or it finds a session that has not expired. */
  predicate PassesPreCheck(store: Store, verb: Verb, explicit: Option<string>, now: int) {
    SkipsPreCheck(verb, explicit) || (HasSession(store) && now < ExpiryOf(store))
  }

  /** The pre-check runs and finds a session whose expiry the clock has
      reached, so it refreshes. */
  predicate Expired(store: Store, verb: Verb, explicit: Option<string>, now: int) {
    !SkipsPreCheck(verb, explicit) && HasSession(store) && now >= ExpiryOf(store)
  }

  /** `put` given a truthy explicit token does not call `ensureToken`. */
  predicate SkipsPreCheck(verb: Verb, explicit: Option<string>) {
    verb == Put && explicit.Some? && explicit.value != ""
  }

  // ---------------------------------------------------------------------
  // handleLogout

  datatype Session = Session(client: Client, store: Store)

  /** `handleLogout`: deletes the four credential cookies and forgets the
      cached profile. */
  function HandleLogout(s: Session): (r: Session)
    ensures forall k | k in CredentialKeys :: k !in r.store
    ensures forall k | k in s.store && k !in CredentialKeys :: k in r.store && r.store[k] == s.store[k]
    ensures r.store.Keys <= s.store.Keys
    ensures r.client.userInfo.None?
    ensures r.client.clientId == s.client.clientId && r.client.clientSecret == s.client.clientSecret
  {
    Session(s.client.(userInfo := None), s.store - CredentialKeys)
  }

  /** After a logout no operation has a session to work with. */
  lemma LogoutEndsSession(s: Session)
    ensures !HasSession(HandleLogout(s).store)
    ensures ReadTokens(HandleLogout(s).store) == Tokens(None, None, Absent)
  {
  }

  /** Logging out twice is logging out once. */
  lemma LogoutIdempotent(s: Session)
    ensures HandleLogout(HandleLogout(s)) == HandleLogout(s)
  {
    assert HandleLogout(s).store - CredentialKeys == HandleLogout(s).store;
  }
}

=== FILE: auth_resource.dfy ===
/** `AuthResources`: the only resource whose client ever runs the
    password grant, and so the only one that ever caches a profile. */
module AuthResource {
  import opened Wrappers
  import opened ApiClient
  import opened BaseResource

  /** What `login` leaves behind: its result, the resource with its
      client's profile, the store and the exchanges it made. */
  datatype LoginRun = LoginRun(result: Envelope<FetchData>, res: Resource, store: Store, log: seq<Exchange>)

  /** `login` as written: `const { data } = await fetchToken(user,
      returnToken); return { data, error: null }`. The `error` of
      `fetchToken`'s result is dropped, so a failed login reads as
      `{ data: null, error: null }`. */
  function Login(
    res: Resource, store: Store, user: Credentials, returnToken: bool,
    tokenReply: Reply<TokenResponse>, profileReply: Reply<Profile>, now: int): (r: LoginRun)
    ensures r.result.error.None?
    ensures r.result.data.Value? <==> tokenReply.Fulfilled? && profileReply.Fulfilled?
    ensures !r.result.data.Undefined?
    ensures r.result.data.Value? && returnToken ==> r.result.data.value == TokenReturned(tokenReply.data)
    ensures r.result.data.Value? && !returnToken ==>
      r.result.data.value == SessionStored && StoredTokens(r.store, tokenReply.data, now)
    ensures returnToken ==> r.store == store
    ensures r.res.endpoint == res.endpoint
    ensures r.result.data.Value? ==> r.res.client.userInfo == Some(profileReply.data)
    ensures !r.result.data.Value? ==> r.res == res && r.store == store
  {
    var f := FetchToken(res.client, store, user, returnToken, tokenReply, profileReply, now);
    var data := if f.response.data.Some? then Value(f.response.data.value) else Null;
    LoginRun(Envelope(data, None), res.(client := f.client), f.store, f.log)
  }

  /** `login` as evidently intended: the same, but reporting
      `fetchToken`'s error. */
  function LoginReportingErrors(
    res: Resource, store: Store, user: Credentials, returnToken: bool,
    tokenReply: Reply<TokenResponse>, profileReply: Reply<Profile>, now: int): (r: LoginRun)
    ensures r.result.error.Some? <==> !(tokenReply.Fulfilled? && profileReply.Fulfilled?)
    ensures tokenReply.Rejected? ==> r.result.error == Some(tokenReply.message)
    ensures tokenReply.Fulfilled? && profileReply.Rejected? ==> r.result.error == Some(profileReply.message)
    ensures r.result.data == Login(res, store, user, returnToken, tokenReply, profileReply, now).result.data
    ensures r.res == Login(res, store, user, returnToken, tokenReply, profileReply, now).res
    ensures r.store == Login(res, store, user, returnToken, tokenReply, profileReply, now).store
  {
    var f := FetchToken(res.client, store, user, returnToken, tokenReply, profileReply, now);
    var data := if f.response.data.Some? then Value(f.response.data.value) else Null;
    LoginRun(Envelope(data, f.response.error), res.(client := f.client), f.store, f.log)
  }

  /** The login handler of the auth route: it throws when the result
      carries a (truthy) error and answers `{ success: true }` otherwise. */
  function LoginHandler(result: Envelope<FetchData>): (r: Result<bool>)
    ensures r.Success? <==> result.error.None? || result.error.value == ""
    ensures r.Success? ==> r.value
  {
    if result.error.Some? && result.error.value != "" then Failure("Error Loging In") else Success(true)
  }

  /** With `login` as written, a rejected password grant (a wrong
      password) is answered `{ success: true }`, and no session exists
      afterwards. */
  lemma FailedLoginReportsSuccess(
    res: Resource, store: Store, user: Credentials,
    status: Option<int>, message: string, profileReply: Reply<Profile>, now: int)
    ensures var r := Login(res, store, user, false, Rejected(status, message), profileReply, now);
      LoginHandler(r.result) == Success(true) && r.store == store && r.result.data.Null?
  {
  }

  /** With the error reported, the handler succeeds exactly when both the
      token and the profile request succeed (failures carry a message, as
      axios errors do). */
  lemma CorrectedLoginSucceedsIffFetched(
    res: Resource, store: Store, user: Credentials, returnToken: bool,
    tokenReply: Reply<TokenResponse>, profileReply: Reply<Profile>, now: int)
    requires tokenReply.Rejected? ==> tokenReply.message != ""
    requires profileReply.Rejected? ==> profileReply.message != ""
    ensures LoginHandler(LoginReportingErrors(res, store, user, returnToken, tokenReply, profileReply, now).result).Success?
      <==> tokenReply.Fulfilled? && profileReply.Fulfilled?
  {
  }

  /** `getUserInfo`: the cached profile, or null when there is none. */
  function GetUserInfo(res: Resource): (r: Option<Profile>)
    ensures r.None? <==> res.client.userInfo.None?
    ensures r.Some? ==> r == res.client.userInfo
  {
    if res.client.userInfo.None? then None else res.client.userInfo
  }
}

=== FILE: auth_schemas.dfy ===
/** The zod schemas of `src/features/auth/schemas.ts` as parsers from
    the submitted strings to the parsed value or the issues found. */
module AuthSchemas {
  import opened Text
  import opened Validation

  // ---------------------------------------------------------------------
  // loginSchema

  datatype Login = Login(username: string, password: string)

  /** `loginSchema`: the username is trimmed and must not be blank; the
      password is kept as typed and need only be non-empty. */
  function ParseLogin(username: string, password: string): (r: Parsed<Login>)
    ensures r.Valid? <==> !Blank(username) && |password| >= 1
    ensures r.Valid? ==> r.value == Login(Trim(username), password)
    ensures r.Invalid? ==> (Issue("username", Required) in r.issues <==> Blank(username))
    ensures r.Invalid? ==> (Issue("password", Required) in r.issues <==> password == "")
  {
    var issues := TrimmedRequired("username", username) + MinLength("password", password, 1, Required);
    Conclude(issues, Login(Trim(username), password))
  }

  /** A password of spaces passes, because it is not trimmed. */
  lemma BlankPasswordAccepted(username: string)
    requires !Blank(username)
    ensures ParseLogin(username, " ").Valid?
  {
  }

  /** Parsing a parsed login again gives it back unchanged. */
  lemma LoginNormalised(username: string, password: string)
    requires ParseLogin(username, password).Valid?
    ensures var v := ParseLogin(username, password).value; ParseLogin(v.username, v.password) == Valid(v)
  {
    TrimIdempotent(username);
    TrimEmptyIffBlank(Trim(username));
    TrimEmptyIffBlank(username);
  }

  // ---------------------------------------------------------------------
  // resetPasswordApiSchema

  datatype PasswordReset = PasswordReset(newPassword: string, username: string, password: string)

  /** `resetPasswordApiSchema`: any three strings pass; only the username
      is trimmed. */
  function ParseResetPasswordApi(newPassword: string, username: string, password: string): (r: Parsed<PasswordReset>)
    ensures r.Valid?
    ensures r.value.newPassword == newPassword && r.value.password == password
    ensures r.value.username == Trim(username)
  {
    Conclude([], PasswordReset(newPassword, Trim(username), password))
  }

  // ---------------------------------------------------------------------
  // resetPasswordSchema

  const TooShort := "Password must be at least 8 characters"
  const NoUpper := "Password must contain at least one uppercase letter"
  const NoLower := "Password must contain at least one lowercase letter"
  const NoDigit := "Password must contain at least one number"
  const NoSpecial := "Password must contain at least one special character (!@#$%^&*)"
  const NoConfirmation := "Confirmation is required"
  const Mismatch := "Passwords do not match"

  /** Whether some character of `s` satisfies `p` (a one-class regex test). */
  predicate Contains(s: string, p: char -> bool) {
    exists i | 0 <= i < |s| :: p(s[i])
  }

  predicate IsSpecial(c: char) { !IsAlnum(c) }

  /** The password policy: at least eight characters, among them an
      upper-case letter, a lower-case letter, a digit and a character
      outside `[A-Za-z0-9]` (`[\W_]`). */
  predicate StrongPassword(p: string) {
    |p| >= 8 && Contains(p, IsUpper) && Contains(p, IsLower) && Contains(p, IsDigit) && Contains(p, IsSpecial)
  }

  datatype NewPassword = NewPassword(newPassword: string, confirmPassword: string)

  /** The issues of the new password, one per rule it breaks, in the
      order the rules are declared. */
  function PolicyIssues(p: string): (r: seq<Issue>)
    ensures |r| == 0 <==> StrongPassword(p)
    ensures forall i | 0 <= i < |r| :: r[i].path == "newPassword"
    ensures |r| <= 5
  {
    Check(|p| >= 8, "newPassword", TooShort) +
    Check(Contains(p, IsUpper), "newPassword", NoUpper) +
    Check(Contains(p, IsLower), "newPassword", NoLower) +
    Check(Contains(p, IsDigit), "newPassword", NoDigit) +
    Check(Contains(p, IsSpecial), "newPassword", NoSpecial)
  }

  /** `resetPasswordSchema`: the field checks, then the refinement that
      the confirmation repeats the password, reported on
      `confirmPassword`. zod runs the refinement even when a field check
      has already failed, so both kinds of issue can appear together. */
  function ParseResetPassword(newPassword: string, confirmPassword: string): (r: Parsed<NewPassword>)
    ensures r.Valid? <==> StrongPassword(newPassword) && confirmPassword != "" && newPassword == confirmPassword
    ensures r.Valid? ==> r.value == NewPassword(newPassword, confirmPassword)
    ensures r.Invalid? ==> (Issue("newPassword", TooShort) in r.issues <==> |newPassword| < 8)
    ensures r.Invalid? ==> (Issue("newPassword", NoSpecial) in r.issues <==> !Contains(newPassword, IsSpecial))
    ensures r.Invalid? ==> (Issue("confirmPassword", Mismatch) in r.issues <==> newPassword != confirmPassword)
    ensures r.Invalid? ==> (Issue("confirmPassword", NoConfirmation) in r.issues <==> confirmPassword == "")
  {
    var fields := PolicyIssues(newPassword) + MinLength("confirmPassword", confirmPassword, 1, NoConfirmation);
    var issues := fields + Check(newPassword == confirmPassword, "confirmPassword", Mismatch);
    Conclude(issues, NewPassword(newPassword, confirmPassword))
  }

  /** A matching pair can still be refused for a weak password, and the
      mismatch message then stays out of the issues. */
  lemma WeakMatchingPasswordRefused()
    ensures var r := ParseResetPassword("password", "password");
      r.Invalid? && Issue("newPassword", NoUpper) in r.issues && Issue("confirmPassword", Mismatch) !in r.issues
  {
    var r := ParseResetPassword("password", "password");
    assert !Contains("password", IsUpper);
    assert r.issues[0] == Issue("newPassword", NoUpper);
  }

  /** An example: an eight-character password with all four classes is
      accepted. The all-inputs characterisation is `PolicyIssues`. */
  lemma StrongPasswordAccepted()
    ensures ParseResetPassword("Abcdef1!", "Abcdef1!").Valid?
  {
    var p := "Abcdef1!";
    assert IsUpper(p[0]) && IsLower(p[1]) && IsDigit(p[6]) && IsSpecial(p[7]);
  }

  // ---------------------------------------------------------------------
  // registerSchema

  datatype Registration = Registration(username: string, firstName: string, lastName: string, email: string, password: string)

  /** The message of the register schema's password check. */
  const TooShortToRegister := "Minimum of 8 characters required"

  /** `registerSchema`: the four name fields are trimmed and must not be
      blank; the password must have at least eight characters. */
  function ParseRegister(username: string, firstName: string, lastName: string, email: string, password: string): (r: Parsed<Registration>)
    ensures r.Valid? <==> !Blank(username) && !Blank(firstName) && !Blank(lastName) && !Blank(email) && |password| >= 8
    ensures r.Valid? ==> r.value == Registration(Trim(username), Trim(firstName), Trim(lastName), Trim(email), password)
    ensures r.Invalid? ==> (Issue("password", TooShortToRegister) in r.issues <==> |password| < 8)
    ensures r.Invalid? ==> (Issue("email", Required) in r.issues <==> Blank(email))
  {
    var issues := RegisterIssues(username, firstName, lastName, email, password);
    RegisterPasswordIssue(username, firstName, lastName, email, password);
    RegisterEmailIssue(username, firstName, lastName, email, password);
    Conclude(issues, Registration(Trim(username), Trim(firstName), Trim(lastName), Trim(email), password))
  }

  /** The issues of the register schema, field by field. */
  function RegisterIssues(username: string, firstName: string, lastName: string, email: string, password: string): (r: seq<Issue>)
    ensures |r| == 0 <==> !Blank(username) && !Blank(firstName) && !Blank(lastName) && !Blank(email) && |password| >= 8
  {
    NameIssues(username, firstName, lastName) + TrimmedRequired("email", email) + MinLength("password", password, 8, TooShortToRegister)
  }

  /** The issues of the three name fields. */
  function NameIssues(username: string, firstName: string, lastName: string): (r: seq<Issue>)
    ensures forall x | x in r :: x.path in {"username", "firstName", "lastName"}
  {
    TrimmedRequired("username", username) + TrimmedRequired("firstName", firstName) + TrimmedRequired("lastName", lastName)
  }

  /** The password issue is reported exactly for a short password. */
  lemma RegisterPasswordIssue(username: string, firstName: string, lastName: string, email: string, password: string)
    ensures Issue("password", TooShortToRegister) in RegisterIssues(username, firstName, lastName, email, password) <==> |password| < 8
  {
    assert "password"[0] != "username"[0] && "password"[0] != "lastName"[0];
  }

  /** The e-mail issue is reported exactly for a blank address. */
  lemma RegisterEmailIssue(username: string, firstName: string, lastName: string, email: string, password: string)
    ensures Issue("email", Required) in RegisterIssues(username, firstName, lastName, email, password) <==> Blank(email)
  {
  }

  /** Registration asks less of a password than a reset does. */
  lemma ResetPolicyImpliesRegisterLength(p: string)
    requires StrongPassword(p)
    ensures ParseRegister("u", "f", "l", "e", p).Valid?
  {
    assert !IsSpace('u') && !IsSpace('f') && !IsSpace('l') && !IsSpace('e');
  }
}

=== FILE: base_resource.dfy ===
/** `BaseResource`: every resource object owns an `ApiClient` and an
    endpoint fixed at construction. Each operation names a URL, either below
    an override base `url` or below the endpoint, and a failure message. It
    sends one request through the client and never throws: an error that
    escapes the client becomes `{ error: message }`. */
module BaseResource {
  import opened Wrappers
  import opened Text
  import opened ApiClient

  /** A resource object: `endpoint = API_URL + path` and its own client. */
  datatype Resource = Resource(endpoint: string, client: Client)

  /** The constructor: a fresh client with no cached profile. */
  function NewResource(apiUrl: string, path: string, clientId: string, clientSecret: string): (r: Resource)
    ensures apiUrl <= r.endpoint && r.endpoint[|apiUrl|..] == path
    ensures r.client.userInfo.None?
  {
    Resource(apiUrl + path, Client(clientId, clientSecret, None))
  }

  /** The operations of the class, with the arguments that shape their URL.
      Request bodies and custom headers are not modelled. */
  datatype Operation =
    | GetById(id: string, url: Option<string>)
    | GetDownload(id: string, url: Option<string>)
    | GetAll(url: Option<string>)
    | Create(url: Option<string>)
    | ReviewById(id: string, url: Option<string>)
    | ExamineById(id: string, url: Option<string>)
    | UploadAttachment(id: string, url: Option<string>)
    | GetAttachments(id: string, url: Option<string>)
    | GetRoles(id: string)
    | GetAllRoles
    | UpdateRoles(id: string)
    | UpdatePassword(id: string, accessToken: Option<string>)
    | DownloadAttachment(caseId: string, id: string, workspaceId: string, projectId: string)
    | GetIcon(id: string, url: Option<string>)
    | CreateComment(id: string, url: Option<string>)
    | GetComments(id: string, url: Option<string>)
    | GetHistory(id: string, url: Option<string>)
    | UpdateById(id: string, url: Option<string>)
    | DeleteById(id: string, url: Option<string>)
  {
    /** The operations whose URL ignores any override and starts at the
        endpoint. */
    predicate UsesEndpoint() {
      GetRoles? || GetAllRoles? || UpdateRoles? || UpdatePassword? || DownloadAttachment?
    }
  }

  /** What an operation sends: verb, URL, the message it reports when the
      client throws, and the explicit token only `updatePassword` passes. */
  datatype Call = Call(verb: Verb, url: string, failure: string, explicitToken: Option<string>)

  /** `url ?? this.endpoint`. */
  function Base(res: Resource, url: Option<string>): string {
    url.GetOr(res.endpoint)
  }

  /** `base/s1/s2/…`: a template `${base}/${s1}/…` filled in. */
  function Path(base: string, segs: seq<string>): string
    decreases |segs|
  {
    if |segs| == 0 then base else Path(base, segs[..|segs| - 1]) + "/" + segs[|segs| - 1]
  }

  /** The message `handleError` reports: `${word} request failed for ${target}`. */
  function RequestFailed(word: string, target: string): string {
    word + " request failed for " + target
  }

  /** The template each operation fills in, with its failure message. */
  function Plan(res: Resource, op: Operation): (r: Call)
    ensures r.explicitToken.Some? ==> r.verb == Put
    ensures op.UpdatePassword? ==> r.verb == Put && r.explicitToken == op.accessToken
  {
    match op
    case GetById(id, url) =>
      Call(Get, Path(Base(res, url), [id]), RequestFailed("GET", Path(res.endpoint, [id])), None)
    case GetDownload(id, url) =>
      var target := Path(Base(res, url), [id, "download"]);
      Call(Get, target, RequestFailed("GET", target), None)
    case GetAll(url) =>
      Call(Get, Base(res, url), RequestFailed("GET all", Base(res, url)), None)
    case Create(url) =>
      Call(Post, Base(res, url), RequestFailed("POST", Base(res, url)), None)
    case ReviewById(id, url) =>
      var target := Path(Base(res, url), [id, "review"]);
      Call(Post, target, RequestFailed("POST", target), None)
    case ExamineById(id, url) =>
      var target := Path(Base(res, url), [id, "examine"]);
      Call(Post, target, RequestFailed("POST", target), None)
    case UploadAttachment(id, url) =>
      var target := Path(Base(res, url), [id, "attachments"]);
      Call(Post, target, RequestFailed("POST", target), None)
    case GetAttachments(id, url) =>
      var target := Path(Base(res, url), [id, "attachments"]);
      Call(Get, target, RequestFailed("GET", target), None)
    case GetRoles(id) =>
      var target := Path(res.endpoint, [id, "roles"]);
      Call(Get, target, RequestFailed("GET", target), None)
    case GetAllRoles =>
      var target := Path(res.endpoint, ["roles"]);
      Call(Get, target, RequestFailed("GET", target), None)
    case UpdateRoles(id) =>
      var target := Path(res.endpoint, [id, "roles"]);
      Call(Put, target, RequestFailed("PUT", target), None)
    case UpdatePassword(id, token) =>
      var target := Path(res.endpoint, [id, "password"]);
      Call(Put, target, RequestFailed("PUT", target), token)
    case DownloadAttachment(caseId, id, ws, p) =>
      Call(GetBinary,
        Path(res.endpoint, [ws, "projects", p, "cases", caseId, "attachments", id]),
        RequestFailed("GET", Path(res.endpoint, [caseId, "attachments", id])), None)
    case GetIcon(id, url) =>
      var target := Path(Base(res, url), [id, "icon"]);
      Call(GetBinary, target, RequestFailed("GET", target), None)
    case CreateComment(id, url) =>
      var target := Path(Base(res, url), [id, "comments"]);
      Call(Post, target, RequestFailed("POST", target), None)
    case GetComments(id, url) =>
      var target := Path(Base(res, url), [id, "comments"]);
      Call(Get, target, RequestFailed("GET", target), None)
    case GetHistory(id, url) =>
      var target := Path(Base(res, url), [id, "history"]);
      Call(Get, target, RequestFailed("GET", target), None)
    case UpdateById(id, url) =>
      var target := Path(Base(res, url), [id]);
      Call(Put, target, RequestFailed("PUT", target), None)
    case DeleteById(id, url) =>
      var target := Path(Base(res, url), [id]);
      Call(Delete, target, RequestFailed("DELETE", target), None)
  }

  /** The one-segment and two-segment paths are the literal templates
      `${base}/${id}` and `${base}/${id}/suffix`. */
  lemma PathTemplates(b: string, x: string, suffix: string)
    ensures Path(b, [x]) == b + "/" + x
    ensures Path(b, [x, suffix]) == b + "/" + x + ("/" + suffix)
  {
    assert [x][..0] == [];
    assert [x, suffix][..1] == [x];
  }

  // ---------------------------------------------------------------------
  // A reference description of the URLs: a base and a list of segments

  /** The base an operation's URL starts from. */
  function RootOf(res: Resource, op: Operation): string {
    if op.UsesEndpoint() then res.endpoint else Base(res, op.url)
  }

  /** The path segments an operation appends to its base, in order: the id
      for by-id operations, the id and a fixed suffix for sub-resources. */
  function Segments(op: Operation): seq<string> {
    match op
    case GetById(id, _) => [id]
    case GetDownload(id, _) => [id, "download"]
    case GetAll(_) => []
    case Create(_) => []
    case ReviewById(id, _) => [id, "review"]
    case ExamineById(id, _) => [id, "examine"]
    case UploadAttachment(id, _) => [id, "attachments"]
    case GetAttachments(id, _) => [id, "attachments"]
    case GetRoles(id) => [id, "roles"]
    case GetAllRoles => ["roles"]
    case UpdateRoles(id) => [id, "roles"]
    case UpdatePassword(id, _) => [id, "password"]
    case DownloadAttachment(caseId, id, ws, p) => [ws, "projects", p, "cases", caseId, "attachments", id]
    case GetIcon(id, _) => [id, "icon"]
    case CreateComment(id, _) => [id, "comments"]
    case GetComments(id, _) => [id, "comments"]
    case GetHistory(id, _) => [id, "history"]
    case UpdateById(id, _) => [id]
    case DeleteById(id, _) => [id]
  }

  /** The verb each operation uses. */
  function VerbOf(op: Operation): Verb {
    match op
    case Create(_) => Post
    case ReviewById(_, _) => Post
    case ExamineById(_, _) => Post
    case UploadAttachment(_, _) => Post
    case CreateComment(_, _) => Post
    case UpdateRoles(_) => Put
    case UpdatePassword(_, _) => Put
    case UpdateById(_, _) => Put
    case DeleteById(_, _) => Delete
    case DownloadAttachment(_, _, _, _) => GetBinary
    case GetIcon(_, _) => GetBinary
    case _ => Get
  }

  /** Every template is its base followed by its segments, and its verb is
      the one the operation's name promises. */
  lemma PlanMatchesSegments(res: Resource, op: Operation)
    ensures Plan(res, op).url == Path(RootOf(res, op), Segments(op))
    ensures Plan(res, op).verb == VerbOf(op)
  {
  }

  /** Splitting a URL at `/` recovers the segments appended to its base,
      provided no segment holds a `/`. */
  lemma {:induction false} SplitPath(base: string, segs: seq<string>)
    requires forall i | 0 <= i < |segs| :: '/' !in segs[i]
    ensures Split(Path(base, segs), '/') == Split(base, '/') + segs
    decreases |segs|
  {
    if |segs| > 0 {
      var init := segs[..|segs| - 1];
      var last := segs[|segs| - 1];
      SplitPath(base, init);
      assert Path(base, segs) == Path(base, init) + ['/'] + last;
      SplitAround(Path(base, init), last, '/');
      SplitAtom(last, '/');
      assert segs == init + [last];
    }
  }

  /** An operation's URL splits into its base's segments followed by its
      own: by-id operations end in the id, sub-resource operations in the id
      and their fixed suffix. */
  lemma UrlSegments(res: Resource, op: Operation)
    requires forall i | 0 <= i < |Segments(op)| :: '/' !in Segments(op)[i]
    ensures Split(Plan(res, op).url, '/') == Split(RootOf(res, op), '/') + Segments(op)
  {
    PlanMatchesSegments(res, op);
    SplitPath(RootOf(res, op), Segments(op));
  }

  /** The role, password and attachment-download operations start at the
      endpoint whatever override other operations might be given; the
      others start at the override when there is one. */
  lemma RootIsEndpointOrOverride(res: Resource, op: Operation)
    ensures op.UsesEndpoint() ==> res.endpoint <= Plan(res, op).url
    ensures !op.UsesEndpoint() && op.url.Some? ==> op.url.value <= Plan(res, op).url
    ensures !op.UsesEndpoint() && op.url.None? ==> res.endpoint <= Plan(res, op).url
  {
    PlanMatchesSegments(res, op);
    PathExtends(RootOf(res, op), Segments(op));
  }

  lemma {:induction false} PathExtends(base: string, segs: seq<string>)
    ensures base <= Path(base, segs)
    decreases |segs|
  {
    if |segs| > 0 {
      PathExtends(base, segs[..|segs| - 1]);
    }
  }

  /** The word an operation's failure message opens with. */
  function Word(op: Operation): string {
    if op.GetAll? then "GET all" else VerbWord(VerbOf(op))
  }

  /** The failure message names the URL the request went to. */
  predicate NamesTarget(res: Resource, op: Operation) {
    Plan(res, op).failure == RequestFailed(Word(op), Plan(res, op).url)
  }

  /** The failure message names the request's own URL, with two exceptions:
      `getById` names `endpoint/id` even under an override base, and
      `downloadAttachment` names `endpoint/caseId/attachments/id`, leaving out
      the workspace and project. */
  lemma FailureNamesTarget(res: Resource, op: Operation)
    ensures NamesTarget(res, op) <==>
      !op.DownloadAttachment? && !(op.GetById? && Base(res, op.url) != res.endpoint)
  {
    if op.DownloadAttachment? {
      DownloadFailureDiffers(res, op.caseId, op.id, op.workspaceId, op.projectId);
    } else if op.GetById? {
      GetByIdFailure(res, op.id, op.url);
    } else {
      OtherFailures(res, op);
    }
  }

  lemma OtherFailures(res: Resource, op: Operation)
    requires !op.DownloadAttachment? && !op.GetById?
    ensures NamesTarget(res, op)
  {
  }

  lemma DownloadFailureDiffers(res: Resource, caseId: string, id: string, ws: string, p: string)
    ensures !NamesTarget(res, DownloadAttachment(caseId, id, ws, p))
  {
    var op := DownloadAttachment(caseId, id, ws, p);
    var call := Plan(res, op);
    var named := Path(res.endpoint, [caseId, "attachments", id]);
    var segs := [ws, "projects", p, "cases", caseId, "attachments", id];
    PathLength(res.endpoint, [caseId, "attachments", id]);
    PathLength(res.endpoint, segs);
    SegmentsLengthThree(caseId, "attachments", id);
    SegmentsLengthSeven(ws, "projects", p, "cases", caseId, "attachments", id);
    assert |named| < |call.url|;
    assert |call.failure| == |RequestFailed("GET", "")| + |named|;
  }

  lemma SegmentsLengthThree(a: string, b: string, c: string)
    ensures SegmentsLength([a, b, c]) == |a| + |b| + |c|
  {
    assert [a][..0] == [];
    assert SegmentsLength([a]) == |a|;
    assert [a, b][..1] == [a];
    assert SegmentsLength([a, b]) == |a| + |b|;
    assert [a, b, c][..2] == [a, b];
  }

  lemma SegmentsLengthSeven(a: string, b: string, c: string, d: string, e: string, f: string, g: string)
    ensures SegmentsLength([a, b, c, d, e, f, g]) == |a| + |b| + |c| + |d| + |e| + |f| + |g|
  {
    SegmentsLengthThree(a, b, c);
    assert [a, b, c, d][..3] == [a, b, c];
    assert SegmentsLength([a, b, c, d]) == |a| + |b| + |c| + |d|;
    assert [a, b, c, d, e][..4] == [a, b, c, d];
    assert SegmentsLength([a, b, c, d, e]) == |a| + |b| + |c| + |d| + |e|;
    assert [a, b, c, d, e, f][..5] == [a, b, c, d, e];
    assert SegmentsLength([a, b, c, d, e, f]) == |a| + |b| + |c| + |d| + |e| + |f|;
    assert [a, b, c, d, e, f, g][..6] == [a, b, c, d, e, f];
  }

  lemma GetByIdFailure(res: Resource, id: string, url: Option<string>)
    ensures NamesTarget(res, GetById(id, url)) <==> Base(res, url) == res.endpoint
  {
    var op := GetById(id, url);
    var lead := "GET" + " request failed for ";
    PathTemplates(Base(res, url), id, "");
    PathTemplates(res.endpoint, id, "");
    if Base(res, url) != res.endpoint {
      var x := Base(res, url) + "/" + id;
      var y := res.endpoint + "/" + id;
      if |x| == |y| {
        assert x[..|Base(res, url)|] == Base(res, url);
        assert y[..|res.endpoint|] == res.endpoint;
      }
      assert x != y;
      assert (lead + x)[|lead|..] == x;
      assert (lead + y)[|lead|..] == y;
    }
  }

  /** The total length of a list of segments. */
  function SegmentsLength(segs: seq<string>): nat {
    if |segs| == 0 then 0 else SegmentsLength(segs[..|segs| - 1]) + |segs[|segs| - 1]|
  }

  lemma {:induction false} PathLength(base: string, segs: seq<string>)
    ensures |Path(base, segs)| == |base| + |segs| + SegmentsLength(segs)
    decreases |segs|
  {
    if |segs| > 0 {
      PathLength(base, segs[..|segs| - 1]);
    }
  }

  /** The word the failure messages use for a verb. */
  function VerbWord(v: Verb): string {
    match v
    case Get => "GET"
    case GetBinary => "GET"
    case Post => "POST"
    case Put => "PUT"
    case Patch => "PATCH"
    case Delete => "DELETE"
  }

  // ---------------------------------------------------------------------
  // Running an operation

  /** What an operation returns: the client's `{ data, error }`, or the
      `{ error: message }` of `handleError` when the client threw. */
  datatype Outcome<T> = Answered(response: ApiResponse<T>) | Caught(error: string)

  /** Sends the operation's request through the resource's client. The
      only throw the client lets escape is `ensureToken`'s; it is caught
      and reported with the operation's failure message. */
  function Perform<T>(
    res: Resource, store: Store, op: Operation,
    replies: seq<Reply<T>>, grants: seq<Reply<TokenResponse>>, now: int): (r: Run<Outcome<T>>)
    ensures !r.completion.Raised?
    ensures r.completion.Done? && r.completion.value.Caught? ==>
      r.completion.value.error == Plan(res, op).failure && (r.log == [] || (|r.log| == 1 && r.log[0].TokenExchange?))
    ensures r.completion.Done? && r.completion.value.Answered? ==>
      var resp := r.completion.value.response;
      (resp.data.Some? <==> resp.error.None?) &&
      (resp.data.Some? ==> Fulfilled(resp.data.value) in replies)
    ensures PassesPreCheck(store, Plan(res, op).verb, Plan(res, op).explicitToken, now) && |replies| > 0 && replies[0].Fulfilled? ==>
      r.completion == Done(Answered(ApiResponse(Some(replies[0].data), None)))
    ensures !SkipsPreCheck(Plan(res, op).verb, Plan(res, op).explicitToken) && !HasSession(store) ==>
      r == Run(Done(Caught(Plan(res, op).failure)), store, [], grants)
    ensures op.UpdatePassword? && op.accessToken.Some? && op.accessToken.value != "" ==>
      |r.log| >= 1 && r.log[0] == ResourceExchange(Request(Put, Plan(res, op).url, Bearer(op.accessToken.value))) &&
      !(r.completion.Done? && r.completion.value.Caught?)
    ensures SameOtherCookies(r.store, store)
  {
    var call := Plan(res, op);
    Settle(Send(res.client, store, call.verb, call.url, call.explicitToken, replies, grants, now), call.failure)
  }

  /** A verb method's run seen from an operation: an answer is kept, the
      pre-check's throw becomes the operation's failure message. */
  function Settle<T>(sent: Run<ApiResponse<T>>, failure: string): (r: Run<Outcome<T>>)
    ensures !r.completion.Raised?
    ensures sent.completion.Done? ==> r.completion == Done(Answered(sent.completion.value))
    ensures sent.completion.Raised? <==> r.completion == Done(Caught(failure))
    ensures sent.completion.Pending? ==> r.completion.Pending?
    ensures r.store == sent.store && r.log == sent.log && r.grants == sent.grants
  {
    var completion := match sent.completion
      case Done(resp) => Done(Answered(resp))
      case Raised(_) => Done(Caught(failure))
      case Pending => Pending;
    Run(completion, sent.store, sent.log, sent.grants)
  }

  /** `const { data } = await …`: the data of a response (`null` when the
      request failed), or `undefined` when the operation returned
      `{ error }`. */
  datatype Field<T> = Value(value: T) | Null | Undefined

  function DataField<T>(o: Outcome<T>): (r: Field<T>)
    ensures r.Undefined? <==> o.Caught?
    ensures r.Null? <==> o.Answered? && o.response.data.None?
    ensures r.Value? ==> o == Answered(ApiResponse(Some(r.value), o.response.error))
  {
    match o
    case Caught(_) => Undefined
    case Answered(ApiResponse(Some(x), _)) => Value(x)
    case Answered(ApiResponse(None, _)) => Null
  }

  /** What `downloadAttachment` and `getIcon` return: the bare data
      (`null` when the request failed), or `{ error }` when the client
      threw. */
  datatype Unwrapped<T> = Payload(data: Option<T>) | ErrorObject(error: string)

  function Unwrap<T>(o: Outcome<T>): (r: Unwrapped<T>)
    ensures r.ErrorObject? <==> o.Caught?
    ensures r.Payload? ==> r.data == o.response.data
    ensures r.ErrorObject? ==> r.error == o.error
  {
    match o
    case Answered(resp) => Payload(resp.data)
    case Caught(e) => ErrorObject(e)
  }

  // ---------------------------------------------------------------------
  // What the facade methods make of an outcome

  /** `{ data, error }` as a facade method returns it; `data` is
      `undefined` when the operation returned `{ error }`. */
  datatype Envelope<T> = Envelope(data: Field<T>, error: Option<string>)

  /** `const { data } = await op(…); return { data, error: null }`: the
      pattern of almost every facade method. The data survives; the reason
      of a failure does not. */
  function Relay<T>(o: Outcome<T>): (r: Envelope<T>)
    ensures r.error.None?
    ensures r.data.Value? <==> o.Answered? && o.response.data.Some?
    ensures r.data.Value? ==> r.data.value == o.response.data.value
    ensures r.data.Undefined? <==> o.Caught?
  {
    Envelope(DataField(o), None)
  }

  /** Relayed failures are indistinguishable: two failed requests give the
      same envelope whatever their messages, and so do two caught throws. */
  lemma RelayForgetsFailures<T>(e1: string, e2: string)
    ensures Relay<T>(Answered(ApiResponse(None, Some(e1)))) == Relay<T>(Answered(ApiResponse(None, Some(e2))))
    ensures Relay<T>(Caught(e1)) == Relay<T>(Caught(e2))
  {
  }

  /** `return await op(…)`: the operation's own result, so its error is
      kept (only `deleteCase` does this). */
  function PassThrough<T>(o: Outcome<T>): (r: Envelope<T>)
    ensures r.error.Some? <==> o.Caught? || o.response.error.Some?
    ensures o.Caught? ==> r.error == Some(o.error) && r.data.Undefined?
    ensures o.Answered? ==> r.error == o.response.error && r.data == DataField(o)
  {
    match o
    case Answered(resp) => Envelope(DataField(o), resp.error)
    case Caught(e) => Envelope(Undefined, Some(e))
  }

  /** `return { data: await op(…), error: null }`: the whole result of
      the operation, failure included, under `data`. */
  function Whole<U>(u: U): (r: Envelope<U>)
    ensures r.error.None? && r.data.Value? && r.data.value == u
  {
    Envelope(Value(u), None)
  }

  /** `getProjectIcon` wraps `getIcon`'s unwrapped result whole. Unlike
      `Relay`, this keeps the reason of a throw: the envelope reports no
      error, yet two throws give the same envelope only when their
      messages agree. */
  lemma WholeKeepsThrows<T>(e1: string, e2: string)
    ensures Whole(Unwrap<T>(Caught(e1))).error.None?
    ensures Whole(Unwrap<T>(Caught(e1))).data == Value(ErrorObject(e1))
    ensures Whole(Unwrap<T>(Caught(e1))) == Whole(Unwrap<T>(Caught(e2))) <==> e1 == e2
  {
  }

  /** Paths compose: extending the base by some segments and then by more
      is extending it by all of them. */
  lemma {:induction false} PathConcat(base: string, a: seq<string>, b: seq<string>)
    ensures Path(base, a + b) == Path(Path(base, a), b)
    decreases |b|
  {
    if |b| == 0 {
      assert a + b == a;
    } else {
      assert (a + b)[..|a + b| - 1] == a + b[..|b| - 1];
      PathConcat(base, a, b[..|b| - 1]);
    }
  }

  /** `handleLogout` forwards to the resource's client: the session ends,
      the cached profile is dropped, and the endpoint, the client's
      credentials and every other cookie stay as they were. */
  function Logout(res: Resource, store: Store): (r: (Resource, Store))
    ensures !HasSession(r.1) && ReadTokens(r.1) == Tokens(None, None, Absent)
    ensures r.0.client.userInfo.None?
    ensures r.0.endpoint == res.endpoint
    ensures r.0.client.clientId == res.client.clientId && r.0.client.clientSecret == res.client.clientSecret
    ensures forall k | k in store && k !in CredentialKeys :: k in r.1 && r.1[k] == store[k]
    ensures r.0.client == HandleLogout(Session(res.client, store)).client
    ensures r.1 == HandleLogout(Session(res.client, store)).store
  {
    var s := HandleLogout(Session(res.client, store));
    LogoutEndsSession(Session(res.client, store));
    (res.(client := s.client), s.store)
  }

  /** `getUserInfo`: the profile this resource's own client cached. */
  function UserInfo(res: Resource): Option<Profile> {
    res.client.userInfo
  }
}

=== FILE: bpmn_resource.dfy ===
/** `BpmnResource`: the BPMN process definitions of a workspace, below
    `endpoint/{workspace}/bpmns`. */
module BpmnResource {
  import opened Wrappers
  import opened ApiClient
  import opened BaseResource

  /** `${this.endpoint}/${workspaceId}/bpmns`. */
  function BpmnsBase(res: Resource, ws: string): string {
    Path(res.endpoint, [ws, "bpmns"])
  }

  datatype BpmnMethod =
    | GetBpmns(workspaceId: string)
    | CreateBpmns(workspaceId: string)
    | GetBpmn(id: string, workspaceId: string)
    | GetBpmnDownload(id: string, workspaceId: string)

  /** The `BaseResource` operation each method delegates to. */
  function OperationOf(res: Resource, m: BpmnMethod): (op: Operation)
    ensures !op.UsesEndpoint() && op.url == Some(BpmnsBase(res, m.workspaceId))
  {
    var base := Some(BpmnsBase(res, m.workspaceId));
    match m
    case GetBpmns(_) => GetAll(base)
    case CreateBpmns(_) => Create(base)
    case GetBpmn(id, _) => GetById(id, base)
    case GetBpmnDownload(id, _) => GetDownload(id, base)
  }

  /** The listing and the creation go to `endpoint/{ws}/bpmns`, a single
      definition to `…/bpmns/{id}`, its file to `…/bpmns/{id}/download`. */
  lemma BpmnUrls(res: Resource, m: BpmnMethod)
    ensures (m.GetBpmns? || m.CreateBpmns?) ==>
      Plan(res, OperationOf(res, m)).url == Path(res.endpoint, [m.workspaceId, "bpmns"])
    ensures m.GetBpmn? ==>
      Plan(res, OperationOf(res, m)).url == Path(res.endpoint, [m.workspaceId, "bpmns", m.id])
    ensures m.GetBpmnDownload? ==>
      Plan(res, OperationOf(res, m)).url == Path(res.endpoint, [m.workspaceId, "bpmns", m.id, "download"])
    ensures m.CreateBpmns? <==> Plan(res, OperationOf(res, m)).verb == Post
  {
    var op := OperationOf(res, m);
    PlanMatchesSegments(res, op);
    PathConcat(res.endpoint, [m.workspaceId, "bpmns"], Segments(op));
    var head := [m.workspaceId, "bpmns"];
    match m {
      case GetBpmns(_) | CreateBpmns(_) =>
        assert head + Segments(op) == head;
      case GetBpmn(id, _) =>
        assert head + Segments(op) == [m.workspaceId, "bpmns", id];
      case GetBpmnDownload(id, _) =>
        assert head + Segments(op) == [m.workspaceId, "bpmns", id, Segments(op)[1]];
    }
  }
}

=== FILE: case_resource.dfy ===
/** `CasesResource`: the case operations of a project, all below the
    nested base `endpoint/{workspace}/projects/{project}/cases`, with the
    activity filter applied to a case's history and the defaults of an
    update. */
module CaseResource {
  import opened Wrappers
  import opened Text
  import opened Seqs
  import opened ApiClient
  import opened BaseResource
  import opened Domain

  // ---------------------------------------------------------------------
  // generateId

  /** `generateId`: 24 draws of `Math.random()`, each turned into one
      hexadecimal digit `Math.floor(x * 16).toString(16)`. The workspace,
      bpmn, members and auth resources carry the same method. */
  function GenerateId(draws: seq<real>): (id: string)
    requires |draws| == 24
    requires forall i | 0 <= i < |draws| :: 0.0 <= draws[i] < 1.0
    ensures |id| == 24
    ensures forall i | 0 <= i < |id| :: IsHexDigit(id[i]) && !IsUpper(id[i])
    ensures forall i | 0 <= i < |id| :: HexValue(id[i]) == (draws[i] * 16.0).Floor
  {
    HexDigits(draws)
  }

  function HexDigits(draws: seq<real>): (s: string)
    requires forall i | 0 <= i < |draws| :: 0.0 <= draws[i] < 1.0
    ensures |s| == |draws|
    ensures forall i | 0 <= i < |s| :: IsHexDigit(s[i]) && HexValue(s[i]) == (draws[i] * 16.0).Floor
  {
    seq(|draws|, i requires 0 <= i < |draws| => HexDigitOf(draws[i]))
  }

  function HexDigitOf(x: real): (c: char)
    requires 0.0 <= x < 1.0
    ensures IsHexDigit(c) && HexValue(c) == (x * 16.0).Floor
  {
    HexRoundTrip((x * 16.0).Floor);
    HexDigit((x * 16.0).Floor)
  }

  // ---------------------------------------------------------------------
  // mapActivityData

  /** The values of `ActivityIDEnums`: the workflow steps a history keeps. */
  const TrackedActivities: seq<string> := ["StartEvent", "examine", "review", "EndEvent"]

  predicate Tracked(a: Activity) {
    a.activityId in TrackedActivities
  }

  /** `mapActivityData`: the activities whose id is one of the tracked
      steps, in their original order. */
  function MapActivityData(data: seq<Activity>): (r: seq<Activity>)
    ensures |r| <= |data|
    ensures forall a: Activity :: a in r <==> a in data && a.activityId in TrackedActivities
    ensures forall a: Activity | a.activityId in TrackedActivities :: multiset(r)[a] == multiset(data)[a]
    ensures IsSubsequence(r, data)
  {
    Filter(data, Tracked)
  }

  /** Filtering a filtered history changes nothing. */
  lemma MapActivityDataIdempotent(data: seq<Activity>)
    ensures MapActivityData(MapActivityData(data)) == MapActivityData(data)
  {
    FilterIdempotent(data, Tracked);
  }

  /** A history made only of tracked steps comes back whole. */
  lemma MapActivityDataKeepsTracked(data: seq<Activity>)
    requires forall i | 0 <= i < |data| :: data[i].activityId in TrackedActivities
    ensures MapActivityData(data) == data
  {
    FilterKeepsAll(data, Tracked);
  }

  // ---------------------------------------------------------------------
  // The operations and their URLs

  /** `${this.endpoint}/${workspaceId}/projects/${projectId}/cases`. */
  function CasesBase(res: Resource, ws: string, p: string): string {
    Path(res.endpoint, [ws, "projects", p, "cases"])
  }

  /** The methods of the class, with the arguments that shape their URL. */
  datatype CaseMethod =
    | CreateCase(workspaceId: string, projectId: string)
    | DeleteCase(id: string, workspaceId: string, projectId: string)
    | ExamineCase(id: string, workspaceId: string, projectId: string)
    | ReviewCase(id: string, workspaceId: string, projectId: string)
    | CreateCaseComment(id: string, workspaceId: string, projectId: string)
    | UploadCaseAttachment(id: string, workspaceId: string, projectId: string)
    | GetCaseAttachments(id: string, workspaceId: string, projectId: string)
    | GetCaseHistory(id: string, workspaceId: string, projectId: string)
    | GetCaseComments(id: string, workspaceId: string, projectId: string)
    | UpdateCase(id: string, workspaceId: string, projectId: string)
    | GetCase(id: string, workspaceId: string, projectId: string)
    | GetCases(workspaceId: string, projectId: string)

  /** The `BaseResource` operation each method delegates to. */
  function OperationOf(res: Resource, m: CaseMethod): (op: Operation)
    ensures !op.UsesEndpoint() && op.url == Some(CasesBase(res, m.workspaceId, m.projectId))
  {
    var base := Some(CasesBase(res, m.workspaceId, m.projectId));
    match m
    case CreateCase(_, _) => Create(base)
    case DeleteCase(id, _, _) => DeleteById(id, base)
    case ExamineCase(id, _, _) => ExamineById(id, base)
    case ReviewCase(id, _, _) => ReviewById(id, base)
    case CreateCaseComment(id, _, _) => CreateComment(id, base)
    case UploadCaseAttachment(id, _, _) => UploadAttachment(id, base)
    case GetCaseAttachments(id, _, _) => GetAttachments(id, base)
    case GetCaseHistory(id, _, _) => GetHistory(id, base)
    case GetCaseComments(id, _, _) => GetComments(id, base)
    case UpdateCase(id, _, _) => UpdateById(id, base)
    case GetCase(id, _, _) => GetById(id, base)
    case GetCases(_, _) => GetAll(base)
  }

  /** Every case request goes below the nested case base: its URL is the
      endpoint, the workspace, `projects`, the project, `cases`, and then the
      operation's own segments. */
  lemma CaseUrl(res: Resource, m: CaseMethod)
    ensures Plan(res, OperationOf(res, m)).url ==
      Path(res.endpoint, [m.workspaceId, "projects", m.projectId, "cases"] + Segments(OperationOf(res, m)))
  {
    var op := OperationOf(res, m);
    PlanMatchesSegments(res, op);
    PathConcat(res.endpoint, [m.workspaceId, "projects", m.projectId, "cases"], Segments(op));
  }

  /** Read back segment by segment, a case URL names the workspace and
      the project in the places the server expects them, provided no
      identifier holds a `/`. */
  lemma CaseUrlSegments(res: Resource, m: CaseMethod)
    requires '/' !in m.workspaceId && '/' !in m.projectId
    requires forall i | 0 <= i < |Segments(OperationOf(res, m))| :: '/' !in Segments(OperationOf(res, m))[i]
    ensures Split(Plan(res, OperationOf(res, m)).url, '/') ==
      Split(res.endpoint, '/') + [m.workspaceId, "projects", m.projectId, "cases"] + Segments(OperationOf(res, m))
  {
    var segs := [m.workspaceId, "projects", m.projectId, "cases"] + Segments(OperationOf(res, m));
    CaseUrl(res, m);
    forall i | 0 <= i < |segs|
      ensures '/' !in segs[i]
    {
      if i >= 4 {
        assert segs[i] == Segments(OperationOf(res, m))[i - 4];
      }
    }
    SplitPath(res.endpoint, segs);
  }

  // ---------------------------------------------------------------------
  // What the methods return

  /** The message V8 gives a `TypeError` for reading `property` of a
      missing value (`null` or `undefined`). */
  function ReadError(missing: string, property: string): string {
    "Cannot read properties of " + missing + " (reading '" + property + "')"
  }

  /** What a missing `data` reads as in that message. */
  function MissingName<T>(f: Field<T>): string {
    if f.Undefined? then "undefined" else "null"
  }

  /** `getCases`: `data.content` of the paged listing. A failed request
      (`data` null) or a caught throw (`data` undefined) makes the property
      read throw, and that `TypeError` is what the method reports. */
  function Contents(o: Outcome<CasePage>): (r: Envelope<seq<Case>>)
    ensures r.data.Value? <==> o.Answered? && o.response.data.Some? && o.response.data.value.content.Some?
    ensures r.data.Value? ==> r.data.value == o.response.data.value.content.value
    ensures r.error.Some? <==> !DataField(o).Value?
    ensures r.error.Some? ==> r.data.Null? && r.error.value == ReadError(MissingName(DataField(o)), "content")
  {
    match DataField(o)
    case Value(page) =>
      (match page.content
       case Some(cs) => Envelope(Value(cs), None)
       case None => Envelope(Undefined, None))
    case missing => Envelope(Null, Some(ReadError(MissingName(missing), "content")))
  }

  /** `getCaseHistory`: the history through `mapActivityData`; a missing
      `data` makes `filter` throw, as in `getCases`. */
  function History(o: Outcome<seq<Activity>>): (r: Envelope<seq<Activity>>)
    ensures r.data.Value? <==> o.Answered? && o.response.data.Some?
    ensures r.data.Value? ==> r.data.value == MapActivityData(o.response.data.value)
    ensures r.error.Some? <==> !r.data.Value?
    ensures r.error.Some? ==> r.data.Null? && r.error.value == ReadError(MissingName(DataField(o)), "filter")
  {
    match DataField(o)
    case Value(acts) => Envelope(Value(MapActivityData(acts)), None)
    case missing => Envelope(Null, Some(ReadError(MissingName(missing), "filter")))
  }

  /** Every history a method returns is already filtered: filtering it
      again leaves it as it is. */
  lemma HistoryIsFiltered(o: Outcome<seq<Activity>>)
    ensures History(o).data.Value? ==> MapActivityData(History(o).data.value) == History(o).data.value
  {
    if History(o).data.Value? {
      MapActivityDataIdempotent(o.response.data.value);
    }
  }

  /** Unlike every other method, `deleteCase` hands back the operation's
      own result, so a failed deletion reports its error. */
  lemma DeleteReportsFailures<T>(o: Outcome<T>)
    requires o.Answered? ==> (o.response.data.Some? <==> o.response.error.None?)
    ensures PassThrough(o).error.Some? <==> !DataField(o).Value?
  {
  }

  // ---------------------------------------------------------------------
  // updateCase

  /** The fields of a `Partial<Case>` that `updateCase` reads. */
  datatype CaseChanges = CaseChanges(
    title: Option<string>, summary: Option<string>, caseType: Option<string>,
    priority: Option<string>, status: Option<string>)

  /** The body `updateCase` sends. */
  datatype UpdateBody = UpdateBody(
    title: Option<string>, summary: Option<string>, caseType: string,
    priority: string, concernedCustomerIds: seq<string>, status: Option<string>)

  const DefaultCaseType := "PEP_MATCH"
  const DefaultPriority := "MEDIUM"
  const FixedCustomer := "92daf3ab-a7e9-4939-96c7-d7b80482d1a4"

  /** `updateCase`'s body: title, summary and status pass through; the
      case type and priority fall back to their defaults only when absent
      (`??`, so an empty string is kept); the customer list is fixed. */
  function UpdateCaseBody(c: CaseChanges): (b: UpdateBody)
    ensures b.title == c.title && b.summary == c.summary && b.status == c.status
    ensures c.caseType.Some? ==> b.caseType == c.caseType.value
    ensures c.caseType.None? ==> b.caseType == DefaultCaseType
    ensures c.priority.Some? ==> b.priority == c.priority.value
    ensures c.priority.None? ==> b.priority == DefaultPriority
    ensures b.concernedCustomerIds == [FixedCustomer]
  {
    UpdateBody(c.title, c.summary, c.caseType.GetOr(DefaultCaseType),
      c.priority.GetOr(DefaultPriority), [FixedCustomer], c.status)
  }

  /** The changes a body carries, read back as a `Partial<Case>`. */
  function ChangesOf(b: UpdateBody): CaseChanges {
    CaseChanges(b.title, b.summary, Some(b.caseType), Some(b.priority), b.status)
  }

  /** Defaulting is idempotent: sending a body's own fields again yields
      the same body. */
  lemma UpdateCaseBodyStable(c: CaseChanges)
    ensures UpdateCaseBody(ChangesOf(UpdateCaseBody(c))) == UpdateCaseBody(c)
  {
  }

  /** Changes that name a case type and a priority lose nothing. */
  lemma UpdateCaseBodyRoundTrip(c: CaseChanges)
    requires c.caseType.Some? && c.priority.Some?
    ensures ChangesOf(UpdateCaseBody(c)) == c
  {
  }
}

=== FILE: domain.dfy ===
/** The records the server exchanges with the dashboard (the interfaces of
    `src/clearDil/types.ts`), reduced to the fields the modelled logic
    reads or writes. Optional JSON fields are `Option`s. */
module Domain {
  import opened Wrappers

  /** `CaseStatus`: the four workflow states, and the kanban columns. */
  datatype CaseStatus = Initiated | UnderExamination | ReviewRequested | Closed {
    /** The enum's string value, as the server sends it. */
    function Name(): string {
      match this
      case Initiated => "INITIATED"
      case UnderExamination => "UNDER_EXAMINATION"
      case ReviewRequested => "REVIEW_REQUESTED"
      case Closed => "CLOSED"
    }
  }

  /** The string values of `CaseStatus`. */
  const StatusNames: seq<string> := ["UNDER_EXAMINATION", "CLOSED", "INITIATED", "REVIEW_REQUESTED"]

  /** `CasePriority`. */
  datatype CasePriority = Low | Medium | High {
    function Name(): string {
      match this
      case Low => "LOW"
      case Medium => "MEDIUM"
      case High => "HIGH"
    }
  }

  /** The string values of `CasePriority`. */
  const PriorityNames: seq<string> := ["LOW", "MEDIUM", "HIGH"]

  /** The priority whose string value is `s`, if any (`z.nativeEnum`). */
  function PriorityOf(s: string): (r: Option<CasePriority>)
    ensures r.Some? <==> s in PriorityNames
    ensures r.Some? ==> r.value.Name() == s
  {
    if s == "LOW" then Some(Low)
    else if s == "MEDIUM" then Some(Medium)
    else if s == "HIGH" then Some(High)
    else None
  }

  /** Reading back a priority's name gives the priority. */
  lemma PriorityOfName(p: CasePriority)
    ensures PriorityOf(p.Name()) == Some(p)
  {
  }

  /** The status whose string value is `s`, if any (`z.nativeEnum`). */
  function StatusOf(s: string): (r: Option<CaseStatus>)
    ensures r.Some? <==> s in StatusNames
    ensures r.Some? ==> r.value.Name() == s
  {
    if s == "INITIATED" then Some(Initiated)
    else if s == "UNDER_EXAMINATION" then Some(UnderExamination)
    else if s == "REVIEW_REQUESTED" then Some(ReviewRequested)
    else if s == "CLOSED" then Some(Closed)
    else None
  }

  /** Reading back a status's name gives the status. */
  lemma StatusOfName(st: CaseStatus)
    ensures StatusOf(st.Name()) == Some(st)
  {
  }

  /** A case (`Case`): its status is the string the server sent. */
  datatype Case = Case(
    id: string,
    title: string,
    summary: string,
    createdAt: string,
    caseType: string,
    priority: string,
    status: string,
    projectId: string,
    workspaceId: string,
    assigneeId: Option<string>)

  /** One entry of an activity's `actions`. */
  datatype ActivityAction = ActivityAction(createdAt: string, action: string, createdBy: string, details: string)

  /** A step of a case's workflow history (`Activity`). */
  datatype Activity = Activity(
    activityId: string,
    activityName: string,
    createdAt: string,
    createdBy: Option<string>,
    completedBy: Option<string>,
    actions: Option<seq<ActivityAction>>)

  /** A file attached to a case (`Attachment`). */
  datatype Attachment = Attachment(id: string, fileName: string, contentType: string, title: string)

  /** A comment on a case (`Comment`). */
  datatype Comment = Comment(id: string, body: string, commentedAt: string, commentedById: string)

  /** A user of the platform (`Member`). */
  datatype Member = Member(id: string, username: string, email: string, firstName: string, lastName: string)

  /** A role a member may hold (`MemberRole`). */
  datatype MemberRole = MemberRole(id: string, name: string)

  /** The BPMN process a project runs. */
  datatype Bpmn = Bpmn(id: string, title: string)

  /** A project of a workspace (`Project`). */
  datatype Project = Project(id: string, title: string, workspaceId: string, members: seq<string>, bpmn: Option<Bpmn>)

  /** A workspace (`Workspace`). */
  datatype Workspace = Workspace(id: string, title: string, members: seq<string>)

  /** The paged list the case listing returns (`CaseListResponse`); the
      `content` key may be missing from a malformed reply. */
  datatype CasePage = CasePage(content: Option<seq<Case>>)
}

=== FILE: edit_task_form.dfy ===
/** The logic of the task editor (`src/features/tasks/components/edit-task-form.tsx`):
    when a comment is posted, which mutation an assignee change fires,
    and the activity log the form shows. */
module EditTaskForm {
  import opened Wrappers
  import opened Text
  import opened Seqs
  import opened Domain
  import opened Validation
  import opened TaskSchemas
  import TaskRoutes

  // ---------------------------------------------------------------------
  // CommentInput.handleSubmit

  /** The comment box after a submit, and what was posted. */
  datatype Submitted = Submitted(posted: Option<CommentInput>, text: string)

  /** `handleSubmit`: a comment that is empty after trimming is not
      posted and stays in the box; any other is posted as typed
      (untrimmed) and the box is cleared. */
  function SubmitComment(text: string, taskId: string, workspaceId: string, projectId: string): (r: Submitted)
    ensures r.posted.None? <==> Blank(text)
    ensures r.posted.None? ==> r.text == text
    ensures r.posted.Some? ==> r.text == "" && r.posted.value == CommentInput(text, taskId, workspaceId, projectId)
  {
    TrimEmptyIffBlank(text);
    if Trim(text) == "" then Submitted(None, text)
    else Submitted(Some(CommentInput(text, taskId, workspaceId, projectId)), "")
  }

  /** Whatever the box posts, the comments route accepts unchanged (up to
      the trimming of the task id): the form's guard is stricter than the
      schema, which lets blank comments through. */
  lemma PostedCommentsPassTheSchema(text: string, taskId: string, workspaceId: string, projectId: string)
    requires SubmitComment(text, taskId, workspaceId, projectId).posted.Some?
    ensures ParseTaskComments(text, taskId, workspaceId, projectId) == Valid(CommentInput(text, Trim(taskId), workspaceId, projectId))
  {
  }

  // ---------------------------------------------------------------------
  // onAssigneeChange

  const Assign := "ASSIGN"

  /** `onAssigneeChange`: a case under review is reassigned through the
      review route, any other through the examine route; both carry the
      chosen user. */
  function AssigneeChange(c: Case, userId: string): (m: TaskMutation)
    ensures m.ReviewMutation? <==> c.status == ReviewRequested.Name()
    ensures m.ReviewMutation? ==> m.review == Review(Assign, c.id, Some(userId), None, c.workspaceId, c.projectId)
    ensures m.ExamineMutation? ==> m.examine == Examine(Assign, c.id, Some(userId), c.workspaceId, c.projectId)
  {
    if c.status == ReviewRequested.Name() then ReviewMutation(Review(Assign, c.id, Some(userId), None, c.workspaceId, c.projectId))
    else ExamineMutation(Examine(Assign, c.id, Some(userId), c.workspaceId, c.projectId))
  }

  /** Whichever route an assignee change goes to, the body the server
      sends on names the chosen user as assignee. */
  lemma AssigneeReachesServer(c: Case, userId: string)
    ensures var m := AssigneeChange(c, userId);
      (m.ReviewMutation? ==> TaskRoutes.ReviewPayload(m.review).assigneeId == Some(userId)) &&
      (m.ExamineMutation? ==> TaskRoutes.ExaminePayload(m.examine).assigneeId == Some(userId))
  {
  }

  // ---------------------------------------------------------------------
  // The regular expressions of formatActivities

  /** `prefix` occurs in `s` at `p`. */
  predicate OccursAt(s: string, prefix: string, p: nat) {
    p + |prefix| <= |s| && s[p..p + |prefix|] == prefix
  }

  /** `(.+?)'` matches `s[q..e]` followed by the quote at `e`: at least one
      character, none a line terminator, and `e` the first quote after `q`. */
  predicate Closes(s: string, q: nat, e: nat) {
    && q < e < |s|
    && s[e] == '\''
    && (forall k | q <= k < e :: !IsLineTerminator(s[k]))
    && (forall k | q < k < e :: s[k] != '\'')
  }

  /** The whole pattern `prefix(.+?)'` matches at `p`, its group ending at `e`. */
  predicate MatchAt(s: string, prefix: string, p: nat, e: nat) {
    OccursAt(s, prefix, p) && Closes(s, p + |prefix|, e)
  }

  /** Scans for the closing quote from `e` on. */
  function CloseFrom(s: string, q: nat, e: nat): (r: Option<nat>)
    requires q < e <= |s|
    requires forall k | q <= k < e :: !IsLineTerminator(s[k])
    requires forall k | q < k < e :: s[k] != '\''
    ensures r.Some? ==> Closes(s, q, r.value)
    ensures r.None? ==> forall x | e <= x :: !Closes(s, q, x)
    decreases |s| - e
  {
    if e == |s| then None
    else if s[e] == '\'' then Some(e)
    else if IsLineTerminator(s[e]) then None
    else CloseFrom(s, q, e + 1)
  }

  /** Where the lazy group starting at `q` ends, if anywhere. */
  function Close(s: string, q: nat): (r: Option<nat>)
    ensures r.Some? ==> Closes(s, q, r.value)
    ensures r.None? ==> forall x :: !Closes(s, q, x)
  {
    if q >= |s| || IsLineTerminator(s[q]) then None else CloseFrom(s, q, q + 1)
  }

  /** The leftmost match at `p` or later. */
  function FirstMatch(s: string, prefix: string, p: nat): (r: Option<(nat, nat)>)
    ensures r.Some? ==> p <= r.value.0 && MatchAt(s, prefix, r.value.0, r.value.1)
    ensures r.Some? ==> forall x, e | p <= x < r.value.0 :: !MatchAt(s, prefix, x, e)
    ensures r.None? ==> forall x, e | p <= x :: !MatchAt(s, prefix, x, e)
    decreases |s| + 1 - p
  {
    if p > |s| then None
    else if OccursAt(s, prefix, p) && Close(s, p + |prefix|).Some? then Some((p, Close(s, p + |prefix|).value))
    else FirstMatch(s, prefix, p + 1)
  }

  /** `s.match(/prefix(.+?)'/)?.[1]`: the group of the leftmost match. */
  function Capture(s: string, prefix: string): (r: Option<string>)
    ensures r.None? <==> forall p, e :: !MatchAt(s, prefix, p, e)
    ensures r.Some? ==> exists p: nat, e: nat :: (MatchAt(s, prefix, p, e) && r.value == s[p + |prefix|..e]
      && forall x: nat, y: nat | x < p :: !MatchAt(s, prefix, x, y))
  {
    match FirstMatch(s, prefix, 0)
    case None => None
    case Some((p, e)) =>
      assert MatchAt(s, prefix, p, e);
      Some(s[p + |prefix|..e])
  }

  /** The lazy group has one end at most. */
  lemma ClosesUnique(s: string, q: nat, e: nat, f: nat)
    requires Closes(s, q, e) && Closes(s, q, f)
    ensures e == f
  {
  }

  /** A value written between the prefix and a quote is read back, as long
      as it is not empty and holds no quote or line terminator. */
  lemma CaptureRoundTrip(prefix: string, v: string, rest: string)
    requires v != []
    requires forall k | 0 <= k < |v| :: v[k] != '\'' && !IsLineTerminator(v[k])
    ensures Capture(prefix + v + "'" + rest, prefix) == Some(v)
  {
    var s := prefix + v + "'" + rest;
    var q := |prefix|;
    var e := q + |v|;
    assert s[..q] == prefix;
    assert s[q..e] == v;
    assert s[e] == '\'';
    assert MatchAt(s, prefix, 0, e);
    assert Closes(s, q, e) by {
      forall k | q < k < e
        ensures s[k] != '\''
      {
        assert s[k] == v[k - q];
      }
      forall k | q <= k < e
        ensures !IsLineTerminator(s[k])
      {
        assert s[k] == v[k - q];
      }
    }
    ClosesUnique(s, q, e, Close(s, q).value);
  }

  const AssignPrefix := "Assign user'"
  const FilePrefix := "file: '"

  // ---------------------------------------------------------------------
  // formatActivities

  /** `{ id, name }` as the form lists the members. */
  datatype MemberOption = MemberOption(id: string, name: string)

  /** `memberOptions.find((m) => m.id === id)?.name ?? ""`. */
  function NameOf(opts: seq<MemberOption>, id: Option<string>): (r: string)
    ensures (forall i | 0 <= i < |opts| :: Some(opts[i].id) != id) ==> r == ""
    ensures forall k | 0 <= k < |opts| && Some(opts[k].id) == id && (forall j | 0 <= j < k :: Some(opts[j].id) != id) ::
      r == opts[k].name
  {
    match FindIndex(opts, (m: MemberOption) => Some(m.id) == id)
    case None => ""
    case Some(k) => opts[k].name
  }

  /** One line of the activity log, before it is rendered as text; `at`
      is the timestamp the line formats. */
  datatype Entry =
    | Started(activity: string, actor: string, at: string)
    | Ended(activity: string, actor: string, at: string)
    | Assigned(activity: string, toUser: string, actor: string, at: string)
    | Attached(file: string, actor: string, at: string)

  /** The text of a line; `format` stands for `format(date, "Pp")`. */
  function Render(e: Entry, format: string -> string): string {
    match e
    case Started(a, actor, at) => a + " by " + actor + " at " + format(at) + "."
    case Ended(a, actor, at) => a + " by " + actor + " at " + format(at) + "."
    case Assigned(a, u, actor, at) => a + " was assigned to " + u + " by " + actor + " at " + format(at) + "."
    case Attached(f, actor, at) => "Attachment \"" + f + "\" added by " + actor + " at " + format(at) + "."
  }

  const AssignTask := "ASSIGN_TASK"
  const AddAttachment := "ADD_ATTACHMENT"
  const UnknownUser := "Unknown"
  const UnknownFile := "Unknown file"

  /** Whether an action shows up in the log. */
  predicate Logged(x: ActivityAction) {
    x.action == AssignTask || x.action == AddAttachment
  }

  /** The line of one action: an assignment names the user its details
      mention (`"Unknown"` when they mention none), an attachment names
      its file (`"Unknown file"`); other actions have no line. */
  function ActionEntry(activity: string, x: ActivityAction, opts: seq<MemberOption>): (r: seq<Entry>)
    ensures |r| == (if Logged(x) then 1 else 0)
    ensures x.action == AssignTask ==> (r[0].Assigned? && r[0].activity == activity &&
      r[0].toUser == (match Capture(x.details, AssignPrefix) case None => UnknownUser case Some(id) => NameOf(opts, Some(id))))
    ensures x.action == AddAttachment ==> r[0].Attached? && r[0].file == Capture(x.details, FilePrefix).GetOr(UnknownFile)
    ensures forall k | 0 <= k < |r| :: r[k].actor == NameOf(opts, Some(x.createdBy)) && r[k].at == x.createdAt
  {
    var actor := NameOf(opts, Some(x.createdBy));
    if x.action == AssignTask then
      var toUser := match Capture(x.details, AssignPrefix) case None => UnknownUser case Some(id) => NameOf(opts, Some(id));
      [Assigned(activity, toUser, actor, x.createdAt)]
    else if x.action == AddAttachment then
      [Attached(Capture(x.details, FilePrefix).GetOr(UnknownFile), actor, x.createdAt)]
    else []
  }

  /** The lines of a list of actions, in order. */
  function ActionEntries(activity: string, xs: seq<ActivityAction>, opts: seq<MemberOption>): (r: seq<Entry>)
    ensures |r| == Count(xs, Logged)
    decreases |xs|
  {
    if |xs| == 0 then [] else ActionEntry(activity, xs[0], opts) + ActionEntries(activity, xs[1..], opts)
  }

  /** One line per assignment or attachment, in order: the i-th line is
      that of the i-th such action. */
  lemma {:induction false} ActionEntriesContent(activity: string, xs: seq<ActivityAction>, opts: seq<MemberOption>)
    ensures |ActionEntries(activity, xs, opts)| == |Filter(xs, Logged)|
    ensures forall i | 0 <= i < |Filter(xs, Logged)| ::
      ActionEntries(activity, xs, opts)[i] == ActionEntry(activity, Filter(xs, Logged)[i], opts)[0]
    decreases |xs|
  {
    if |xs| > 0 {
      ActionEntriesContent(activity, xs[1..], opts);
      assert Filter(xs, Logged) ==
        (if Logged(xs[0]) then [xs[0]] + Filter(xs[1..], Logged) else Filter(xs[1..], Logged));
    }
  }

  /** The lines of one activity: its start or end line first, then its
      actions' lines. */
  function ActivityEntries(a: Activity, opts: seq<MemberOption>): (r: seq<Entry>)
    ensures var head := (if a.activityId == "StartEvent" || a.activityId == "EndEvent" then 1 else 0);
      |r| == head + (if a.actions.Some? then Count(a.actions.value, Logged) else 0)
    ensures a.activityId == "StartEvent" ==> r[0] == Started(a.activityName, NameOf(opts, a.createdBy), a.createdAt)
    ensures a.activityId == "EndEvent" ==> r[0] == Ended(a.activityName, NameOf(opts, a.completedBy), a.createdAt)
    ensures forall k | 0 <= k < |r| :: (r[k].Started? || r[k].Ended?) <==> k == 0 && (a.activityId == "StartEvent" || a.activityId == "EndEvent")
  {
    var head :=
      (if a.activityId == "StartEvent" then [Started(a.activityName, NameOf(opts, a.createdBy), a.createdAt)] else [])
      + (if a.activityId == "EndEvent" then [Ended(a.activityName, NameOf(opts, a.completedBy), a.createdAt)] else []);
    var tail := match a.actions case None => [] case Some(xs) => ActionEntries(a.activityName, xs, opts);
    ActionsAreNotEvents(a.activityName, a.actions.GetOr([]), opts);
    head + tail
  }

  /** After its start or end line, an activity's lines are exactly its
      actions' lines. */
  lemma ActivityEntriesTail(a: Activity, opts: seq<MemberOption>)
    ensures var head := (if a.activityId == "StartEvent" || a.activityId == "EndEvent" then 1 else 0);
      ActivityEntries(a, opts)[head..] == ActionEntries(a.activityName, a.actions.GetOr([]), opts)
  {
    var head := (if a.activityId == "StartEvent" || a.activityId == "EndEvent" then 1 else 0);
    var events :=
      (if a.activityId == "StartEvent" then [Started(a.activityName, NameOf(opts, a.createdBy), a.createdAt)] else [])
      + (if a.activityId == "EndEvent" then [Ended(a.activityName, NameOf(opts, a.completedBy), a.createdAt)] else []);
    assert |events| == head;
    assert ActivityEntries(a, opts) == events + ActionEntries(a.activityName, a.actions.GetOr([]), opts);
  }

  /** Action lines are never start or end lines. */
  lemma {:induction false} ActionsAreNotEvents(activity: string, xs: seq<ActivityAction>, opts: seq<MemberOption>)
    ensures forall k | 0 <= k < |ActionEntries(activity, xs, opts)| ::
      ActionEntries(activity, xs, opts)[k].Assigned? || ActionEntries(activity, xs, opts)[k].Attached?
    decreases |xs|
  {
    if |xs| > 0 {
      ActionsAreNotEvents(activity, xs[1..], opts);
    }
  }

  /** `formatActivities` before rendering: the lines of each activity in
      turn (`activities ?? []`). */
  function Entries(acts: seq<Activity>, opts: seq<MemberOption>): seq<Entry>
    decreases |acts|
  {
    if |acts| == 0 then [] else ActivityEntries(acts[0], opts) + Entries(acts[1..], opts)
  }

  /** `formatActivities`: the rendered lines. */
  function FormatActivities(acts: Option<seq<Activity>>, opts: seq<MemberOption>, format: string -> string): (r: seq<string>)
    ensures acts.None? ==> r == []
    ensures |r| == Count(acts.GetOr([]), IsEvent) + TotalLogged(acts.GetOr([]))
    ensures |r| == |Entries(acts.GetOr([]), opts)|
    ensures forall k | 0 <= k < |r| :: r[k] == Render(Entries(acts.GetOr([]), opts)[k], format)
  {
    var es := Entries(acts.GetOr([]), opts);
    EntriesLength(acts.GetOr([]), opts);
    seq(|es|, k requires 0 <= k < |es| => Render(es[k], format))
  }

  /** The log follows the activities' order: the log of two lists one
      after the other is the first list's log followed by the second's. */
  lemma {:induction false} EntriesAppend(a: seq<Activity>, b: seq<Activity>, opts: seq<MemberOption>)
    ensures Entries(a + b, opts) == Entries(a, opts) + Entries(b, opts)
    decreases |a|
  {
    if |a| == 0 {
      assert a + b == b;
    } else {
      assert (a + b)[1..] == a[1..] + b;
      EntriesAppend(a[1..], b, opts);
    }
  }

  /** The log has one line per start or end event and one per assignment
      or attachment action. */
  predicate IsEvent(a: Activity) {
    a.activityId == "StartEvent" || a.activityId == "EndEvent"
  }

  function LoggedActions(a: Activity): nat {
    if a.actions.Some? then Count(a.actions.value, Logged) else 0
  }

  function TotalLogged(acts: seq<Activity>): nat
    decreases |acts|
  {
    if |acts| == 0 then 0 else LoggedActions(acts[0]) + TotalLogged(acts[1..])
  }

  lemma {:induction false} EntriesLength(acts: seq<Activity>, opts: seq<MemberOption>)
    ensures |Entries(acts, opts)| == Count(acts, IsEvent) + TotalLogged(acts)
    decreases |acts|
  {
    if |acts| > 0 {
      EntriesLength(acts[1..], opts);
    }
  }

  /** An assignment whose details name a member by id shows that
      member's name. */
  lemma AssignmentNamesMember(activity: string, x: ActivityAction, opts: seq<MemberOption>, k: nat, rest: string)
    requires x.action == AssignTask && k < |opts|
    requires opts[k].id != [] && forall i | 0 <= i < |opts[k].id| :: opts[k].id[i] != '\'' && !IsLineTerminator(opts[k].id[i])
    requires forall j | 0 <= j < k :: opts[j].id != opts[k].id
    requires x.details == AssignPrefix + opts[k].id + "'" + rest
    ensures ActionEntry(activity, x, opts)[0].toUser == opts[k].name
  {
    CaptureRoundTrip(AssignPrefix, opts[k].id, rest);
  }
}

=== FILE: kanban.dfy ===
/** The kanban board (`src/features/tasks/components/data-kanban.tsx`):
    cases grouped into one column per status and sorted by creation time,
    and what dropping a card does to the columns, to the position payload
    and to the examine and review mutations. */
module Kanban {
  import opened Wrappers
  import opened Seqs
  import opened Domain
  import opened TaskSchemas

  /** The four columns, one per `CaseStatus`. */
  datatype Board = Board(initiated: seq<Case>, underExamination: seq<Case>, reviewRequested: seq<Case>, closed: seq<Case>) {
    function Col(st: CaseStatus): seq<Case> {
      match st
      case Initiated => initiated
      case UnderExamination => underExamination
      case ReviewRequested => reviewRequested
      case Closed => closed
    }

    /** The board with column `st` replaced by `col`. */
    function With(st: CaseStatus, col: seq<Case>): (r: Board)
      ensures r.Col(st) == col
      ensures forall o | o != st :: r.Col(o) == Col(o)
    {
      match st
      case Initiated => this.(initiated := col)
      case UnderExamination => this.(underExamination := col)
      case ReviewRequested => this.(reviewRequested := col)
      case Closed => this.(closed := col)
    }

    /** Every card on the board. */
    function All(): multiset<Case> {
      multiset(initiated) + multiset(underExamination) + multiset(reviewRequested) + multiset(closed)
    }
  }

  /** The cases whose status string names `st`. */
  function IsStatus(st: CaseStatus): Case -> bool {
    (c: Case) => c.status == st.Name()
  }

  /** Every card sits in the column of its status. */
  predicate Grouped(b: Board) {
    forall st: CaseStatus, i | 0 <= i < |b.Col(st)| :: b.Col(st)[i].status == st.Name()
  }

  // ---------------------------------------------------------------------
  // Sorting by creation time

  /** Non-decreasing creation time; `time` stands for
      `new Date(created_at).getTime()`. */
  predicate SortedBy(s: seq<Case>, time: Case -> int) {
    forall i, j | 0 <= i < j < |s| :: time(s[i]) <= time(s[j])
  }

  /** Inserts `x` before the first card that is not older. */
  function InsertBy(x: Case, s: seq<Case>, time: Case -> int): (r: seq<Case>)
    requires SortedBy(s, time)
    ensures SortedBy(r, time)
    ensures multiset(r) == multiset(s) + multiset{x}
    ensures |r| == |s| + 1
    ensures r[0] == x || (|s| > 0 && r[0] == s[0])
    decreases |s|
  {
    if |s| == 0 || time(x) <= time(s[0]) then
      SortedCons(x, s, time);
      [x] + s
    else
      var rest := InsertBy(x, s[1..], time);
      assert s == [s[0]] + s[1..];
      SortedCons(s[0], rest, time);
      [s[0]] + rest
  }

  /** A card no later than the head of a sorted column can go in front. */
  lemma SortedCons(x: Case, s: seq<Case>, time: Case -> int)
    requires SortedBy(s, time)
    requires |s| > 0 ==> time(x) <= time(s[0])
    ensures SortedBy([x] + s, time)
  {
    var r := [x] + s;
    forall i, j | 0 <= i < j < |r|
      ensures time(r[i]) <= time(r[j])
    {
      if i == 0 {
        assert r[j] == s[j - 1];
      }
    }
  }

  /** `Array.prototype.sort` with `(a, b) => time(a) - time(b)`: a stable
      insertion sort. */
  function SortBy(s: seq<Case>, time: Case -> int): (r: seq<Case>)
    ensures SortedBy(r, time)
    ensures multiset(r) == multiset(s)
    ensures |r| == |s|
    decreases |s|
  {
    if |s| == 0 then []
    else
      assert s == [s[0]] + s[1..];
      InsertBy(s[0], SortBy(s[1..], time), time)
  }

  // ---------------------------------------------------------------------
  // Grouping

  /** What `initialTasks[status].push(task)` throws for a status that is
      not a column. */
  const PushOnUndefined := "Cannot read properties of undefined (reading 'push')"

  /** One column of the grouping: the cases of status `st`, sorted. */
  function Column(data: seq<Case>, st: CaseStatus, time: Case -> int): (col: seq<Case>)
    ensures SortedBy(col, time)
    ensures multiset(col) == multiset(Filter(data, IsStatus(st)))
  {
    SortBy(Filter(data, IsStatus(st)), time)
  }

  /** The grouping done when the board is created and whenever the cases
      change: every case goes to the column of its status, then each
      column is sorted by creation time. */
  function Group(data: seq<Case>, time: Case -> int): (r: Result<Board>)
    ensures r.Success? <==> forall i | 0 <= i < |data| :: StatusOf(data[i].status).Some?
    ensures r.Failure? ==> r.error == PushOnUndefined
    ensures r.Success? ==> forall st: CaseStatus ::
      SortedBy(r.value.Col(st), time) && multiset(r.value.Col(st)) == multiset(Filter(data, IsStatus(st)))
  {
    if exists i | 0 <= i < |data| :: StatusOf(data[i].status).None? then Failure(PushOnUndefined)
    else
      var b := Board(
        Column(data, Initiated, time), Column(data, UnderExamination, time),
        Column(data, ReviewRequested, time), Column(data, Closed, time));
      GroupedColumns(data, time);
      Success(b)
  }

  /** Each column of the grouped board has the contract of `Column`. */
  lemma GroupedColumns(data: seq<Case>, time: Case -> int)
    ensures var b := Board(
        Column(data, Initiated, time), Column(data, UnderExamination, time),
        Column(data, ReviewRequested, time), Column(data, Closed, time));
      forall st: CaseStatus ::
        SortedBy(b.Col(st), time) && multiset(b.Col(st)) == multiset(Filter(data, IsStatus(st)))
  {
    var b := Board(
        Column(data, Initiated, time), Column(data, UnderExamination, time),
        Column(data, ReviewRequested, time), Column(data, Closed, time));
    forall st: CaseStatus
      ensures SortedBy(b.Col(st), time) && multiset(b.Col(st)) == multiset(Filter(data, IsStatus(st)))
    {
      match st {
        case Initiated =>
        case UnderExamination =>
        case ReviewRequested =>
        case Closed =>
      }
    }
  }

  /** Filtering a non-empty sequence decides its head, then filters the tail. */
  lemma FilterHead(data: seq<Case>, p: Case -> bool)
    requires |data| > 0
    ensures multiset(Filter(data, p)) == (if p(data[0]) then multiset{data[0]} else multiset{}) + multiset(Filter(data[1..], p))
  {
  }

  /** Distinct statuses have distinct names (their lengths differ). */
  lemma NameInjective(a: CaseStatus, b: CaseStatus)
    requires a.Name() == b.Name()
    ensures a == b
  {
    assert |a.Name()| == |b.Name()|;
  }

  /** A case of a known status passes the filter of that status only. */
  lemma OneStatus(c: Case, st: CaseStatus)
    requires c.status == st.Name()
    ensures forall o: CaseStatus :: IsStatus(o)(c) <==> o == st
  {
    forall o: CaseStatus
      ensures IsStatus(o)(c) <==> o == st
    {
      if IsStatus(o)(c) {
        NameInjective(o, st);
      }
    }
  }

  /** The four status filters of `data`, together. */
  function Parts(data: seq<Case>): multiset<Case> {
    multiset(Filter(data, IsStatus(Initiated))) + multiset(Filter(data, IsStatus(UnderExamination)))
      + multiset(Filter(data, IsStatus(ReviewRequested))) + multiset(Filter(data, IsStatus(Closed)))
  }

  /** The four filters split a sequence of known statuses between them. */
  lemma {:induction false} FiltersPartition(data: seq<Case>)
    requires forall i | 0 <= i < |data| :: StatusOf(data[i].status).Some?
    ensures Parts(data) == multiset(data)
    decreases |data|
  {
    if |data| > 0 {
      FiltersPartition(data[1..]);
      PartsHead(data);
      assert data == [data[0]] + data[1..];
    }
  }

  /** The head of a sequence lands in the filter of its own status only. */
  lemma PartsHead(data: seq<Case>)
    requires |data| > 0 && StatusOf(data[0].status).Some?
    ensures Parts(data) == multiset{data[0]} + Parts(data[1..])
  {
    var c := data[0];
    OneStatus(c, StatusOf(c.status).value);
    FilterHead(data, IsStatus(Initiated));
    FilterHead(data, IsStatus(UnderExamination));
    FilterHead(data, IsStatus(ReviewRequested));
    FilterHead(data, IsStatus(Closed));
  }

  /** A grouped board holds every case exactly once, each in the column of
      its status; so the column sizes add up to the number of cases. */
  lemma GroupCoversInput(data: seq<Case>, time: Case -> int)
    requires Group(data, time).Success?
    ensures Group(data, time).value.All() == multiset(data)
    ensures var b := Group(data, time).value;
      |b.initiated| + |b.underExamination| + |b.reviewRequested| + |b.closed| == |data|
    ensures Grouped(Group(data, time).value)
  {
    var b := Group(data, time).value;
    FiltersPartition(data);
    assert |b.All()| == |data|;
    forall st: CaseStatus, i | 0 <= i < |b.Col(st)|
      ensures b.Col(st)[i].status == st.Name()
    {
      assert b.Col(st)[i] in multiset(Filter(data, IsStatus(st)));
    }
  }

  // ---------------------------------------------------------------------
  // onDragEnd

  /** A place on the board: a column and an index in it. */
  datatype Slot = Slot(status: CaseStatus, index: nat)

  /** One entry of the position payload. */
  datatype PositionUpdate = PositionUpdate(id: string, status: CaseStatus, position: int)

  /** The board after a drop, the position payload, and the mutations fired. */
  datatype DropOutcome = DropOutcome(board: Board, updates: seq<PositionUpdate>, mutations: seq<TaskMutation>)

  const PositionStep := 1000
  const MaxPosition := 1_000_000

  /** `Math.min((index + 1) * 1000, 1_000_000)`. */
  function Position(index: nat): (p: int)
    ensures PositionStep <= p <= MaxPosition
    ensures index < 1000 ==> p == (index + 1) * PositionStep
    ensures index >= 999 ==> p == MaxPosition
  {
    if (index + 1) * PositionStep < MaxPosition then (index + 1) * PositionStep else MaxPosition
  }

  /** `splice(i, 1)`: the column without its `i`th card. */
  function Remove(s: seq<Case>, i: nat): (r: seq<Case>)
    requires i < |s|
    ensures |r| == |s| - 1
    ensures multiset(r) == multiset(s) - multiset{s[i]}
  {
    assert s == s[..i] + [s[i]] + s[i + 1..];
    s[..i] + s[i + 1..]
  }

  /** `splice(k, 0, x)`: the column with `x` inserted at `k`, or at the
      end when `k` is past it. */
  function InsertAt(s: seq<Case>, k: nat, x: Case): (r: seq<Case>)
    ensures |r| == |s| + 1
    ensures r[Clamp(k, |s|)] == x
    ensures multiset(r) == multiset(s) + multiset{x}
  {
    var j := Clamp(k, |s|);
    assert s == s[..j] + s[j..];
    s[..j] + [x] + s[j..]
  }

  /** Where `splice` starts: the index, cut down to the length. */
  function Clamp(k: nat, n: nat): nat {
    if k <= n then k else n
  }

  /** The payload entries renumbering a column from index `i` on: each card
      other than one with id `skip` gets the position of its index. */
  function RenumberFrom(col: seq<Case>, st: CaseStatus, skip: Option<string>, i: nat): (r: seq<PositionUpdate>)
    requires i <= |col|
    ensures |r| == Count(col[i..], (c: Case) => Some(c.id) != skip)
    ensures forall u | u in r :: u.status == st && PositionStep <= u.position <= MaxPosition
    ensures forall u | u in r :: exists j | i <= j < |col| ::
      u == PositionUpdate(col[j].id, st, Position(j)) && Some(col[j].id) != skip
    decreases |col| - i
  {
    if i == |col| then []
    else
      var rest := RenumberFrom(col, st, skip, i + 1);
      assert col[i..][1..] == col[i + 1..];
      if Some(col[i].id) != skip then [PositionUpdate(col[i].id, st, Position(i))] + rest else rest
  }

  /** The mutations a drop fires once the card has moved: completing the
      examination when it lands in `UNDER_EXAMINATION`, closing the review
      when it lands in `CLOSED`, and reopening the review when it comes
      back from `REVIEW_REQUESTED` to `UNDER_EXAMINATION`. */
  function DropMutations(src: CaseStatus, dst: CaseStatus, moved: Case, workspaceId: string): (ms: seq<TaskMutation>)
    ensures |ms| <= 2
    ensures ExamineMutation(Examine("COMPLETE", moved.id, None, workspaceId, moved.projectId)) in ms <==> dst == UnderExamination
    ensures ReviewMutation(Review("COMPLETE", moved.id, None, Some(true), workspaceId, moved.projectId)) in ms <==> dst == Closed
    ensures ReviewMutation(Review("COMPLETE", moved.id, None, Some(false), workspaceId, moved.projectId)) in ms <==>
      src == ReviewRequested && dst == UnderExamination
    ensures forall m | m in ms :: (m.ExamineMutation? && m.examine.action == "COMPLETE") || (m.ReviewMutation? && m.review.action == "COMPLETE")
  {
    var examine := ExamineMutation(Examine("COMPLETE", moved.id, None, workspaceId, moved.projectId));
    var close := ReviewMutation(Review("COMPLETE", moved.id, None, Some(true), workspaceId, moved.projectId));
    var reopen := ReviewMutation(Review("COMPLETE", moved.id, None, Some(false), workspaceId, moved.projectId));
    (if dst == UnderExamination then [examine] else [])
    + (if dst == Closed then [close] else [])
    + (if src != dst && src == ReviewRequested && dst == UnderExamination then [reopen] else [])
  }

  /** The card a drop moves, with the status of the column it lands in. */
  function Landed(c: Case, src: CaseStatus, dst: CaseStatus): (r: Case)
    ensures src != dst ==> r == c.(status := dst.Name())
    ensures src == dst ==> r == c
  {
    if src != dst then c.(status := dst.Name()) else c
  }

  /** The board after a card moves from slot `i` of column `src` to
      `dest`: the card leaves its column, takes the destination's status
      and is spliced in at the destination index (the end, past it). The
      board keeps every other card, and the columns not involved are left
      alone. */
  function Move(b: Board, src: CaseStatus, i: nat, dest: Slot): (r: Board)
    requires i < |b.Col(src)|
    ensures var landed := Landed(b.Col(src)[i], src, dest.status);
      r.All() == b.All() - multiset{b.Col(src)[i]} + multiset{landed}
    ensures var room := |b.Col(dest.status)| - (if src == dest.status then 1 else 0);
      |r.Col(dest.status)| == room + 1 &&
      r.Col(dest.status)[Clamp(dest.index, room)] == Landed(b.Col(src)[i], src, dest.status)
    ensures src != dest.status ==> |r.Col(src)| == |b.Col(src)| - 1
    ensures forall o | o != src && o != dest.status :: r.Col(o) == b.Col(o)
  {
    var c := b.Col(src)[i];
    var landed := Landed(c, src, dest.status);
    var b1 := b.With(src, Remove(b.Col(src), i));
    var b2 := b1.With(dest.status, InsertAt(b1.Col(dest.status), dest.index, landed));
    MoveKeepsCards(b, src, i, dest);
    assert |b1.Col(dest.status)| == |b.Col(dest.status)| - (if src == dest.status then 1 else 0);
    b2
  }

  lemma MoveKeepsCards(b: Board, src: CaseStatus, i: nat, dest: Slot)
    requires i < |b.Col(src)|
    ensures var c := b.Col(src)[i];
      var landed := Landed(c, src, dest.status);
      var b1 := b.With(src, Remove(b.Col(src), i));
      b1.With(dest.status, InsertAt(b1.Col(dest.status), dest.index, landed)).All() ==
        b.All() - multiset{c} + multiset{landed}
  {
    var c := b.Col(src)[i];
    var landed := Landed(c, src, dest.status);
    var removed := Remove(b.Col(src), i);
    var b1 := b.With(src, removed);
    var inserted := InsertAt(b1.Col(dest.status), dest.index, landed);
    var b2 := b1.With(dest.status, inserted);
    RemoveFromBoard(b, src, i);
    InsertOnBoard(b1, dest.status, dest.index, landed);
  }

  /** Taking a card out of its column takes it off the board. */
  lemma RemoveFromBoard(b: Board, st: CaseStatus, i: nat)
    requires i < |b.Col(st)|
    ensures b.With(st, Remove(b.Col(st), i)).All() == b.All() - multiset{b.Col(st)[i]}
  {
    var c := b.Col(st)[i];
    assert multiset(Remove(b.Col(st), i)) + multiset{c} == multiset(b.Col(st)) by {
      assert c in multiset(b.Col(st));
    }
    AllWithLess(b, st, Remove(b.Col(st), i), multiset{c});
  }

  /** Splicing a card into a column puts it on the board. */
  lemma InsertOnBoard(b: Board, st: CaseStatus, k: nat, x: Case)
    ensures b.With(st, InsertAt(b.Col(st), k, x)).All() == b.All() + multiset{x}
  {
    AllWithMore(b, st, InsertAt(b.Col(st), k, x), multiset{x});
  }

  /** `onDragEnd`, with the state update run at once: a drop outside any
      column, or from an empty slot, changes nothing. Otherwise the card
      moves, the payload numbers the moved card and the rest of the
      destination column (and the source column when the card changed
      columns), and the mutations of the move fire. */
  function Drop(b: Board, source: Slot, destination: Option<Slot>, workspaceId: string): (r: DropOutcome)
    ensures destination.None? ==> r == DropOutcome(b, [], [])
    ensures destination.Some? && source.index >= |b.Col(source.status)| ==> r == DropOutcome(b, [], [])
    ensures destination.Some? && source.index < |b.Col(source.status)| ==>
      r.board == Move(b, source.status, source.index, destination.value) &&
      r.mutations == DropMutations(source.status, destination.value.status,
        Landed(b.Col(source.status)[source.index], source.status, destination.value.status), workspaceId)
    ensures forall u | u in r.updates :: PositionStep <= u.position <= MaxPosition
    ensures destination.Some? ==> forall u | u in r.updates ::
      u.status == destination.value.status || (u.status == source.status && source.status != destination.value.status)
  {
    if destination.None? then DropOutcome(b, [], [])
    else
      var src := source.status;
      var dst := destination.value.status;
      if source.index >= |b.Col(src)| then DropOutcome(b, [], [])
      else
        var moved := Landed(b.Col(src)[source.index], src, dst);
        var after := Move(b, src, source.index, destination.value);
        var updates :=
          [PositionUpdate(moved.id, dst, Position(destination.value.index))]
          + RenumberFrom(after.Col(dst), dst, Some(moved.id), 0)
          + (if src != dst then RenumberFrom(after.Col(src), src, None, 0) else []);
        DropOutcome(after, updates, DropMutations(src, dst, moved, workspaceId))
  }

  /** Replacing a column by one with more cards adds them to the board. */
  lemma AllWithMore(b: Board, st: CaseStatus, col: seq<Case>, extra: multiset<Case>)
    requires multiset(col) == multiset(b.Col(st)) + extra
    ensures b.With(st, col).All() == b.All() + extra
  {
  }

  /** Replacing a column by one with fewer cards takes them off the board. */
  lemma AllWithLess(b: Board, st: CaseStatus, col: seq<Case>, gone: multiset<Case>)
    requires multiset(col) + gone == multiset(b.Col(st))
    ensures b.With(st, col).All() + gone == b.All()
  {
  }

  /** The payload numbers the moved card first, then the destination's
      other cards, then, only for a move between columns, the source's
      cards: its length is exactly that. */
  lemma DropPayloadShape(b: Board, source: Slot, dest: Slot, workspaceId: string)
    requires source.index < |b.Col(source.status)|
    ensures var r := Drop(b, source, Some(dest), workspaceId);
      var landed := Landed(b.Col(source.status)[source.index], source.status, dest.status);
      && r.updates[0] == PositionUpdate(landed.id, dest.status, Position(dest.index))
      && |r.updates| == 1 + Count(r.board.Col(dest.status), (c: Case) => Some(c.id) != Some(landed.id))
           + (if source.status != dest.status then |r.board.Col(source.status)| else 0)
      && (source.status == dest.status ==> forall u | u in r.updates :: u.status == dest.status)
  {
    var r := Drop(b, source, Some(dest), workspaceId);
    if source.status != dest.status {
      CountAll(r.board.Col(source.status));
    }
  }

  /** A test every card passes counts the whole column. */
  lemma {:induction false} CountAll(s: seq<Case>)
    ensures Count(s, (c: Case) => Some(c.id) != None) == |s|
    decreases |s|
  {
    if |s| > 0 {
      CountAll(s[1..]);
    }
  }

  lemma RemoveInsert(s: seq<Case>, i: nat)
    requires i < |s|
    ensures InsertAt(Remove(s, i), i, s[i]) == s
  {
    assert Remove(s, i)[..i] == s[..i];
    assert Remove(s, i)[i..] == s[i + 1..];
  }

  lemma InsertRemove(s: seq<Case>, k: nat, x: Case)
    requires k <= |s|
    ensures Remove(InsertAt(s, k, x), k) == s
  {
    var t := InsertAt(s, k, x);
    assert t[..k] == s[..k];
    assert t[k + 1..] == s[k..];
  }

  /** Putting a column back restores the board. */
  lemma WithRestore(b: Board, st: CaseStatus, col: seq<Case>)
    ensures b.With(st, col).With(st, b.Col(st)) == b
  {
  }

  /** `Move` in terms of the two splices. */
  lemma MoveSplices(b: Board, src: CaseStatus, i: nat, dest: Slot)
    requires i < |b.Col(src)|
    ensures var b1 := b.With(src, Remove(b.Col(src), i));
      Move(b, src, i, dest) == b1.With(dest.status, InsertAt(b1.Col(dest.status), dest.index, Landed(b.Col(src)[i], src, dest.status)))
  {
  }

  /** After a move, taking the landed card out of the destination leaves
      the board with only the source card removed. */
  lemma MoveThenTakeBack(b: Board, source: Slot, dest: Slot)
    requires source.index < |b.Col(source.status)|
    ensures var b1 := b.With(source.status, Remove(b.Col(source.status), source.index));
      var k := Clamp(dest.index, |b1.Col(dest.status)|);
      var after := Move(b, source.status, source.index, dest);
      k < |after.Col(dest.status)| &&
      after.Col(dest.status)[k] == Landed(b.Col(source.status)[source.index], source.status, dest.status) &&
      after.With(dest.status, Remove(after.Col(dest.status), k)) == b1
  {
    var src, dst, i := source.status, dest.status, source.index;
    var landed := Landed(b.Col(src)[i], src, dst);
    var b1 := b.With(src, Remove(b.Col(src), i));
    var k := Clamp(dest.index, |b1.Col(dst)|);
    var b2 := b1.With(dst, InsertAt(b1.Col(dst), dest.index, landed));
    MoveSplices(b, src, i, dest);
    assert Move(b, src, i, dest) == b2;
    InsertRemove(b1.Col(dst), k, landed);
    WithRestore(b1, dst, InsertAt(b1.Col(dst), dest.index, landed));
  }

  /** Moving the landed card back to its source slot puts the original
      card back into the source column of the board without it. */
  lemma MoveBack(b: Board, source: Slot, dest: Slot)
    requires Grouped(b)
    requires source.index < |b.Col(source.status)|
    ensures var b1 := b.With(source.status, Remove(b.Col(source.status), source.index));
      var k := Clamp(dest.index, |b1.Col(dest.status)|);
      var after := Move(b, source.status, source.index, dest);
      k < |after.Col(dest.status)| &&
      Move(after, dest.status, k, source) ==
        b1.With(source.status, InsertAt(b1.Col(source.status), source.index, b.Col(source.status)[source.index]))
  {
    var src, dst, i := source.status, dest.status, source.index;
    var c := b.Col(src)[i];
    assert c.status == src.Name();
    var k := Clamp(dest.index, |b.With(src, Remove(b.Col(src), i)).Col(dst)|);
    var after := Move(b, src, i, dest);
    MoveThenTakeBack(b, source, dest);
    assert Landed(after.Col(dst)[k], dst, src) == c;
    MoveSplices(after, dst, k, source);
  }

  /** Dragging a card back undoes a drop: on a grouped board, moving a card
      and then moving it from where it landed to where it came from
      restores the board. */
  lemma DropUndone(b: Board, source: Slot, dest: Slot)
    requires Grouped(b)
    requires source.index < |b.Col(source.status)|
    ensures var room := |b.Col(dest.status)| - (if source.status == dest.status then 1 else 0);
      var after := Move(b, source.status, source.index, dest);
      Move(after, dest.status, Clamp(dest.index, room), source) == b
  {
    var src, i := source.status, source.index;
    MoveBack(b, source, dest);
    RemoveInsert(b.Col(src), i);
    WithRestore(b, src, Remove(b.Col(src), i));
  }
}

=== FILE: member_routes.dfy ===
/** The members routes (`src/features/members/server/route.ts`) and the
    `getMember` helper (`src/features/members/utils.ts`): which members a
    workspace lists, how each is named and which roles it carries, and
    the role a role update sends. */
module MemberRoutes {
  import opened Wrappers
  import opened Seqs
  import opened BaseResource
  import opened Domain
  import opened Routes

  /** `MemberRoleEnum`: the roles the role update accepts. */
  datatype RoleKind = ViewOnly | Admin | Analyst | Developer | Support | SuperAdmin {
    function Name(): string {
      match this
      case ViewOnly => "ViewOnly"
      case Admin => "Admin"
      case Analyst => "Analyst"
      case Developer => "Developer"
      case Support => "Support"
      case SuperAdmin => "SuperAdmin"
    }
  }

  /** A member as the dashboard shows it (`MemberDetail`): the member's
      own fields, a display name, role names and, in a workspace listing,
      the workspace. */
  datatype MemberDetail = MemberDetail(member: Member, name: string, roles: seq<string>, workspaceId: Option<string>)

  const SomethingWentWrong := "Something went wrong"

  /** `roles.map((role) => role.name)`. */
  function RoleNames(roles: seq<MemberRole>): (r: seq<string>)
    ensures |r| == |roles|
    ensures forall i | 0 <= i < |roles| :: r[i] == roles[i].name
  {
    seq(|roles|, i requires 0 <= i < |roles| => roles[i].name)
  }

  /** The members a workspace lists. */
  function InWorkspace(ws: Workspace): Member -> bool {
    (m: Member) => m.id in ws.members
  }

  /** `roleData?.map((role) => role.name) || []`: the role names, or none
      when the role lookup returned nothing. */
  function ListedRoles(roleData: Field<seq<MemberRole>>): (r: seq<string>)
    ensures roleData.Value? ==> r == RoleNames(roleData.value)
    ensures !roleData.Value? ==> r == []
  {
    if roleData.Value? then RoleNames(roleData.value) else []
  }

  /** One entry of the workspace listing. */
  function ListedDetail(m: Member, roleData: Field<seq<MemberRole>>, workspaceId: string): (d: MemberDetail)
    ensures d.member == m && d.name == MemberName(m)
    ensures d.roles == ListedRoles(roleData) && d.workspaceId == Some(workspaceId)
  {
    MemberDetail(m, MemberName(m), ListedRoles(roleData), Some(workspaceId))
  }

  /** Whether some role lookup of the listed members reports an error. */
  predicate AnyRoleFails(listed: seq<Member>, roleOf: string -> Envelope<seq<MemberRole>>) {
    exists i | 0 <= i < |listed| :: Truthy(roleOf(listed[i].id).error)
  }

  /** The members of a detail list. */
  function MembersOf(ds: seq<MemberDetail>): (r: seq<Member>)
    ensures |r| == |ds|
    ensures forall i | 0 <= i < |ds| :: r[i] == ds[i].member
  {
    seq(|ds|, i requires 0 <= i < |ds| => ds[i].member)
  }

  /** `GET /?workspaceId=`: the workspace and the platform's members must
      both be fetched; the listing holds, in the platform's order, the
      members the workspace names, each with its display name, its role
      names and the queried workspace. Any failing role lookup fails the
      whole listing (`Promise.all`); every such failure carries the same
      message, so which one settles first does not matter. */
  function ListMembers(
    workspaceId: string, workspace: Envelope<Workspace>, members: Envelope<seq<Member>>,
    roleOf: string -> Envelope<seq<MemberRole>>): (r: Response<seq<MemberDetail>>)
    ensures Truthy(workspace.error) ==> r == Thrown(SomethingWentWrong)
    ensures !Truthy(workspace.error) && !workspace.data.Value? ==> r == Thrown("Workspace not found")
    ensures workspace.data.Value? && !Truthy(workspace.error) && Truthy(members.error) ==> r == Thrown(SomethingWentWrong)
    ensures workspace.data.Value? && !Truthy(workspace.error) && !Truthy(members.error) && !members.data.Value? ==>
      r == Thrown("Members not found")
    ensures r.Ok? ==> (workspace.data.Value? && members.data.Value? &&
      MembersOf(r.data) == Filter(members.data.value, InWorkspace(workspace.data.value)))
    ensures r.Ok? ==> forall i | 0 <= i < |r.data| ::
      r.data[i] == ListedDetail(r.data[i].member, roleOf(r.data[i].member.id).data, workspaceId)
    ensures workspace.data.Value? && members.data.Value? && !Truthy(workspace.error) && !Truthy(members.error) ==>
      (r.Ok? <==> !AnyRoleFails(Filter(members.data.value, InWorkspace(workspace.data.value)), roleOf))
    ensures r.Thrown? ==> r.message in {SomethingWentWrong, "Workspace not found", "Members not found"}
  {
    match Demand(workspace, SomethingWentWrong, "Workspace not found")
    case Thrown(msg) => Thrown(msg)
    case Ok(ws) =>
      match Demand(members, SomethingWentWrong, "Members not found")
      case Thrown(msg) => Thrown(msg)
      case Ok(all) =>
        var listed := Filter(all, InWorkspace(ws));
        if AnyRoleFails(listed, roleOf) then Thrown(SomethingWentWrong)
        else
          var ds := seq(|listed|, i requires 0 <= i < |listed| => ListedDetail(listed[i], roleOf(listed[i].id).data, workspaceId));
          assert MembersOf(ds) == listed;
          Ok(ds)
  }

  /** The listing keeps the platform's order and holds exactly the
      platform's members whose id the workspace names. */
  lemma ListingIsWorkspaceMembers(
    workspaceId: string, ws: Workspace, all: seq<Member>, roleOf: string -> Envelope<seq<MemberRole>>)
    requires ListMembers(workspaceId, Envelope(Value(ws), None), Envelope(Value(all), None), roleOf).Ok?
    ensures var ds := ListMembers(workspaceId, Envelope(Value(ws), None), Envelope(Value(all), None), roleOf).data;
      IsSubsequence(MembersOf(ds), all) &&
      forall m :: m in MembersOf(ds) <==> m in all && m.id in ws.members
  {
  }

  // ---------------------------------------------------------------------
  // DELETE /:memberId and PATCH /:memberId

  /** `DELETE /:memberId`: answers with the id unless the delete reports
      an error. */
  function DeleteMember<T>(memberId: string, e: Envelope<T>): (r: Response<string>)
    ensures r.Ok? <==> !Truthy(e.error)
    ensures r.Ok? ==> r.data == memberId
    ensures r.Thrown? ==> r.message == SomethingWentWrong
  {
    match Forward(e, SomethingWentWrong)
    case Thrown(msg) => Thrown(msg)
    case Ok(_) => Ok(memberId)
  }

  /** The body of the role update: `{ id: memberRole?.id, name: memberRole?.name }`. */
  datatype RoleBody = RoleBody(id: Option<string>, name: Option<string>)

  /** The catalogue entry the route picks for a requested role. */
  function NamesRole(role: RoleKind): MemberRole -> bool {
    (x: MemberRole) => x.name == role.Name()
  }

  /** The body sent for `role`: the id and name of the first catalogue
      entry with that name; both undefined (dropped from the JSON) when
      the catalogue has none or was not returned. */
  function RoleBodyFor(role: RoleKind, catalogue: Field<seq<MemberRole>>): (b: RoleBody)
    ensures b.id.Some? <==> b.name.Some?
    ensures b.name.Some? ==> b.name.value == role.Name()
    ensures b.id.Some? <==> catalogue.Value? && exists i | 0 <= i < |catalogue.value| :: catalogue.value[i].name == role.Name()
    ensures b.id.Some? ==> exists i | 0 <= i < |catalogue.value| ::
      catalogue.value[i] == MemberRole(b.id.value, b.name.value) &&
      forall j | 0 <= j < i :: catalogue.value[j].name != role.Name()
  {
    if !catalogue.Value? then RoleBody(None, None)
    else
      match Find(catalogue.value, NamesRole(role))
      case Some(x) => RoleBody(Some(x.id), Some(x.name))
      case None => RoleBody(None, None)
  }

  /** `PATCH /:memberId` up to the update call: the member must exist and
      the catalogue must be fetched without error; the result is the body
      the update sends. */
  function RoleUpdateRequest(role: RoleKind, member: Envelope<Member>, catalogue: Envelope<seq<MemberRole>>): (r: Response<RoleBody>)
    ensures r.Ok? <==> !Truthy(member.error) && member.data.Value? && !Truthy(catalogue.error)
    ensures r.Ok? ==> r.data == RoleBodyFor(role, catalogue.data)
    ensures !Truthy(member.error) && !member.data.Value? ==> r == Thrown("Member not found")
    ensures r.Thrown? && r.message != "Member not found" ==> r.message == SomethingWentWrong
  {
    match Demand(member, SomethingWentWrong, "Member not found")
    case Thrown(msg) => Thrown(msg)
    case Ok(_) =>
      if Truthy(catalogue.error) then Thrown(SomethingWentWrong)
      else Ok(RoleBodyFor(role, catalogue.data))
  }

  /** The update sends the catalogue's first entry with the requested
      name; a catalogue without that name yields an empty body. */
  lemma RoleUpdateSendsFirstMatch(role: RoleKind, m: Member, catalogue: seq<MemberRole>, k: nat)
    requires k < |catalogue| && catalogue[k].name == role.Name()
    requires forall j | 0 <= j < k :: catalogue[j].name != role.Name()
    ensures RoleUpdateRequest(role, Envelope(Value(m), None), Envelope(Value(catalogue), None)) ==
      Ok(RoleBody(Some(catalogue[k].id), Some(role.Name())))
  {
    var r := FindIndex(catalogue, NamesRole(role));
    assert r == Some(k) by {
      if r.Some? {
        assert r.value <= k;
        assert !(r.value < k);
      }
    }
  }

  lemma UnknownRoleSendsEmptyBody(role: RoleKind, m: Member, catalogue: seq<MemberRole>)
    requires forall j | 0 <= j < |catalogue| :: catalogue[j].name != role.Name()
    ensures RoleUpdateRequest(role, Envelope(Value(m), None), Envelope(Value(catalogue), None)) ==
      Ok(RoleBody(None, None))
  {
  }

  // ---------------------------------------------------------------------
  // getMember (src/features/members/utils.ts)

  /** `getMember({ userId })`: the first listed member with the id, named
      and with the role names it holds, in order. */
  function GetMember(userId: string, members: Envelope<seq<Member>>, roles: Envelope<seq<MemberRole>>): (r: Response<MemberDetail>)
    ensures Truthy(members.error) ==> r == Thrown(SomethingWentWrong)
    ensures !Truthy(members.error) && !members.data.Value? ==> r == Thrown("Members not found")
    ensures (!Truthy(members.error) && members.data.Value? &&
      forall i | 0 <= i < |members.data.value| :: members.data.value[i].id != userId) ==>
      r == Thrown("Member not available")
    ensures r.Ok? <==>
      !Truthy(members.error) && members.data.Value? && !Truthy(roles.error) && roles.data.Value? &&
      exists i | 0 <= i < |members.data.value| :: members.data.value[i].id == userId
    ensures (!Truthy(members.error) && members.data.Value? &&
      (exists i | 0 <= i < |members.data.value| :: members.data.value[i].id == userId)) ==>
      (Truthy(roles.error) ==> r == Thrown(SomethingWentWrong)) &&
      (!Truthy(roles.error) && !roles.data.Value? ==> r == Thrown("Members Role not found"))
    ensures r.Ok? ==> r.data.member.id == userId && r.data.member in members.data.value
    ensures r.Ok? ==> exists k | 0 <= k < |members.data.value| ::
      r.data.member == members.data.value[k] && forall j | 0 <= j < k :: members.data.value[j].id != userId
    ensures r.Ok? ==> r.data.name == MemberName(r.data.member)
    ensures r.Ok? ==> r.data.roles == RoleNames(roles.data.value) && r.data.workspaceId.None?
  {
    match Demand(members, SomethingWentWrong, "Members not found")
    case Thrown(msg) => Thrown(msg)
    case Ok(all) =>
      match Find(all, (m: Member) => m.id == userId)
      case None => Thrown("Member not available")
      case Some(m) =>
        match Demand(roles, SomethingWentWrong, "Members Role not found")
        case Thrown(msg) => Thrown(msg)
        case Ok(rs) => Ok(MemberDetail(m, MemberName(m), RoleNames(rs), None))
  }

  /** A listed member whose role lookup returns nothing: the helper
      refuses it, while the listing shows it with no roles. */
  lemma MissingRolesDiffer(
    workspaceId: string, ws: Workspace, all: seq<Member>, k: nat, roleOf: string -> Envelope<seq<MemberRole>>)
    requires k < |all| && all[k].id in ws.members
    requires roleOf(all[k].id) == Envelope(Null, None)
    ensures GetMember(all[k].id, Envelope(Value(all), None), roleOf(all[k].id)) == Thrown("Members Role not found")
    ensures ListedRoles(roleOf(all[k].id).data) == []
  {
    assert Find(all, (m: Member) => m.id == all[k].id).Some?;
  }

  /** The helper and the workspace listing agree: a workspace member the
      listing shows (and the first with its id) is named the same and
      carries the same roles when `getMember` looks it up. */
  lemma GetMemberAgreesWithListing(
    workspaceId: string, ws: Workspace, all: seq<Member>, roleOf: string -> Envelope<seq<MemberRole>>, i: nat)
    requires ListMembers(workspaceId, Envelope(Value(ws), None), Envelope(Value(all), None), roleOf).Ok?
    requires var ds := ListMembers(workspaceId, Envelope(Value(ws), None), Envelope(Value(all), None), roleOf).data;
      i < |ds| && roleOf(ds[i].member.id).data.Value?
    requires forall a, b | 0 <= a < b < |all| :: all[a].id != all[b].id
    ensures var d := ListMembers(workspaceId, Envelope(Value(ws), None), Envelope(Value(all), None), roleOf).data[i];
      var g := GetMember(d.member.id, Envelope(Value(all), None), roleOf(d.member.id));
      g.Ok? && g.data.member == d.member && g.data.name == d.name && g.data.roles == d.roles
  {
    var ds := ListMembers(workspaceId, Envelope(Value(ws), None), Envelope(Value(all), None), roleOf).data;
    var d := ds[i];
    assert d.member in MembersOf(ds);
    assert d.member in all;
    var k :| 0 <= k < |all| && all[k] == d.member;
    var g := GetMember(d.member.id, Envelope(Value(all), None), roleOf(d.member.id));
    assert g.Ok?;
    assert g.data.member.id == d.member.id && g.data.member in all;
  }
}

=== FILE: members_resource.dfy ===
/** `MembersResource`: the platform's users directly below the endpoint,
    with their roles and passwords as sub-resources that never take an
    override base. */
module MembersResource {
  import opened Wrappers
  import opened Seqs
  import opened ApiClient
  import opened BaseResource
  import opened Domain

  datatype MembersMethod =
    | GetMembers
    | GetMember(id: string)
    | GetMembersRole(id: string)
    | GetRoleList
    | CreateMembers
    | UpdateMembers(id: string)
    | UpdateMembersRole(id: string)
    | UpdateMembersPassword(id: string, accessToken: Option<string>)
    | DeleteMembers(id: string)

  /** The `BaseResource` operation each method delegates to; `getMember`
      lists all members and picks one out. */
  function OperationOf(m: MembersMethod): (op: Operation)
    ensures op.UsesEndpoint() || op.url.None?
  {
    match m
    case GetMembers => GetAll(None)
    case GetMember(_) => GetAll(None)
    case GetMembersRole(id) => GetRoles(id)
    case GetRoleList => GetAllRoles
    case CreateMembers => Create(None)
    case UpdateMembers(id) => UpdateById(id, None)
    case UpdateMembersRole(id) => UpdateRoles(id)
    case UpdateMembersPassword(id, token) => UpdatePassword(id, token)
    case DeleteMembers(id) => DeleteById(id, None)
  }

  /** A member's roles are read from and written to `endpoint/{id}/roles`,
      the role catalogue is `endpoint/roles`, a password is `PUT` to
      `endpoint/{id}/password`, and new members are posted to the endpoint. */
  lemma MemberUrls(res: Resource, m: MembersMethod)
    ensures (m.GetMembersRole? || m.UpdateMembersRole?) ==>
      Plan(res, OperationOf(m)).url == res.endpoint + "/" + m.id + ("/" + "roles")
    ensures m.GetMembersRole? ==> Plan(res, OperationOf(m)).verb == Get
    ensures m.UpdateMembersRole? ==> Plan(res, OperationOf(m)).verb == Put
    ensures m.GetRoleList? ==> Plan(res, OperationOf(m)).url == res.endpoint + "/" + "roles"
    ensures m.UpdateMembersPassword? ==>
      Plan(res, OperationOf(m)).url == res.endpoint + "/" + m.id + ("/" + "password") &&
      Plan(res, OperationOf(m)).verb == Put
    ensures m.CreateMembers? ==> Plan(res, OperationOf(m)).url == res.endpoint && Plan(res, OperationOf(m)).verb == Post
    ensures m.DeleteMembers? ==> Plan(res, OperationOf(m)).url == res.endpoint + "/" + m.id
  {
    PlanMatchesSegments(res, OperationOf(m));
    match m {
      case GetRoleList => PathTemplates(res.endpoint, "roles", "");
      case CreateMembers =>
      case GetMembers =>
      case GetMember(_) =>
      case GetMembersRole(id) => PathTemplates(res.endpoint, id, "roles");
      case UpdateMembers(id) => PathTemplates(res.endpoint, id, "");
      case UpdateMembersRole(id) => PathTemplates(res.endpoint, id, "roles");
      case UpdateMembersPassword(id, _) => PathTemplates(res.endpoint, id, "password");
      case DeleteMembers(id) => PathTemplates(res.endpoint, id, "");
    }
  }

  /** `updateMembersPassword` with a token sends that token and skips the
      stored-session check: with no session at all, the request still goes
      out as a `PUT` carrying `Bearer {token}`, and nothing is caught. */
  lemma PasswordChangeSkipsTokenCheck<T>(
    res: Resource, store: Store, id: string, token: string,
    replies: seq<Reply<T>>, grants: seq<Reply<TokenResponse>>, now: int)
    requires token != ""
    ensures var r := Perform(res, store, OperationOf(UpdateMembersPassword(id, Some(token))), replies, grants, now);
      |r.log| >= 1 &&
      r.log[0] == ResourceExchange(Request(Put, Path(res.endpoint, [id, "password"]), Bearer(token))) &&
      !(r.completion.Done? && r.completion.value.Caught?)
  {
    var op := OperationOf(UpdateMembersPassword(id, Some(token)));
    assert op == UpdatePassword(id, Some(token));
    var call := Plan(res, op);
    assert call.url == Path(res.endpoint, [id, "password"]) && call.verb == Put && call.explicitToken == Some(token);
  }

  /** Without a token the same method needs a session like any other. */
  lemma PasswordChangeWithoutTokenNeedsSession<T>(
    res: Resource, store: Store, id: string,
    replies: seq<Reply<T>>, grants: seq<Reply<TokenResponse>>, now: int)
    requires !HasSession(store)
    ensures Perform(res, store, OperationOf(UpdateMembersPassword(id, None)), replies, grants, now).completion ==
      Done(Caught(Plan(res, OperationOf(UpdateMembersPassword(id, None))).failure))
    ensures Plan(res, OperationOf(UpdateMembersPassword(id, None))).failure == RequestFailed("PUT", Path(res.endpoint, [id, "password"]))
  {
    var op := OperationOf(UpdateMembersPassword(id, None));
    assert !SkipsPreCheck(Plan(res, op).verb, Plan(res, op).explicitToken);
  }

  /** `getMember`: the first listed member with the id, or `undefined`
      when there is none or the listing failed; it never reports an
      error. */
  function PickMember(o: Outcome<seq<Member>>, id: string): (r: Envelope<Member>)
    ensures r.error.None? && !r.data.Null?
    ensures r.data.Value? <==>
      o.Answered? && o.response.data.Some? && exists i | 0 <= i < |o.response.data.value| :: o.response.data.value[i].id == id
    ensures r.data.Value? ==> r.data.value.id == id && r.data.value in o.response.data.value
    ensures r.data.Value? ==> exists i | 0 <= i < |o.response.data.value| ::
      o.response.data.value[i] == r.data.value && forall j | 0 <= j < i :: o.response.data.value[j].id != id
  {
    match DataField(o)
    case Value(members) =>
      (match Find(members, (x: Member) => x.id == id)
       case Some(x) => Envelope(Value(x), None)
       case None => Envelope(Undefined, None))
    case _ => Envelope(Undefined, None)
  }

  /** The member `getMember` picks is the first with that id. */
  lemma PickMemberIsFirst(members: seq<Member>, id: string, k: nat)
    requires k < |members| && members[k].id == id
    requires forall j | 0 <= j < k :: members[j].id != id
    ensures PickMember(Answered(ApiResponse(Some(members), None)), id).data == Value(members[k])
  {
    var r := FindIndex(members, (x: Member) => x.id == id);
    assert r.Some?;
  }
}

=== FILE: project_resource.dfy ===
/** `ProjectResource`: the projects of a workspace, below
    `endpoint/{workspace}/projects`. */
module ProjectResource {
  import opened Wrappers
  import opened ApiClient
  import opened BaseResource

  /** `${this.endpoint}/${workspaceId}/projects`. */
  function ProjectsBase(res: Resource, ws: string): string {
    Path(res.endpoint, [ws, "projects"])
  }

  datatype ProjectMethod =
    | GetProjects(workspaceId: string)
    | GetProject(id: string, workspaceId: string)
    | GetProjectIcon(id: string, workspaceId: string)
    | CreateProject(workspaceId: string)
    | UpdateProject(id: string, workspaceId: string)
    | DeleteProject(id: string, workspaceId: string)

  /** The `BaseResource` operation each method delegates to. */
  function OperationOf(res: Resource, m: ProjectMethod): (op: Operation)
    ensures !op.UsesEndpoint() && op.url == Some(ProjectsBase(res, m.workspaceId))
  {
    var base := Some(ProjectsBase(res, m.workspaceId));
    match m
    case GetProjects(_) => GetAll(base)
    case GetProject(id, _) => GetById(id, base)
    case GetProjectIcon(id, _) => GetIcon(id, base)
    case CreateProject(_) => Create(base)
    case UpdateProject(id, _) => UpdateById(id, base)
    case DeleteProject(id, _) => DeleteById(id, base)
  }

  /** The listing and the creation go to `endpoint/{ws}/projects`; the
      by-id methods to `…/projects/{id}`; the icon to `…/projects/{id}/icon`,
      fetched as binary. */
  lemma ProjectUrls(res: Resource, m: ProjectMethod)
    ensures (m.GetProjects? || m.CreateProject?) ==>
      Plan(res, OperationOf(res, m)).url == Path(res.endpoint, [m.workspaceId, "projects"])
    ensures (m.GetProject? || m.UpdateProject? || m.DeleteProject?) ==>
      Plan(res, OperationOf(res, m)).url == Path(res.endpoint, [m.workspaceId, "projects", m.id])
    ensures m.GetProjectIcon? ==>
      Plan(res, OperationOf(res, m)).url == Path(res.endpoint, [m.workspaceId, "projects", m.id, "icon"]) &&
      Plan(res, OperationOf(res, m)).verb == GetBinary
    ensures m.CreateProject? ==> Plan(res, OperationOf(res, m)).verb == Post
    ensures m.UpdateProject? ==> Plan(res, OperationOf(res, m)).verb == Put
    ensures m.DeleteProject? ==> Plan(res, OperationOf(res, m)).verb == Delete
  {
    var op := OperationOf(res, m);
    PlanMatchesSegments(res, op);
    PathConcat(res.endpoint, [m.workspaceId, "projects"], Segments(op));
    var head := [m.workspaceId, "projects"];
    match m {
      case GetProjects(_) | CreateProject(_) =>
        assert head + Segments(op) == head;
      case GetProject(id, _) =>
        assert head + Segments(op) == [m.workspaceId, "projects", id];
      case UpdateProject(id, _) =>
        assert head + Segments(op) == [m.workspaceId, "projects", id];
      case DeleteProject(id, _) =>
        assert head + Segments(op) == [m.workspaceId, "projects", id];
      case GetProjectIcon(id, _) =>
        assert head + Segments(op) == [m.workspaceId, "projects", id, Segments(op)[1]];
    }
  }

  /** `getProjectIcon`: `getIcon`'s bare result, raw bytes or null or an
      `{ error }` object, under `data`. */
  function Icon<T>(o: Outcome<T>): (r: Envelope<Unwrapped<T>>)
    ensures r.error.None? && r.data.Value?
    ensures o.Answered? ==> r.data.value == Payload(o.response.data)
    ensures o.Caught? ==> r.data.value == ErrorObject(o.error)
  {
    Whole(Unwrap(o))
  }
}

=== FILE: project_routes.dfy ===
/** The data shaping of the project routes
    (`src/features/projects/server/route.ts`): composite ids, the
    analytics counters, and the body of a new project. */
module ProjectRoutes {
  import opened Wrappers
  import opened Text
  import opened Seqs
  import opened ApiClient
  import opened BaseResource
  import opened Domain
  import opened CaseResource
  import opened Wrapper
  import opened Routes
  import opened Analytics
  import TaskRoutes

  // ---------------------------------------------------------------------
  // Composite ids

  /** The project and the workspace a `"project,workspace"` route
      parameter names (`split(",")[0]` and `split(",")[1]`); the
      workspace is `undefined` when there is no comma. */
  datatype Target = Target(projectId: string, workspaceId: Option<string>)

  function TargetOf(param: string): (t: Target)
    ensures Some(t.projectId) == TaskRoutes.Part(param, 0)
    ensures t.workspaceId == TaskRoutes.Part(param, 1)
    ensures ',' !in t.projectId
  {
    Target(Split(param, ',')[0], TaskRoutes.Part(param, 1))
  }

  /** Packing a project and a workspace with a comma and splitting the
      result gives both back, as long as the project id has no comma. */
  lemma TargetRoundTrip(projectId: string, workspaceId: string)
    requires ',' !in projectId && ',' !in workspaceId
    ensures TargetOf(projectId + "," + workspaceId) == Target(projectId, Some(workspaceId))
  {
    SplitJoin([projectId, workspaceId], ',');
    assert Join([projectId, workspaceId], ',') == projectId + "," + workspaceId;
  }

  // ---------------------------------------------------------------------
  // GET /:projectId/analytics

  /** The cases the project analytics count: those of the project. */
  function InProject(projectId: string): Case -> bool {
    (c: Case) => c.projectId == projectId
  }

  /** The listing the analytics fetch: the cases of the named project. */
  function AnalyticsRequest(param: string): (m: CaseMethod)
    ensures m == GetCases(Interpolate(TargetOf(param).workspaceId), TargetOf(param).projectId)
  {
    var t := TargetOf(param);
    GetCases(Interpolate(t.workspaceId), t.projectId)
  }

  /** For the parameter `projectId,workspaceId` the analytics list the cases
      of that project in that workspace, at
      `endpoint/{workspace}/projects/{project}/cases`. */
  lemma AnalyticsRequestRoundTrip(res: Resource, projectId: string, workspaceId: string)
    requires ',' !in projectId && ',' !in workspaceId
    ensures AnalyticsRequest(projectId + "," + workspaceId) == GetCases(workspaceId, projectId)
    ensures Plan(res, CaseResource.OperationOf(res, AnalyticsRequest(projectId + "," + workspaceId))).url ==
      Path(res.endpoint, [workspaceId, "projects", projectId, "cases"])
  {
    TargetRoundTrip(projectId, workspaceId);
    var m := AnalyticsRequest(projectId + "," + workspaceId);
    CaseUrl(res, m);
    assert [workspaceId, "projects", projectId, "cases"] + [] == [workspaceId, "projects", projectId, "cases"];
  }

  /** `GET /:projectId/analytics`, given the case listing and the profile
      of the current user the route consults. A missing or empty listing
      gives all zeros; otherwise the cases of the project are counted. */
  function ProjectAnalytics(
    param: string, cases: Envelope<seq<Case>>, currentUser: Option<Profile>,
    inThis: string -> bool, inLast: string -> bool): (r: Response<Counters>)
    ensures Truthy(cases.error) ==> r == Thrown("Something happened")
    ensures !Truthy(cases.error) && (!cases.data.Value? || cases.data.value == []) ==> r == Ok(Zero)
    ensures !Truthy(cases.error) && cases.data.Value? && cases.data.value != [] ==>
      r == Ok(Tally(cases.data.value, inThis, inLast, InProject(TargetOf(param).projectId), UserIdOf(currentUser)))
  {
    if Truthy(cases.error) then Thrown("Something happened")
    else if !cases.data.Value? || |cases.data.value| == 0 then Ok(Zero)
    else Ok(Tally(cases.data.value, inThis, inLast, InProject(TargetOf(param).projectId), UserIdOf(currentUser)))
  }

  /** As written the route asks the cases resource for the current user,
      which never has one: the assigned counters count unassigned cases,
      exactly as with no user at all. */
  lemma ProjectAssignedCountsUnassigned(
    a: App, param: string, cases: Envelope<seq<Case>>, inThis: string -> bool, inLast: string -> bool)
    requires OnlyAuthKnowsUser(a.w)
    ensures ProjectAnalytics(param, cases, UserInfo(a.w.cases), inThis, inLast) ==
      ProjectAnalytics(param, cases, None, inThis, inLast)
  {
    assert Wrapper.Get(a.w, Cases).client.userInfo.None?;
  }

  /** With the user the auth resource cached, the assigned count is the
      number of this month's project cases assigned to that user. */
  lemma ProjectCorrectedCountsTheUsersCases(
    a: App, param: string, cases: seq<Case>, inThis: string -> bool, inLast: string -> bool, u: Profile)
    requires cases != [] && a.w.auth.client.userInfo == Some(u)
    ensures var r := ProjectAnalytics(param, Envelope(Value(cases), None), UserInfo(a.w.auth), inThis, inLast);
      r.Ok? && r.data.assignedTaskCount ==
        Count(cases, And(InWindow(inThis, InProject(TargetOf(param).projectId)), AssignedTo(Some(u.id))))
  {
  }

  // ---------------------------------------------------------------------
  // POST /: a new project

  /** `getCurrent()` (`src/features/auth/queries.ts`): the listed member
      whose id is the `user_id` cookie; nothing when the cookie is
      missing or empty, when listing the members reports an error, or
      when no member has that id. */
  function GetCurrent(store: Store, members: Envelope<seq<Member>>): (r: Option<Member>)
    ensures r.Some? ==> CookieValue(store, UserIdKey) == Some(r.value.id)
    ensures r.Some? ==> !Truthy(members.error) && members.data.Value? && r.value in members.data.value
    ensures r.Some? ==> exists i | 0 <= i < |members.data.value| ::
      members.data.value[i] == r.value && forall j | 0 <= j < i :: members.data.value[j].id != r.value.id
    ensures r.None? && CookieValue(store, UserIdKey).Some? && !Truthy(members.error) && members.data.Value? ==>
      forall i | 0 <= i < |members.data.value| :: members.data.value[i].id != store[UserIdKey]
  {
    match CookieValue(store, UserIdKey)
    case None => None
    case Some(id) =>
      if Truthy(members.error) || !members.data.Value? then None
      else Find(members.data.value, (m: Member) => m.id == id)
  }

  /** The body the route sends to create a project. */
  datatype ProjectBody = ProjectBody(title: string, description: string, members: seq<string>, bpmnId: string)

  /** `POST /`: a BPMN is created first and must come back; the project
      then names it, and its members are the current user when there is
      one. */
  function CreateProjectBody(name: string, workspaceId: string, bpmn: Envelope<Bpmn>, user: Option<Member>): (r: Response<ProjectBody>)
    ensures r.Ok? <==> !Truthy(bpmn.error) && bpmn.data.Value?
    ensures r.Thrown? ==> r.message == "BPMN not created"
    ensures r.Ok? ==> r.data.title == name && r.data.bpmnId == bpmn.data.value.id
    ensures r.Ok? ==> r.data.description == "This is a project for workspace " + workspaceId
    ensures r.Ok? ==> (r.data.members == if user.Some? && user.value.id != "" then [user.value.id] else [])
  {
    if Truthy(bpmn.error) || !bpmn.data.Value? then Thrown("BPMN not created")
    else
      var members := if user.Some? && user.value.id != "" then [user.value.id] else [];
      Ok(ProjectBody(name, "This is a project for workspace " + workspaceId, members, bpmn.data.value.id))
  }

  /** Unlike the workspace route, the project route finds its creator
      through the `user_id` cookie: a logged-in user who is listed among
      the members becomes the project's one member. */
  lemma ListedCreatorBecomesMember(
    store: Store, all: seq<Member>, k: nat, name: string, workspaceId: string, b: Bpmn)
    requires UserIdKey in store && store[UserIdKey] != ""
    requires k < |all| && all[k].id == store[UserIdKey]
    ensures var user := GetCurrent(store, Envelope(Value(all), None));
      CreateProjectBody(name, workspaceId, Envelope(Value(b), None), user).data.members == [store[UserIdKey]]
  {
  }
}

=== FILE: routes.dfy ===
/** What the server routes share: how a handler ends (a JSON body or a
    thrown error), JavaScript truthiness of the values they test, and the
    display name of a member. */
module Routes {
  import opened Wrappers
  import opened Text
  import opened Seqs
  import opened BaseResource
  import opened Domain

  /** How a handler ends: `c.json({ data })`, or an `Error` thrown with
      the given message (which the framework turns into a server error). */
  datatype Response<T> = Ok(data: T) | Thrown(message: string)

  /** A string-or-missing value in a condition: missing and `""` are falsy. */
  predicate Truthy(s: Option<string>) {
    s.Some? && s.value != ""
  }

  /** A string-or-undefined value inside a template literal. */
  function Interpolate(s: Option<string>): string {
    match s
    case Some(v) => v
    case None => "undefined"
  }

  /** The gate every handler puts after a facade call: a truthy `error`
      throws `failed`; then missing `data` (null or undefined; arrays and
      objects, even empty ones, are truthy) throws `missing`. */
  function Demand<T>(e: Envelope<T>, failed: string, missing: string): (r: Response<T>)
    ensures r.Ok? <==> !Truthy(e.error) && e.data.Value?
    ensures r.Ok? ==> r.data == e.data.value
    ensures Truthy(e.error) ==> r == Thrown(failed)
    ensures !Truthy(e.error) && !e.data.Value? ==> r == Thrown(missing)
  {
    if Truthy(e.error) then Thrown(failed)
    else if !e.data.Value? then Thrown(missing)
    else Ok(e.data.value)
  }

  /** The gate for a facade call whose data is returned as it is:
      only a truthy `error` throws. */
  function Forward<T>(e: Envelope<T>, failed: string): (r: Response<Field<T>>)
    ensures r.Ok? <==> !Truthy(e.error)
    ensures r.Ok? ==> r.data == e.data
    ensures r.Thrown? ==> r.message == failed
  {
    if Truthy(e.error) then Thrown(failed) else Ok(e.data)
  }

  /** Whether a member has a first or a last name. */
  predicate Named(m: Member) {
    m.firstName != "" || m.lastName != ""
  }

  /** `first_name || last_name ? \`${first_name} ${last_name}\` : username`:
      the full name when the member has one, else the user name. */
  function MemberName(m: Member): (r: string)
    ensures Named(m) ==> |r| == |m.firstName| + 1 + |m.lastName|
    ensures Named(m) ==> r[..|m.firstName|] == m.firstName && r[|m.firstName|] == ' ' && r[|m.firstName| + 1..] == m.lastName
    ensures !Named(m) ==> r == m.username
  {
    if Named(m) then m.firstName + " " + m.lastName else m.username
  }

  /** A full name splits on spaces into the words of the first name
      followed by the words of the last name; with single-word names, into
      exactly the two names. */
  lemma MemberNameWords(m: Member)
    requires Named(m)
    ensures Split(MemberName(m), ' ') == Split(m.firstName, ' ') + Split(m.lastName, ' ')
    ensures ' ' !in m.firstName && ' ' !in m.lastName ==> Split(MemberName(m), ' ') == [m.firstName, m.lastName]
  {
    assert MemberName(m) == m.firstName + [' '] + m.lastName;
    SplitAround(m.firstName, m.lastName, ' ');
    if ' ' !in m.firstName && ' ' !in m.lastName {
      SplitAtom(m.firstName, ' ');
      SplitAtom(m.lastName, ' ');
    }
  }

  /** The placeholder the task routes show when no member matches. */
  const UnknownAssignee := "senior"

  /** The task routes' name for the member with id `id`: the first member
      listed with that id, named as `MemberName` does, or `"senior"` when
      none matches (including when the id is missing). */
  function AssigneeName(members: seq<Member>, id: Option<string>): (r: string)
    ensures (forall i | 0 <= i < |members| :: Some(members[i].id) != id) ==> r == UnknownAssignee
    ensures forall k | 0 <= k < |members| && Some(members[k].id) == id && (forall j | 0 <= j < k :: Some(members[j].id) != id) ::
      r == MemberName(members[k])
  {
    match FindIndex(members, HasId(id))
    case None => UnknownAssignee
    case Some(k) =>
      FirstMatchUnique(members, id, k);
      MemberName(members[k])
  }

  /** The members whose id is `id`. */
  function HasId(id: Option<string>): Member -> bool {
    (m: Member) => Some(m.id) == id
  }

  /** Only one member can be the first with a given id. */
  lemma FirstMatchUnique(members: seq<Member>, id: Option<string>, k: nat)
    requires k < |members| && Some(members[k].id) == id
    requires forall j | 0 <= j < k :: Some(members[j].id) != id
    ensures forall k' | 0 <= k' < |members| && Some(members[k'].id) == id && (forall j | 0 <= j < k' :: Some(members[j].id) != id) ::
      k' == k
  {
  }
}

=== FILE: seqs.dfy ===
/** `Array.prototype.filter` and `Array.prototype.find`, with the
    properties the callers rely on. */
module Seqs {
  import opened Wrappers

  /** `r` is obtained from `s` by deleting elements, keeping the order. */
  predicate IsSubsequence<T(==,!new)>(r: seq<T>, s: seq<T>)
    decreases |s|
  {
    if |r| == 0 then true
    else if |s| == 0 then false
    else if r[0] == s[0] then IsSubsequence(r[1..], s[1..])
    else IsSubsequence(r, s[1..])
  }

  /** The elements of `s` that satisfy `p`, in their original order. */
  function Filter<T(==,!new)>(s: seq<T>, p: T -> bool): (r: seq<T>)
    ensures |r| <= |s|
    ensures forall i | 0 <= i < |r| :: p(r[i])
    ensures forall x :: x in r <==> x in s && p(x)
    ensures forall x | p(x) :: multiset(r)[x] == multiset(s)[x]
    ensures IsSubsequence(r, s)
    decreases |s|
  {
    if |s| == 0 then []
    else
      var rest := Filter(s[1..], p);
      assert s == [s[0]] + s[1..];
      if p(s[0]) then
        assert ([s[0]] + rest)[1..] == rest;
        [s[0]] + rest
      else
        rest
  }

  /** Filtering twice by the same predicate is filtering once. */
  lemma {:induction false} FilterIdempotent<T(!new)>(s: seq<T>, p: T -> bool)
    ensures Filter(Filter(s, p), p) == Filter(s, p)
    decreases |s|
  {
    if |s| > 0 {
      FilterIdempotent(s[1..], p);
      if p(s[0]) {
        var r := Filter(s, p);
        assert r[0] == s[0] && r[1..] == Filter(s[1..], p);
      }
    }
  }

  /** A filter that every element passes keeps the whole sequence. */
  lemma {:induction false} FilterKeepsAll<T(!new)>(s: seq<T>, p: T -> bool)
    requires forall i | 0 <= i < |s| :: p(s[i])
    ensures Filter(s, p) == s
    decreases |s|
  {
    if |s| > 0 {
      FilterKeepsAll(s[1..], p);
    }
  }

  /** The conjunction of two tests. */
  function And<T>(p: T -> bool, q: T -> bool): T -> bool {
    x => p(x) && q(x)
  }

  /** The negation of a test. */
  function Not<T>(p: T -> bool): T -> bool {
    x => !p(x)
  }

  /** Filtering by a conjunction is filtering by each conjunct in turn. */
  lemma {:induction false} FilterConjunction<T(!new)>(s: seq<T>, p: T -> bool, q: T -> bool)
    ensures Filter(s, And(p, q)) == Filter(Filter(s, p), q)
    decreases |s|
  {
    if |s| > 0 {
      FilterConjunction(s[1..], p, q);
      if p(s[0]) {
        var r := Filter(s, p);
        assert r[0] == s[0] && r[1..] == Filter(s[1..], p);
      }
    }
  }

  /** Filtering a concatenation filters each part. */
  lemma {:induction false} FilterAppend<T(!new)>(a: seq<T>, b: seq<T>, p: T -> bool)
    ensures Filter(a + b, p) == Filter(a, p) + Filter(b, p)
    decreases |a|
  {
    if |a| > 0 {
      assert (a + b)[1..] == a[1..] + b;
      FilterAppend(a[1..], b, p);
    } else {
      assert a + b == b;
    }
  }

  /** Filters by tests that agree everywhere give the same result. */
  lemma {:induction false} FilterSame<T(!new)>(s: seq<T>, p: T -> bool, q: T -> bool)
    requires forall x :: p(x) == q(x)
    ensures Filter(s, p) == Filter(s, q)
    decreases |s|
  {
    if |s| > 0 {
      FilterSame(s[1..], p, q);
    }
  }

  /** The number of elements of `s` that satisfy `p`. */
  function Count<T>(s: seq<T>, p: T -> bool): (n: nat)
    ensures n <= |s|
    decreases |s|
  {
    if |s| == 0 then 0 else (if p(s[0]) then 1 else 0) + Count(s[1..], p)
  }

  /** Counting is the length of the filter. */
  lemma {:induction false} CountIsFilterLength<T(!new)>(s: seq<T>, p: T -> bool)
    ensures Count(s, p) == |Filter(s, p)|
    decreases |s|
  {
    if |s| > 0 {
      CountIsFilterLength(s[1..], p);
    }
  }

  /** The elements that pass `p` and the ones that fail it add up to all
      of them. */
  lemma {:induction false} CountPartition<T>(s: seq<T>, p: T -> bool)
    ensures Count(s, p) + Count(s, x => !p(x)) == |s|
    decreases |s|
  {
    if |s| > 0 {
      CountPartition(s[1..], p);
    }
  }

  /** Splitting the elements that pass `p` by a second test `q`: those
      that pass both and those that pass `p` only add up to those that
      pass `p`. */
  lemma {:induction false} CountSplit<T>(s: seq<T>, p: T -> bool, q: T -> bool)
    ensures Count(s, And(p, q)) + Count(s, And(p, Not(q))) == Count(s, p)
    decreases |s|
  {
    if |s| > 0 {
      CountSplit(s[1..], p, q);
    }
  }

  /** Counting by a test that implies `q` sees the same elements in `s`
      and in the part of `s` that passes `q`. */
  lemma {:induction false} CountWithinFilter<T(!new)>(s: seq<T>, q: T -> bool, p: T -> bool)
    requires forall x :: p(x) ==> q(x)
    ensures Count(Filter(s, q), p) == Count(s, p)
    decreases |s|
  {
    if |s| > 0 {
      CountWithinFilter(s[1..], q, p);
      if q(s[0]) {
        var r := Filter(s, q);
        assert r[0] == s[0] && r[1..] == Filter(s[1..], q);
      }
    }
  }

  /** A predicate implied by another counts at least as many elements. */
  lemma {:induction false} CountMonotone<T>(s: seq<T>, p: T -> bool, q: T -> bool)
    requires forall x :: p(x) ==> q(x)
    ensures Count(s, p) <= Count(s, q)
    decreases |s|
  {
    if |s| > 0 {
      CountMonotone(s[1..], p, q);
    }
  }

  /** The position of the first element that satisfies `p`
      (`Array.prototype.findIndex`, None for -1). */
  function FindIndex<T>(s: seq<T>, p: T -> bool): (r: Option<nat>)
    ensures r.Some? ==> r.value < |s| && p(s[r.value])
    ensures r.Some? ==> forall j | 0 <= j < r.value :: !p(s[j])
    ensures r.None? <==> forall j | 0 <= j < |s| :: !p(s[j])
    decreases |s|
  {
    if |s| == 0 then None
    else if p(s[0]) then Some(0)
    else
      match FindIndex(s[1..], p)
      case None => None
      case Some(k) => Some(k + 1)
  }

  /** `Array.prototype.find`: the first element that satisfies `p`, None
      standing for `undefined`. */
  function Find<T>(s: seq<T>, p: T -> bool): (r: Option<T>)
    ensures r.Some? <==> exists i | 0 <= i < |s| :: p(s[i])
    ensures r.Some? ==> exists i | 0 <= i < |s| :: s[i] == r.value && p(s[i]) && forall j | 0 <= j < i :: !p(s[j])
  {
    match FindIndex(s, p)
    case None => None
    case Some(k) => Some(s[k])
  }
}

=== FILE: task_routes.dfy ===
/** The data shaping of the task routes (`src/features/tasks/server/route.ts`):
    composite ids, the case-list filter, assignee names, the case detail,
    the BPMN download target and the examine/review payloads. */
module TaskRoutes {
  import opened Wrappers
  import opened Text
  import opened Seqs
  import opened BaseResource
  import opened Domain
  import opened CaseResource
  import opened BpmnResource
  import opened TaskSchemas
  import opened Routes
  import ApiClient

  const Failed := "Something happened"

  // ---------------------------------------------------------------------
  // Composite ids

  /** `s.split(",")[k]`, None standing for `undefined` past the end. */
  function Part(s: string, k: nat): (r: Option<string>)
    ensures r.Some? <==> k < |Split(s, ',')|
    ensures r.Some? ==> ',' !in r.value
  {
    var parts := Split(s, ',');
    if k < |parts| then Some(parts[k]) else None
  }

  /** The id the breadcrumb's delete button sends:
      `${task.id},${workspaceId},${project?.id}`. */
  function BreadcrumbId(taskId: string, workspaceId: string, projectId: Option<string>): string {
    taskId + "," + workspaceId + "," + Interpolate(projectId)
  }

  /** `DELETE /:taskId`: the case id, workspace and project are the first
      three comma-separated parts, each `undefined` when absent. */
  function DeleteRequest(taskId: string): (m: CaseMethod)
    ensures m.DeleteCase?
    ensures m.id == Interpolate(Part(taskId, 0))
    ensures m.workspaceId == Interpolate(Part(taskId, 1)) && m.projectId == Interpolate(Part(taskId, 2))
  {
    DeleteCase(Interpolate(Part(taskId, 0)), Interpolate(Part(taskId, 1)), Interpolate(Part(taskId, 2)))
  }

  /** The delete route recovers exactly the three ids the breadcrumb packed,
      as long as none of them holds a comma. */
  lemma BreadcrumbDeleteRoundTrip(taskId: string, workspaceId: string, projectId: Option<string>)
    requires ',' !in taskId && ',' !in workspaceId && ',' !in Interpolate(projectId)
    ensures DeleteRequest(BreadcrumbId(taskId, workspaceId, projectId)) ==
      DeleteCase(taskId, workspaceId, Interpolate(projectId))
  {
    var parts := [taskId, workspaceId, Interpolate(projectId)];
    assert Join(parts, ',') == BreadcrumbId(taskId, workspaceId, projectId) by {
      assert Join(parts[1..], ',') == workspaceId + [','] + Interpolate(projectId);
    }
    SplitJoin(parts, ',');
  }

  /** A comma inside the task id shifts every later part: the route then
      deletes the wrong case in the wrong workspace. */
  lemma CommaInTaskIdShiftsParts()
    ensures DeleteRequest(BreadcrumbId("a,b", "w", Some("p"))) == DeleteCase("a", "b", "w")
  {
    var parts := ["a", "b", "w", "p"];
    assert Join(parts, ',') == BreadcrumbId("a,b", "w", Some("p"));
    SplitJoin(parts, ',');
  }

  /** The delete route's answer: the deletion's own result, or a throw
      when it reports an error. */
  function DeleteResponse<T>(e: Envelope<T>): (r: Response<Field<T>>)
    ensures r.Ok? <==> !Truthy(e.error)
    ensures r.Ok? ==> r.data == e.data
  {
    Forward(e, Failed)
  }

  // ---------------------------------------------------------------------
  // GET /: the case list

  /** The validated query; the optional filters are null or missing as
      None. */
  datatype TaskQuery = TaskQuery(
    workspaceId: string, projectId: Option<string>, assigneeId: Option<string>,
    status: Option<CaseStatus>, createdAt: Option<string>)

  /** A case with its assignee's display name and its project, if listed. */
  datatype CaseRow = CaseRow(item: Case, assignee: string, project: Option<Project>)

  /** The listing's request: the cases of `projectId ?? ""`. */
  function ListRequest(q: TaskQuery): (m: CaseMethod)
    ensures m == GetCases(q.workspaceId, q.projectId.GetOr(""))
  {
    GetCases(q.workspaceId, match q.projectId case Some(p) => p case None => "")
  }

  /** The listing fetches `endpoint/{workspace}/projects/{project}/cases`
      with a GET, the project segment empty when the query names none. */
  lemma ListRequestUrl(res: Resource, q: TaskQuery)
    ensures var call := Plan(res, CaseResource.OperationOf(res, ListRequest(q)));
      call.url == Path(res.endpoint, [q.workspaceId, "projects", q.projectId.GetOr(""), "cases"]) && call.verb == ApiClient.Get
  {
    var m := ListRequest(q);
    CaseUrl(res, m);
    PlanMatchesSegments(res, CaseResource.OperationOf(res, m));
    assert Segments(CaseResource.OperationOf(res, m)) == [];
    assert [q.workspaceId, "projects", q.projectId.GetOr(""), "cases"] + [] == [q.workspaceId, "projects", q.projectId.GetOr(""), "cases"];
  }

  function Populate(c: Case, members: seq<Member>, projects: seq<Project>): (r: CaseRow)
    ensures r.item == c && r.assignee == AssigneeName(members, c.assigneeId)
    ensures r.project.Some? <==> exists i | 0 <= i < |projects| :: projects[i].id == c.projectId
    ensures r.project.Some? ==> r.project.value.id == c.projectId
  {
    CaseRow(c, AssigneeName(members, c.assigneeId), Find(projects, (p: Project) => p.id == c.projectId))
  }

  /** Whether a row passes every filter the query supplies; a filter that
      is missing or empty passes everything. `sameDay` stands for comparing
      `new Date(…).toDateString()` of the two dates. */
  predicate Matches(q: TaskQuery, sameDay: (string, string) -> bool, row: CaseRow) {
    (!Truthy(q.projectId) || row.item.projectId == q.projectId.value) &&
    (q.status.None? || row.item.status == q.status.value.Name()) &&
    (!Truthy(q.assigneeId) || row.item.assigneeId == q.assigneeId) &&
    (!Truthy(q.createdAt) || sameDay(row.item.createdAt, q.createdAt.value))
  }

  /** `Matches` as the callback handed to `filter`. */
  function Matcher(q: TaskQuery, sameDay: (string, string) -> bool): CaseRow -> bool {
    (row: CaseRow) => Matches(q, sameDay, row)
  }

  function PopulateAll(cases: seq<Case>, members: seq<Member>, projects: seq<Project>): (rows: seq<CaseRow>)
    ensures |rows| == |cases|
    ensures forall i | 0 <= i < |cases| :: rows[i] == Populate(cases[i], members, projects)
  {
    seq(|cases|, i requires 0 <= i < |cases| => Populate(cases[i], members, projects))
  }

  /** The message of the `TypeError` `Buffer.from` throws when handed a
      value that is neither bytes nor array-like: `null`, `undefined`, or
      an `{ error }` object. */
  const NotBytes := "The first argument must be of type string or an instance of Buffer, ArrayBuffer, or Array or an Array-like Object."

  /** An answer of `getProjectIcon` that `Buffer.from` can encode: the
      image's bytes, rather than a missing body or an `{ error }` object. */
  predicate Encodable(icon: Unwrapped<seq<int>>) {
    icon.Payload? && icon.data.Some?
  }

  /** Every listed project's icon can be encoded; `iconOf` stands for the
      icon request the listing makes for each project. */
  predicate IconsEncodable(ps: seq<Project>, iconOf: Project -> Unwrapped<seq<int>>) {
    forall i | 0 <= i < |ps| :: Encodable(iconOf(ps[i]))
  }

  /** `GET /`: the cases with their assignee and project, kept in order
      when they pass the query's filters. The cases and the projects must
      arrive, every project's icon must encode, and then the members must
      arrive, in that order of checking. */
  function ListTasks(
    q: TaskQuery, sameDay: (string, string) -> bool,
    cases: Envelope<seq<Case>>, projects: Envelope<seq<Project>>,
    iconOf: Project -> Unwrapped<seq<int>>, members: Envelope<seq<Member>>): (r: Response<seq<CaseRow>>)
    ensures r.Ok? <==> (Demand(cases, Failed, "No cases found").Ok? &&
      Demand(projects, Failed, "No projects found").Ok? &&
      IconsEncodable(projects.data.value, iconOf) &&
      Demand(members, "Something went wrong", "Members not found").Ok?)
    ensures (Demand(cases, Failed, "No cases found").Ok? && Demand(projects, Failed, "No projects found").Ok? &&
      !IconsEncodable(projects.data.value, iconOf)) ==> r == Thrown(NotBytes)
    ensures r.Ok? ==> IsSubsequence(r.data, PopulateAll(cases.data.value, members.data.value, projects.data.value))
    ensures r.Ok? ==> forall row :: row in r.data <==>
      row in PopulateAll(cases.data.value, members.data.value, projects.data.value) && Matches(q, sameDay, row)
    ensures r.Ok? ==> forall row :: multiset(r.data)[row] == (if Matches(q, sameDay, row)
      then multiset(PopulateAll(cases.data.value, members.data.value, projects.data.value))[row] else 0)
  {
    match Demand(cases, Failed, "No cases found")
    case Thrown(e) => Thrown(e)
    case Ok(cs) =>
      match Demand(projects, Failed, "No projects found")
      case Thrown(e) => Thrown(e)
      case Ok(ps) =>
        if !IconsEncodable(ps, iconOf) then Thrown(NotBytes)
        else match Demand(members, "Something went wrong", "Members not found")
        case Thrown(e) => Thrown(e)
        case Ok(ms) => Ok(Filter(PopulateAll(cs, ms, ps), Matcher(q, sameDay)))
  }

  /** A query with no filters lists every case once every icon encodes. */
  lemma NoFiltersListEverything(
    workspaceId: string, sameDay: (string, string) -> bool,
    cases: seq<Case>, projects: seq<Project>, iconOf: Project -> Unwrapped<seq<int>>, members: seq<Member>)
    requires IconsEncodable(projects, iconOf)
    ensures var q := TaskQuery(workspaceId, None, None, None, None);
      ListTasks(q, sameDay, Envelope(Value(cases), None), Envelope(Value(projects), None), iconOf, Envelope(Value(members), None)) ==
      Ok(PopulateAll(cases, members, projects))
  {
    var q := TaskQuery(workspaceId, None, None, None, None);
    FilterKeepsAll(PopulateAll(cases, members, projects), Matcher(q, sameDay));
  }

  /** The callback of a status filter on its own. */
  function HasStatus(st: CaseStatus): CaseRow -> bool {
    (row: CaseRow) => row.item.status == st.Name()
  }

  /** Adding a status filter to a query narrows its rows to that status,
      keeping their order. */
  lemma StatusFilterNarrows(q: TaskQuery, st: CaseStatus, sameDay: (string, string) -> bool, rows: seq<CaseRow>)
    requires q.status.None?
    ensures Filter(rows, Matcher(q.(status := Some(st)), sameDay)) == Filter(Filter(rows, Matcher(q, sameDay)), HasStatus(st))
  {
    var p := Matcher(q, sameDay);
    var s := HasStatus(st);
    var both := And(p, s);
    FilterConjunction(rows, p, s);
    forall x
      ensures Matcher(q.(status := Some(st)), sameDay)(x) == both(x)
    {
    }
    FilterSame(rows, Matcher(q.(status := Some(st)), sameDay), both);
  }

  // ---------------------------------------------------------------------
  // GET /:taskId: the case detail

  /** An attachment with the name the detail shows: the file name, or the
      title when the file name is empty. */
  datatype NamedAttachment = NamedAttachment(item: Attachment, name: string)

  function NameAttachment(a: Attachment): (r: NamedAttachment)
    ensures r.item == a
    ensures a.fileName != "" ==> r.name == a.fileName
    ensures a.fileName == "" ==> r.name == a.title
  {
    NamedAttachment(a, if a.fileName != "" then a.fileName else a.title)
  }

  /** `attachementsData?.map(…) ?? []`. */
  function NameAttachments(data: Field<seq<Attachment>>): (r: seq<NamedAttachment>)
    ensures data.Value? ==> |r| == |data.value| && forall i | 0 <= i < |r| :: r[i] == NameAttachment(data.value[i])
    ensures !data.Value? ==> r == []
  {
    match data
    case Value(atts) => seq(|atts|, i requires 0 <= i < |atts| => NameAttachment(atts[i]))
    case _ => []
  }

  /** The paged comment listing; `content` may be missing. */
  datatype CommentPage = CommentPage(content: Option<seq<Comment>>)

  /** Each comment with its author's id replaced by the author's name. */
  function NameComments(comments: seq<Comment>, members: seq<Member>): (r: seq<Comment>)
    ensures |r| == |comments|
    ensures forall i | 0 <= i < |r| ::
      r[i].id == comments[i].id && r[i].body == comments[i].body && r[i].commentedAt == comments[i].commentedAt
    ensures forall i | 0 <= i < |r| :: r[i].commentedById == AssigneeName(members, Some(comments[i].commentedById))
  {
    seq(|comments|, i requires 0 <= i < |comments| =>
      comments[i].(commentedById := AssigneeName(members, Some(comments[i].commentedById))))
  }

  /** `commentsData?.content` named, or no comments when either is missing. */
  function CommentsOf(data: Field<CommentPage>, members: seq<Member>): (r: seq<Comment>)
    ensures data.Value? && data.value.content.Some? ==> r == NameComments(data.value.content.value, members)
    ensures !(data.Value? && data.value.content.Some?) ==> r == []
  {
    if data.Value? && data.value.content.Some? then NameComments(data.value.content.value, members) else []
  }

  /** The case detail the route assembles (the data URL the project's icon
      is encoded into is not part of this model; only whether it encodes). */
  datatype TaskDetail = TaskDetail(
    item: Case, attachments: seq<NamedAttachment>, comments: seq<Comment>,
    project: Project, activities: seq<Activity>, assignee: string)

  /** The message reading `.id` of the first project of an empty list gives. */
  const NoFirstProject := "Cannot read properties of undefined (reading 'id')"

  /** The requests the detail route makes for the case itself, all under
      the first project of the workspace. */
  function DetailRequests(taskId: string, firstProject: string): (ms: seq<CaseMethod>)
    ensures |ms| == 4
    ensures forall i | 0 <= i < 4 :: (!ms[i].CreateCase? && !ms[i].GetCases? && ms[i].id == Interpolate(Part(taskId, 0)) &&
      ms[i].workspaceId == Interpolate(Part(taskId, 1)) && ms[i].projectId == firstProject)
  {
    var id := Interpolate(Part(taskId, 0));
    var ws := Interpolate(Part(taskId, 1));
    [GetCase(id, ws, firstProject), GetCaseComments(id, ws, firstProject),
     GetCaseAttachments(id, ws, firstProject), GetCaseHistory(id, ws, firstProject)]
  }

  /** Every answer before the icon's passes its check in `GET /:taskId`. */
  predicate ReachesIcon(
    projects: Envelope<seq<Project>>, caseData: Envelope<Case>, comments: Envelope<CommentPage>,
    members: Envelope<seq<Member>>, attachments: Envelope<seq<Attachment>>,
    activities: Envelope<seq<Activity>>, project: Envelope<Project>)
  {
    Demand(projects, Failed, "No projects Data found").Ok? && |projects.data.value| > 0 &&
    Demand(caseData, Failed, "No cases found").Ok? && !Truthy(comments.error) &&
    Demand(members, "Something went wrong", "Members not found").Ok? &&
    !Truthy(attachments.error) && !Truthy(activities.error) &&
    Demand(project, Failed, "No project found").Ok?
  }

  /** `GET /:taskId`, given the answers of its requests in the order it
      makes them: the workspace's projects, the case, its comments, the
      members, its attachments, its history, its project and its icon. */
  function GetTask(
    projects: Envelope<seq<Project>>, caseData: Envelope<Case>, comments: Envelope<CommentPage>,
    members: Envelope<seq<Member>>, attachments: Envelope<seq<Attachment>>,
    activities: Envelope<seq<Activity>>, project: Envelope<Project>,
    icon: Envelope<Unwrapped<seq<int>>>): (r: Response<TaskDetail>)
    ensures projects.data.Value? && projects.data.value == [] && !Truthy(projects.error) ==> r == Thrown(NoFirstProject)
    ensures r.Ok? ==> Demand(caseData, Failed, "No cases found") == Ok(r.data.item)
    ensures r.Ok? ==> members.data.Value? && r.data.assignee == AssigneeName(members.data.value, r.data.item.assigneeId)
    ensures r.Ok? ==> r.data.comments == CommentsOf(comments.data, members.data.value)
    ensures r.Ok? ==> r.data.attachments == NameAttachments(attachments.data)
    ensures r.Ok? ==> r.data.activities == (if activities.data.Value? then activities.data.value else [])
    ensures r.Ok? ==> !Truthy(activities.error) && project.data == Value(r.data.project)
    ensures r.Ok? <==> (ReachesIcon(projects, caseData, comments, members, attachments, activities, project) &&
      !Truthy(icon.error) && icon.data.Value? && Encodable(icon.data.value))
    ensures (ReachesIcon(projects, caseData, comments, members, attachments, activities, project) && !Truthy(icon.error) &&
      (!icon.data.Value? || icon.data.value == Payload(None))) ==> r == Thrown("No icon found")
    ensures (ReachesIcon(projects, caseData, comments, members, attachments, activities, project) && !Truthy(icon.error) &&
      icon.data.Value? && icon.data.value.ErrorObject?) ==> r == Thrown(NotBytes)
  {
    match Demand(projects, Failed, "No projects Data found")
    case Thrown(e) => Thrown(e)
    case Ok(ps) =>
      if |ps| == 0 then Thrown(NoFirstProject)
      else match Demand(caseData, Failed, "No cases found")
      case Thrown(e) => Thrown(e)
      case Ok(c) =>
        if Truthy(comments.error) then Thrown(Failed)
        else match Demand(members, "Something went wrong", "Members not found")
        case Thrown(e) => Thrown(e)
        case Ok(ms) =>
          if Truthy(attachments.error) || Truthy(activities.error) then Thrown(Failed)
          else match Demand(project, Failed, "No project found")
          case Thrown(e) => Thrown(e)
          case Ok(p) =>
            if Truthy(icon.error) then Thrown(Failed)
            else if !icon.data.Value? || icon.data.value == Payload(None) then Thrown("No icon found")
            else if !Encodable(icon.data.value) then Thrown(NotBytes)
            else
              var acts := match activities.data case Value(a) => a case _ => [];
              Ok(TaskDetail(c, NameAttachments(attachments.data), CommentsOf(comments.data, ms), p, acts,
                AssigneeName(ms, c.assigneeId)))
  }

  // ---------------------------------------------------------------------
  // POST /bpmnDownload

  /** `bpmn?.id ?? ""`. */
  function BpmnIdOf(p: Project): string {
    match p.bpmn
    case Some(b) => b.id
    case None => ""
  }

  /** The BPMN whose file is downloaded: without a project id, that of the
      workspace's first project (answer `projects`); with one, that of the
      given project (answer `project`). A project without a BPMN gives the
      empty id. */
  function BpmnDownloadId(input: BpmnDownload, projects: Envelope<seq<Project>>, project: Envelope<Project>): (r: Response<string>)
    ensures !Truthy(input.projectId) ==>
      (r.Ok? <==> !Truthy(projects.error) && projects.data.Value? && |projects.data.value| > 0)
    ensures !Truthy(input.projectId) && r.Ok? ==> r.data == BpmnIdOf(projects.data.value[0])
    ensures Truthy(input.projectId) ==> (r.Ok? <==> !Truthy(project.error) && project.data.Value?)
    ensures Truthy(input.projectId) && r.Ok? ==> r.data == BpmnIdOf(project.data.value)
    ensures r.Thrown? ==> r.message in {Failed, "No project found"}
  {
    if !Truthy(input.projectId) then
      if Truthy(projects.error) then Thrown(Failed)
      else if !projects.data.Value? || |projects.data.value| == 0 then Thrown("No project found")
      else Ok(BpmnIdOf(projects.data.value[0]))
    else
      match Demand(project, Failed, "No project found")
      case Thrown(e) => Thrown(e)
      case Ok(p) => Ok(BpmnIdOf(p))
  }

  /** The download request the route then makes:
      `getBPMNDownload(bpmnId, workspaceId)`. */
  function BpmnDownloadRequest(input: BpmnDownload, bpmnId: string): (m: BpmnMethod)
    ensures m == GetBpmnDownload(bpmnId, input.workspaceId)
  {
    GetBpmnDownload(bpmnId, input.workspaceId)
  }

  /** The download fetches `endpoint/{workspace}/bpmns/{bpmn}/download`
      with a GET. */
  lemma BpmnDownloadUrl(res: Resource, input: BpmnDownload, bpmnId: string)
    ensures var call := Plan(res, BpmnResource.OperationOf(res, BpmnDownloadRequest(input, bpmnId)));
      call.url == Path(res.endpoint, [input.workspaceId, "bpmns", bpmnId, "download"]) && call.verb == ApiClient.Get
  {
    var m := BpmnDownloadRequest(input, bpmnId);
    BpmnUrls(res, m);
    PlanMatchesSegments(res, BpmnResource.OperationOf(res, m));
  }

  // ---------------------------------------------------------------------
  // POST /examine and POST /review

  const Complete := "COMPLETE"
  const Cancelled := "CANCELLED"

  /** The body of an examine request. */
  datatype ExamineBody = ExamineBody(assigneeId: Option<string>, action: string, requestClose: Option<bool>, resolution: Option<string>)

  /** The examine payload: completing asks to close the case as cancelled
      and names no assignee; any other action assigns `userId`. */
  function ExaminePayload(input: Examine): (b: ExamineBody)
    ensures b.action == input.action
    ensures input.action == Complete ==> b.assigneeId.None? && b.requestClose == Some(true) && b.resolution == Some(Cancelled)
    ensures input.action != Complete ==> b.assigneeId == input.userId && b.requestClose.None? && b.resolution.None?
  {
    if input.action == Complete then ExamineBody(None, input.action, Some(true), Some(Cancelled))
    else ExamineBody(input.userId, input.action, None, None)
  }

  /** The body of a review request. */
  datatype ReviewBody = ReviewBody(assigneeId: Option<string>, action: string, close: Option<bool>, resolution: Option<string>)

  /** The review payload: completing forwards the `closed` flag (which may
      be missing) with a cancelled resolution; any other action assigns
      `userId`. */
  function ReviewPayload(input: Review): (b: ReviewBody)
    ensures b.action == input.action
    ensures input.action == Complete ==> b.assigneeId.None? && b.close == input.closed && b.resolution == Some(Cancelled)
    ensures input.action != Complete ==> b.assigneeId == input.userId && b.close.None? && b.resolution.None?
  {
    if input.action == Complete then ReviewBody(None, input.action, input.closed, Some(Cancelled))
    else ReviewBody(input.userId, input.action, None, None)
  }

  /** The action is trimmed before the route compares it, so a padded
      `COMPLETE` still completes. */
  lemma PaddedCompleteCompletes(taskId: string, userId: Option<string>, workspaceId: string, projectId: string)
    ensures var r := ParseExamineTask(" COMPLETE ", taskId, userId, workspaceId, projectId);
      r.Valid? && ExaminePayload(r.value).requestClose == Some(true)
  {
    var s := " COMPLETE ";
    var t := s[1..];
    assert IsSpace(s[0]) && !IsSpace(t[0]);
    assert TrimStart(t) == t;
    assert TrimStart(s) == t;
    assert IsSpace(t[|t| - 1]) && t[..|t| - 1] == Complete;
    assert !IsSpace(Complete[|Complete| - 1]);
    assert TrimEnd(Complete) == Complete;
    assert Trim(s) == Complete;
    assert !Blank(s) by { assert !IsSpace(s[1]); }
  }
}

=== FILE: task_schemas.dfy ===
/** The zod schemas of `src/features/tasks/schemas.ts` as parsers. The
    enum fields arrive as optional strings (a missing field reports the
    schema's `required_error`), the coerced `createdAt` as the timestamp
    `new Date(...)` produced, None standing for an invalid date. */
module TaskSchemas {
  import opened Wrappers
  import opened Text
  import opened Domain
  import opened Validation

  /** `z.nativeEnum(CaseStatus, { required_error: "Required" })`. */
  function StatusIssues(raw: Option<string>): (r: seq<Issue>)
    ensures |r| == 0 <==> raw.Some? && raw.value in StatusNames
  {
    match raw
    case None => [Issue("status", Required)]
    case Some(s) => Check(StatusOf(s).Some?, "status", InvalidEnum)
  }

  /** `z.nativeEnum(CasePriority, { required_error: "Required" })`. */
  function PriorityIssues(raw: Option<string>): (r: seq<Issue>)
    ensures |r| == 0 <==> raw.Some? && raw.value in PriorityNames
  {
    match raw
    case None => [Issue("priority", Required)]
    case Some(s) => Check(PriorityOf(s).Some?, "priority", InvalidEnum)
  }

  /** `z.coerce.date()`: only an invalid date is refused. */
  function DateIssues(createdAt: Option<int>): (r: seq<Issue>)
    ensures |r| == 0 <==> createdAt.Some?
  {
    Check(createdAt.Some?, "createdAt", "Invalid date")
  }

  // ---------------------------------------------------------------------
  // editTaskSchema

  datatype EditTask = EditTask(
    name: string, status: CaseStatus, priority: CasePriority, workspaceId: string,
    projectId: string, createdAt: int, assigneeId: string, description: Option<string>)

  /** The fields of `editTaskSchema` that must hold text. */
  predicate EditTextFilled(name: string, workspaceId: string, projectId: string, assigneeId: string) {
    !Blank(name) && !Blank(workspaceId) && !Blank(projectId) && !Blank(assigneeId)
  }

  /** `editTaskSchema`: four trimmed non-blank strings, the two enums, a
      valid date and an optional, unchecked description. */
  function ParseEditTask(
    name: string, status: Option<string>, priority: Option<string>, workspaceId: string,
    projectId: string, createdAt: Option<int>, assigneeId: string, description: Option<string>): (r: Parsed<EditTask>)
    ensures r.Valid? <==>
      EditTextFilled(name, workspaceId, projectId, assigneeId) &&
      status.Some? && status.value in StatusNames && priority.Some? && priority.value in PriorityNames &&
      createdAt.Some?
    ensures r.Valid? ==>
      r.value.name == Trim(name) && r.value.workspaceId == Trim(workspaceId) &&
      r.value.projectId == Trim(projectId) && r.value.assigneeId == Trim(assigneeId)
    ensures r.Valid? ==>
      r.value.status.Name() == status.value && r.value.priority.Name() == priority.value &&
      r.value.createdAt == createdAt.value && r.value.description == description
  {
    var text := TrimmedRequired("name", name) + TrimmedRequired("workspaceId", workspaceId) +
      TrimmedRequired("projectId", projectId) + TrimmedRequired("assigneeId", assigneeId);
    var enums := StatusIssues(status) + PriorityIssues(priority);
    var issues := text + enums + DateIssues(createdAt);
    if |issues| > 0 then Invalid(issues)
    else
      Valid(EditTask(Trim(name), StatusOf(status.value).value, PriorityOf(priority.value).value,
        Trim(workspaceId), Trim(projectId), createdAt.value, Trim(assigneeId), description))
  }

  // ---------------------------------------------------------------------
  // createTaskSchema

  datatype CreateTask = CreateTask(
    name: string, priority: CasePriority, workspaceId: string, projectId: string,
    assigneeId: string, description: string)

  /** `createTaskSchema`: like the edit schema without status and date,
      and with a description that must not be blank. */
  function ParseCreateTask(
    name: string, priority: Option<string>, workspaceId: string, projectId: string,
    assigneeId: string, description: string): (r: Parsed<CreateTask>)
    ensures r.Valid? <==>
      EditTextFilled(name, workspaceId, projectId, assigneeId) && !Blank(description) &&
      priority.Some? && priority.value in PriorityNames
    ensures r.Valid? ==> r.value == CreateTask(Trim(name), r.value.priority, Trim(workspaceId),
      Trim(projectId), Trim(assigneeId), Trim(description))
    ensures r.Valid? ==> r.value.priority.Name() == priority.value
    ensures r.Invalid? ==> (Issue("description", Required) in r.issues <==> Blank(description))
  {
    var text := TrimmedRequired("name", name) + PriorityIssues(priority) + TrimmedRequired("workspaceId", workspaceId) +
      TrimmedRequired("projectId", projectId) + TrimmedRequired("assigneeId", assigneeId);
    var desc := TrimmedRequired("description", description);
    var issues := text + desc;
    assert Issue("description", Required) !in text;
    if |issues| > 0 then Invalid(issues)
    else
      Valid(CreateTask(Trim(name), PriorityOf(priority.value).value, Trim(workspaceId), Trim(projectId),
        Trim(assigneeId), Trim(description)))
  }

  /** Parsing a created task's own fields again gives it back. */
  lemma CreateTaskNormalised(
    name: string, priority: Option<string>, workspaceId: string, projectId: string,
    assigneeId: string, description: string)
    requires ParseCreateTask(name, priority, workspaceId, projectId, assigneeId, description).Valid?
    ensures var v := ParseCreateTask(name, priority, workspaceId, projectId, assigneeId, description).value;
      ParseCreateTask(v.name, Some(v.priority.Name()), v.workspaceId, v.projectId, v.assigneeId, v.description) == Valid(v)
  {
    var v := ParseCreateTask(name, priority, workspaceId, projectId, assigneeId, description).value;
    TrimIdempotent(name); TrimIdempotent(workspaceId); TrimIdempotent(projectId);
    TrimIdempotent(assigneeId); TrimIdempotent(description);
    TrimEmptyIffBlank(name); TrimEmptyIffBlank(v.name);
    TrimEmptyIffBlank(workspaceId); TrimEmptyIffBlank(v.workspaceId);
    TrimEmptyIffBlank(projectId); TrimEmptyIffBlank(v.projectId);
    TrimEmptyIffBlank(assigneeId); TrimEmptyIffBlank(v.assigneeId);
    TrimEmptyIffBlank(description); TrimEmptyIffBlank(v.description);
    PriorityOfName(v.priority);
  }

  /** The description the edit schema leaves optional is required on
      creation: blank text is refused there ... */
  lemma BlankDescriptionRefusedOnCreate(description: string)
    requires Blank(description)
    ensures ParseCreateTask("n", Some("LOW"), "w", "p", "a", description).Invalid?
  {
  }

  /** ... while an edit with the same text, or with none, is accepted. */
  lemma DescriptionOptionalOnEdit(description: Option<string>)
    ensures ParseEditTask("n", Some("CLOSED"), Some("LOW"), "w", "p", Some(0), "a", description).Valid?
  {
    assert !Blank("n") by { assert !IsSpace("n"[0]); }
    assert !Blank("w") by { assert !IsSpace("w"[0]); }
    assert !Blank("p") by { assert !IsSpace("p"[0]); }
    assert !Blank("a") by { assert !IsSpace("a"[0]); }
    assert EditTextFilled("n", "w", "p", "a");
    assert "CLOSED" in StatusNames by { assert StatusNames[1] == "CLOSED"; }
    assert "LOW" in PriorityNames by { assert PriorityNames[0] == "LOW"; }
  }

  // ---------------------------------------------------------------------
  // examineTaskSchema and reviewTaskSchema

  datatype Examine = Examine(action: string, taskId: string, userId: Option<string>, workspaceId: string, projectId: string)

  /** `examineTaskSchema`: the action is trimmed and must not be blank; the
      task id is only trimmed, so it may end up empty. */
  function ParseExamineTask(action: string, taskId: string, userId: Option<string>, workspaceId: string, projectId: string): (r: Parsed<Examine>)
    ensures r.Valid? <==> !Blank(action)
    ensures r.Valid? ==> r.value == Examine(Trim(action), Trim(taskId), userId, workspaceId, projectId)
    ensures r.Invalid? ==> r.issues == [Issue("action", Required)]
  {
    Conclude(TrimmedRequired("action", action), Examine(Trim(action), Trim(taskId), userId, workspaceId, projectId))
  }

  datatype Review = Review(action: string, taskId: string, userId: Option<string>, closed: Option<bool>, workspaceId: string, projectId: string)

  /** `reviewTaskSchema`: the examine schema plus an optional `closed` flag. */
  function ParseReviewTask(action: string, taskId: string, userId: Option<string>, closed: Option<bool>, workspaceId: string, projectId: string): (r: Parsed<Review>)
    ensures r.Valid? <==> !Blank(action)
    ensures r.Valid? ==> r.value == Review(Trim(action), Trim(taskId), userId, closed, workspaceId, projectId)
    ensures r.Invalid? ==> r.issues == [Issue("action", Required)]
  {
    Conclude(TrimmedRequired("action", action), Review(Trim(action), Trim(taskId), userId, closed, workspaceId, projectId))
  }

  /** A blank task id passes both workflow schemas and becomes empty. */
  lemma BlankTaskIdAccepted(taskId: string)
    requires Blank(taskId)
    ensures ParseExamineTask("ASSIGN", taskId, None, "w", "p") == Valid(Examine("ASSIGN", "", None, "w", "p"))
    ensures ParseReviewTask("ASSIGN", taskId, None, None, "w", "p") == Valid(Review("ASSIGN", "", None, None, "w", "p"))
  {
    TrimEmptyIffBlank(taskId);
    assert !IsSpace('A') && !IsSpace('N');
    assert TrimStart("ASSIGN") == "ASSIGN";
  }

  // ---------------------------------------------------------------------
  // taskCommentsSchema

  datatype CommentInput = CommentInput(comment: string, taskId: string, workspaceId: string, projectId: string)

  /** `taskCommentsSchema`: the comment must not be empty but is not
      trimmed, so white space alone passes. */
  function ParseTaskComments(comment: string, taskId: string, workspaceId: string, projectId: string): (r: Parsed<CommentInput>)
    ensures r.Valid? <==> comment != ""
    ensures r.Valid? ==> r.value == CommentInput(comment, Trim(taskId), workspaceId, projectId)
  {
    Conclude(MinLength("comment", comment, 1, Required), CommentInput(comment, Trim(taskId), workspaceId, projectId))
  }

  /** A comment of spaces is accepted as it is. */
  lemma BlankCommentAccepted(comment: string, taskId: string)
    requires comment != "" && Blank(comment)
    ensures ParseTaskComments(comment, taskId, "w", "p").Valid?
    ensures ParseTaskComments(comment, taskId, "w", "p").value.comment == comment
  {
  }

  // ---------------------------------------------------------------------
  // taskAttachmentsSchema, downloadAttachmentsSchema, downloadBpmnSchema

  /** A value of a submitted form: a file or plain text. */
  datatype FormValue = FileValue(fileName: string, contentType: string) | TextValue(text: string)

  datatype AttachmentInput = AttachmentInput(attachment: FormValue, taskId: string, workspaceId: string, projectId: string)

  /** `taskAttachmentsSchema`: the attachment must be a `File`. */
  function ParseTaskAttachments(attachment: FormValue, taskId: string, workspaceId: string, projectId: string): (r: Parsed<AttachmentInput>)
    ensures r.Valid? <==> attachment.FileValue?
    ensures r.Valid? ==> r.value == AttachmentInput(attachment, Trim(taskId), workspaceId, projectId)
    ensures r.Invalid? ==> r.issues == [Issue("attachment", "Input not instance of File")]
  {
    Conclude(Check(attachment.FileValue?, "attachment", "Input not instance of File"),
      AttachmentInput(attachment, Trim(taskId), workspaceId, projectId))
  }

  datatype Download = Download(attachmentId: string, taskId: string, mimeType: string, workspaceId: string, projectId: string)

  /** `downloadAttachmentsSchema`: nothing is refused; three fields are
      trimmed. */
  function ParseDownloadAttachments(attachmentId: string, taskId: string, mimeType: string, workspaceId: string, projectId: string): (r: Parsed<Download>)
    ensures r.Valid?
    ensures r.value.attachmentId == Trim(attachmentId) && r.value.taskId == Trim(taskId) && r.value.mimeType == Trim(mimeType)
    ensures r.value.workspaceId == workspaceId && r.value.projectId == projectId
  {
    Valid(Download(Trim(attachmentId), Trim(taskId), Trim(mimeType), workspaceId, projectId))
  }

  datatype BpmnDownload = BpmnDownload(projectId: Option<string>, workspaceId: string)

  /** `downloadBpmnSchema`: only the workspace is required, and it may be
      blank; a given project id is trimmed. */
  function ParseDownloadBpmn(projectId: Option<string>, workspaceId: string): (r: Parsed<BpmnDownload>)
    ensures r.Valid?
    ensures r.value.projectId.Some? <==> projectId.Some?
    ensures projectId.Some? ==> r.value.projectId.value == Trim(projectId.value)
    ensures r.value.workspaceId == Trim(workspaceId)
  {
    var p := match projectId case None => None case Some(id) => Some(Trim(id));
    Valid(BpmnDownload(p, Trim(workspaceId)))
  }

  /** What the dashboard's examine and review mutations post to the task
      routes (`useExamineTask`, `useReviewTask`). */
  datatype TaskMutation = ExamineMutation(examine: Examine) | ReviewMutation(review: Review)
}

=== FILE: text.dfy ===
/** The JavaScript string operations the source relies on: ASCII case
    mapping, the regular-expression classes `\w` and `\s`, `trim`, `split`
    on a one-character separator, `Number.prototype.toString` for integers
    and `parseInt(_, 10)`. */
module Text {
  import opened Wrappers

  predicate IsUpper(c: char) { 'A' <= c <= 'Z' }
  predicate IsLower(c: char) { 'a' <= c <= 'z' }
  predicate IsDigit(c: char) { '0' <= c <= '9' }
  predicate IsLetter(c: char) { IsUpper(c) || IsLower(c) }
  predicate IsAlnum(c: char) { IsLetter(c) || IsDigit(c) }

  /** The regular-expression class `\w` (no `u` flag): `[A-Za-z0-9_]`. */
  predicate IsWordChar(c: char) { IsAlnum(c) || c == '_' }

  /** ECMAScript WhiteSpace and LineTerminator code points: what `trim`
      strips and what `parseInt` skips. */
  predicate IsSpace(c: char) {
    || c == '\t' || c == '\n' || c == '\U{000B}' || c == '\U{000C}' || c == '\r'
    || c == ' ' || c == '\U{00A0}' || c == '\U{1680}'
    || ('\U{2000}' <= c <= '\U{200A}')
    || c == '\U{2028}' || c == '\U{2029}' || c == '\U{202F}' || c == '\U{205F}'
    || c == '\U{3000}' || c == '\U{FEFF}'
  }

  /** Line terminators: the characters the regular-expression `.` refuses. */
  predicate IsLineTerminator(c: char) {
    c == '\n' || c == '\r' || c == '\U{2028}' || c == '\U{2029}'
  }

  function LowerChar(c: char): (r: char)
    ensures IsLetter(c) <==> IsLetter(r)
    ensures !IsUpper(r)
    ensures IsDigit(c) <==> IsDigit(r)
    ensures c == '_' <==> r == '_'
  {
    if IsUpper(c) then (c as int + 32) as char else c
  }

  function UpperChar(c: char): (r: char)
    ensures IsLetter(c) <==> IsLetter(r)
    ensures !IsLower(r)
    ensures IsWordChar(c) <==> IsWordChar(r)
    ensures LowerChar(r) == LowerChar(c)
  {
    if IsLower(c) then (c as int - 32) as char else c
  }

  /** `String.prototype.toLowerCase`, on the ASCII letters. */
  function ToLower(s: string): (r: string)
    ensures |r| == |s|
    ensures forall i | 0 <= i < |s| :: r[i] == LowerChar(s[i])
  {
    seq(|s|, i requires 0 <= i < |s| => LowerChar(s[i]))
  }

  predicate Blank(s: string) {
    forall i | 0 <= i < |s| :: IsSpace(s[i])
  }

  /** Drops the leading white space: the result is the suffix of `s` that
      starts at its first non-space character. */
  function TrimStart(s: string): (r: string)
    ensures |r| <= |s| && r == s[|s| - |r|..]
    ensures Blank(s[..|s| - |r|])
    ensures |r| > 0 ==> !IsSpace(r[0])
    decreases |s|
  {
    if |s| > 0 && IsSpace(s[0]) then TrimStart(s[1..]) else s
  }

  /** Drops the trailing white space: the result is the prefix of `s` that
      ends at its last non-space character. */
  function TrimEnd(s: string): (r: string)
    ensures |r| <= |s| && r == s[..|r|]
    ensures Blank(s[|r|..])
    ensures |r| > 0 ==> !IsSpace(r[|r| - 1])
    decreases |s|
  {
    if |s| > 0 && IsSpace(s[|s| - 1]) then TrimEnd(s[..|s| - 1]) else s
  }

  /** `String.prototype.trim`. */
  function Trim(s: string): string {
    TrimEnd(TrimStart(s))
  }

  /** A string is empty after `trim` exactly when it is all white space. */
  lemma TrimEmptyIffBlank(s: string)
    ensures Trim(s) == "" <==> Blank(s)
  {
  }

  /** Trimming a trimmed string changes nothing. */
  lemma TrimIdempotent(s: string)
    ensures Trim(Trim(s)) == Trim(s)
  {
    var t := Trim(s);
    var u := TrimStart(s);
    if |t| > 0 {
      assert t[0] == u[0];
    }
  }

  /** Concatenates `parts` with `sep` between neighbours (`Array.prototype.join`). */
  function Join(parts: seq<string>, sep: char): string
  {
    if |parts| == 0 then ""
    else if |parts| == 1 then parts[0]
    else parts[0] + [sep] + Join(parts[1..], sep)
  }

  /** `String.prototype.split` with a one-character separator: the
      pieces between separators, from left to right. */
  function Split(s: string, sep: char): (parts: seq<string>)
    ensures |parts| >= 1
    ensures forall i | 0 <= i < |parts| :: sep !in parts[i]
    decreases |s|
  {
    if |s| == 0 then [""]
    else
      var rest := Split(s[1..], sep);
      if s[0] == sep then [""] + rest
      else [[s[0]] + rest[0]] + rest[1..]
  }

  /** The first part is the longest prefix free of the separator: it is
      followed by the separator or ends the string. */
  lemma {:induction false} SplitHead(s: string, sep: char)
    ensures Split(s, sep)[0] <= s
    ensures |Split(s, sep)[0]| < |s| ==> s[|Split(s, sep)[0]|] == sep
    decreases |s|
  {
    if |s| > 0 && s[0] != sep {
      SplitHead(s[1..], sep);
      assert s == [s[0]] + s[1..];
    }
  }

  /** Joining the parts of a split gives back the string. */
  lemma {:induction false} JoinSplit(s: string, sep: char)
    ensures Join(Split(s, sep), sep) == s
    decreases |s|
  {
    if |s| > 0 {
      var rest := Split(s[1..], sep);
      JoinSplit(s[1..], sep);
      assert s == [s[0]] + s[1..];
      if s[0] == sep {
        assert ([""] + rest)[1..] == rest;
      } else {
        var parts := [[s[0]] + rest[0]] + rest[1..];
        assert parts[1..] == rest[1..];
        if |rest| > 1 {
          assert Join(rest, sep) == rest[0] + [sep] + Join(rest[1..], sep);
        }
      }
    }
  }

  /** Splitting a string that does not hold the separator yields it alone. */
  lemma {:induction false} SplitAtom(a: string, sep: char)
    requires sep !in a
    ensures Split(a, sep) == [a]
    decreases |a|
  {
    if |a| > 0 {
      assert sep !in a[1..];
      SplitAtom(a[1..], sep);
      assert a == [a[0]] + a[1..];
    }
  }

  /** Splitting a string with a known first character. */
  lemma SplitCons(c: char, t: string, sep: char)
    ensures Split([c] + t, sep) ==
      if c == sep then [""] + Split(t, sep) else [[c] + Split(t, sep)[0]] + Split(t, sep)[1..]
  {
    assert ([c] + t)[0] == c && ([c] + t)[1..] == t;
  }

  /** The step of `Split` on a first character commutes with appending
      the parts of a later string. */
  lemma ConsSplitAppend(c: char, r: seq<string>, q: seq<string>, sep: char)
    requires |r| >= 1
    ensures (if c == sep then [""] + (r + q) else [[c] + (r + q)[0]] + (r + q)[1..]) ==
      (if c == sep then [""] + r else [[c] + r[0]] + r[1..]) + q
  {
    if c != sep {
      assert (r + q)[0] == r[0];
      assert (r + q)[1..] == r[1..] + q;
    }
  }

  /** Splitting distributes over a separator placed between two strings. */
  lemma {:induction false} SplitAround(a: string, b: string, sep: char)
    ensures Split(a + [sep] + b, sep) == Split(a, sep) + Split(b, sep)
    decreases |a|
  {
    if |a| == 0 {
      assert a + [sep] + b == [sep] + b;
      SplitCons(sep, b, sep);
    } else {
      var t := a[1..] + [sep] + b;
      assert a + [sep] + b == [a[0]] + t;
      assert a == [a[0]] + a[1..];
      SplitCons(a[0], t, sep);
      SplitCons(a[0], a[1..], sep);
      SplitAround(a[1..], b, sep);
      ConsSplitAppend(a[0], Split(a[1..], sep), Split(b, sep), sep);
    }
  }

  /** Splitting undoes joining, as long as no part holds the separator. */
  lemma {:induction false} SplitJoin(parts: seq<string>, sep: char)
    requires |parts| >= 1
    requires forall i | 0 <= i < |parts| :: sep !in parts[i]
    ensures Split(Join(parts, sep), sep) == parts
    decreases |parts|
  {
    SplitAtom(parts[0], sep);
    if |parts| > 1 {
      SplitAround(parts[0], Join(parts[1..], sep), sep);
      SplitJoin(parts[1..], sep);
      assert parts == [parts[0]] + parts[1..];
    }
  }

  // ---------------------------------------------------------------------
  // Integers as decimal strings

  function DigitChar(d: int): (c: char)
    requires 0 <= d < 10
    ensures IsDigit(c)
  {
    ('0' as int + d) as char
  }

  function DigitValue(c: char): (d: int)
    requires IsDigit(c)
    ensures 0 <= d < 10
  {
    c as int - '0' as int
  }

  predicate AllDigits(s: string) {
    forall i | 0 <= i < |s| :: IsDigit(s[i])
  }

  /** The value of a string of decimal digits. */
  function DigitsValue(s: string): nat
    requires AllDigits(s)
  {
    if |s| == 0 then 0 else DigitsValue(s[..|s| - 1]) * 10 + DigitValue(s[|s| - 1])
  }

  /** Decimal rendering of a natural number, most significant digit first. */
  function NatToString(n: nat): (r: string)
    ensures |r| >= 1 && AllDigits(r)
  {
    if n < 10 then [DigitChar(n)] else NatToString(n / 10) + [DigitChar(n % 10)]
  }

  /** `Number.prototype.toString()` on an integer. */
  function IntToString(i: int): (r: string)
    ensures |r| >= 1
  {
    if i < 0 then "-" + NatToString(-i) else NatToString(i)
  }

  /** `Number.prototype.toString(16)` on a value below 16: one lowercase
      hexadecimal digit. */
  function HexDigit(d: int): (c: char)
    requires 0 <= d < 16
    ensures IsHexDigit(c)
  {
    if d < 10 then DigitChar(d) else ('a' as int + d - 10) as char
  }

  predicate IsHexDigit(c: char) { IsDigit(c) || 'a' <= c <= 'f' }

  /** The value of a lowercase hexadecimal digit. */
  function HexValue(c: char): (d: int)
    requires IsHexDigit(c)
    ensures 0 <= d < 16
  {
    if IsDigit(c) then DigitValue(c) else c as int - 'a' as int + 10
  }

  /** Reading a hexadecimal digit back gives its value. */
  lemma HexRoundTrip(d: int)
    requires 0 <= d < 16
    ensures HexValue(HexDigit(d)) == d
  {
  }

  /** The longest prefix of `s` made of decimal digits. */
  function DigitPrefix(s: string): (r: string)
    ensures |r| <= |s| && r == s[..|r|]
    ensures AllDigits(r)
    ensures |r| < |s| ==> !IsDigit(s[|r|])
  {
    if |s| > 0 && IsDigit(s[0]) then [s[0]] + DigitPrefix(s[1..]) else ""
  }

  /** `parseInt(s, 10)`: skips leading white space, reads an optional sign
      and the longest run of digits after it; None stands for `NaN`. */
  function ParseInt(s: string): Option<int> {
    var t := TrimStart(s);
    var negative := |t| > 0 && t[0] == '-';
    var body := if |t| > 0 && (t[0] == '-' || t[0] == '+') then t[1..] else t;
    var digits := DigitPrefix(body);
    if |digits| == 0 then None
    else
      var v: int := DigitsValue(digits);
      if negative then Some(-v) else Some(v)
  }

  lemma {:induction false} NatToStringValue(n: nat)
    ensures DigitsValue(NatToString(n)) == n
  {
    if n >= 10 {
      var s := NatToString(n);
      assert s[..|s| - 1] == NatToString(n / 10);
      NatToStringValue(n / 10);
    }
  }

  lemma {:induction false} DigitPrefixOfDigits(s: string)
    requires AllDigits(s)
    ensures DigitPrefix(s) == s
  {
    if |s| > 0 {
      DigitPrefixOfDigits(s[1..]);
    }
  }

  /** A run of digits reads back as its value. */
  lemma ParseDigits(d: string)
    requires |d| >= 1 && AllDigits(d)
    ensures ParseInt(d) == Some(DigitsValue(d))
  {
    assert !IsSpace(d[0]);
    assert TrimStart(d) == d;
    DigitPrefixOfDigits(d);
  }

  /** A minus sign followed by a run of digits of value `n` reads back as
      `-n`. */
  lemma ParseNegatedDigits(s: string, n: nat)
    requires |s| >= 2 && s[0] == '-' && AllDigits(s[1..]) && DigitsValue(s[1..]) == n
    ensures ParseInt(s) == Some(0 - n)
  {
    assert !IsSpace(s[0]);
    assert TrimStart(s) == s;
    DigitPrefixOfDigits(s[1..]);
  }

  /** A rendered natural number reads back as itself. */
  lemma ParseNatToString(n: nat)
    ensures ParseInt(NatToString(n)) == Some(n)
  {
    ParseDigits(NatToString(n));
    NatToStringValue(n);
  }

  /** A rendered negative number reads back as itself. */
  lemma ParseNegativeToString(n: nat)
    ensures ParseInt("-" + NatToString(n)) == Some(0 - n)
  {
    var s := "-" + NatToString(n);
    assert s[1..] == NatToString(n);
    NatToStringValue(n);
    ParseNegatedDigits(s, n);
  }

  /** Reading back a rendered integer gives the integer. */
  lemma ParseIntToString(i: int)
    ensures ParseInt(IntToString(i)) == Some(i)
  {
    if i < 0 {
      ParseNegativeToString(-i);
    } else {
      ParseNatToString(i);
    }
  }
}

=== FILE: utils.dfy ===
/** The helpers of `src/lib/utils.ts`: invite codes, title-casing of
    snake-case names, and image type sniffing from the first bytes. */
module Utils {
  import opened Wrappers
  import opened Text

  // ---------------------------------------------------------------------
  // generateInviteCode

  /** The 62 characters an invite code draws from: `A`-`Z`, `a`-`z`,
      then `0`-`9`. */
  const Alphabet: string :=
    seq(26, i requires 0 <= i < 26 => ('A' as int + i) as char) +
    seq(26, i requires 0 <= i < 26 => ('a' as int + i) as char) +
    seq(10, i requires 0 <= i < 10 => ('0' as int + i) as char)

  lemma AlphabetIsAlnum()
    ensures |Alphabet| == 62
    ensures forall i | 0 <= i < |Alphabet| :: IsAlnum(Alphabet[i])
  {
  }

  /** `generateInviteCode(length)`: one character per loop turn, the
      character at `Math.floor(x * 62)` for the turn's `Math.random()`
      draw `x`. A length of zero or less gives the empty code. */
  method GenerateInviteCode(length: int, draws: seq<real>) returns (code: string)
    requires length <= |draws|
    requires forall i | 0 <= i < |draws| :: 0.0 <= draws[i] < 1.0
    ensures |code| == if length > 0 then length else 0
    ensures forall i | 0 <= i < |code| :: IsAlnum(code[i])
    ensures forall i | 0 <= i < |code| :: code[i] == Alphabet[(draws[i] * 62.0).Floor]
  {
    AlphabetIsAlnum();
    code := "";
    var i := 0;
    while i < length
      invariant 0 <= i <= |draws| && (i == 0 || i <= length)
      invariant |code| == i
      invariant forall j | 0 <= j < i :: code[j] == Alphabet[(draws[j] * 62.0).Floor]
    {
      var k := (draws[i] * |Alphabet| as real).Floor;
      code := code + [Alphabet[k]];
      i := i + 1;
    }
  }

  // ---------------------------------------------------------------------
  // snakeCaseToTitleCase

  /** The string after `.toLowerCase().replace(/_/g, " ")`. */
  function Spaced(s: string): (r: string)
    ensures |r| == |s|
    ensures forall i | 0 <= i < |s| :: r[i] == if s[i] == '_' then ' ' else LowerChar(s[i])
  {
    seq(|s|, i requires 0 <= i < |s| => if s[i] == '_' then ' ' else LowerChar(s[i]))
  }

  /** Whether `\b\w` matches at position `i` of `t`: a word character with
      no word character just before it. */
  predicate StartsWord(t: string, i: nat)
    requires i < |t|
  {
    IsWordChar(t[i]) && (i == 0 || !IsWordChar(t[i - 1]))
  }

  /** The character `snakeCaseToTitleCase` puts at position `i` of the
      spaced string `t`. */
  function TitleChar(t: string, i: nat): char
    requires i < |t|
  {
    if StartsWord(t, i) then UpperChar(t[i]) else t[i]
  }

  /** What title-casing does to the character at position `i` of `s`. */
  predicate TitleCased(s: string, i: nat, c: char)
    requires i < |s|
  {
    c != '_' &&
    (s[i] == '_' ==> c == ' ') &&
    (IsLetter(s[i]) ==> IsLetter(c) && LowerChar(c) == LowerChar(s[i]) && (IsUpper(c) <==> i == 0 || !IsAlnum(s[i - 1]))) &&
    (!IsLetter(s[i]) && s[i] != '_' ==> c == s[i])
  }

  lemma TitleCharOf(s: string, i: nat)
    requires i < |s|
    ensures TitleCased(s, i, TitleChar(Spaced(s), i))
  {
    var t := Spaced(s);
    assert i > 0 ==> (IsWordChar(t[i - 1]) <==> IsAlnum(s[i - 1]));
  }

  lemma TitleCharsOf(s: string)
    ensures forall i | 0 <= i < |s| :: TitleCased(s, i, TitleChar(Spaced(s), i))
  {
    forall i | 0 <= i < |s|
      ensures TitleCased(s, i, TitleChar(Spaced(s), i))
    {
      TitleCharOf(s, i);
    }
  }

  /** `snakeCaseToTitleCase`: lower-case everything, turn underscores
      into spaces, and capitalise the first character of every word. */
  function SnakeCaseToTitleCase(s: string): (r: string)
    ensures |r| == |s|
    ensures forall i | 0 <= i < |r| :: r[i] != '_'
    ensures forall i | 0 <= i < |s| :: s[i] == '_' ==> r[i] == ' '
    ensures forall i | 0 <= i < |s| :: IsLetter(s[i]) ==>
      IsLetter(r[i]) && LowerChar(r[i]) == LowerChar(s[i]) &&
      (IsUpper(r[i]) <==> i == 0 || !IsAlnum(s[i - 1]))
    ensures forall i | 0 <= i < |s| :: !IsLetter(s[i]) && s[i] != '_' ==> r[i] == s[i]
  {
    var t := Spaced(s);
    TitleCharsOf(s);
    var r := seq(|t|, i requires 0 <= i < |t| => TitleChar(t, i));
    assert forall i | 0 <= i < |s| :: TitleCased(s, i, r[i]);
    r
  }

  /** Title-casing a title-cased string changes nothing. */
  lemma TitleCaseIdempotent(s: string)
    ensures SnakeCaseToTitleCase(SnakeCaseToTitleCase(s)) == SnakeCaseToTitleCase(s)
  {
    var r := SnakeCaseToTitleCase(s);
    var rr := SnakeCaseToTitleCase(r);
    forall i | 0 <= i < |s|
      ensures rr[i] == r[i]
    {
      assert i > 0 ==> (IsAlnum(r[i - 1]) <==> IsAlnum(s[i - 1]));
    }
  }

  // ---------------------------------------------------------------------
  // detectImageMimeType

  newtype Byte = x: int | 0 <= x < 256

  /** `uint[i] === v`: false past the end of the buffer, where the read
      gives `undefined`. */
  predicate HasByte(b: seq<Byte>, i: nat, v: int) {
    i < |b| && b[i] as int == v
  }

  /** The four-byte prefix the code checks for PNG. */
  predicate PngPrefix(b: seq<Byte>) {
    HasByte(b, 0, 0x89) && HasByte(b, 1, 0x50) && HasByte(b, 2, 0x4E) && HasByte(b, 3, 0x47)
  }

  /** The JPEG start-of-image marker followed by the first marker byte. */
  predicate JpegPrefix(b: seq<Byte>) {
    HasByte(b, 0, 0xFF) && HasByte(b, 1, 0xD8) && HasByte(b, 2, 0xFF)
  }

  /** `GIF87a` or `GIF89a`. */
  predicate GifPrefix(b: seq<Byte>) {
    HasByte(b, 0, 0x47) && HasByte(b, 1, 0x49) && HasByte(b, 2, 0x46) && HasByte(b, 3, 0x38) &&
    (HasByte(b, 4, 0x37) || HasByte(b, 4, 0x39)) && HasByte(b, 5, 0x61)
  }

  /** `RIFF`, any four size bytes, `WEBP`. */
  predicate WebpPrefix(b: seq<Byte>) {
    HasByte(b, 0, 0x52) && HasByte(b, 1, 0x49) && HasByte(b, 2, 0x46) && HasByte(b, 3, 0x46) &&
    HasByte(b, 8, 0x57) && HasByte(b, 9, 0x45) && HasByte(b, 10, 0x42) && HasByte(b, 11, 0x50)
  }

  /** `<?xm`, the start of an XML declaration. */
  predicate SvgPrefix(b: seq<Byte>) {
    HasByte(b, 0, 0x3C) && HasByte(b, 1, 0x3F) && HasByte(b, 2, 0x78) && HasByte(b, 3, 0x6D)
  }

  /** `detectImageMimeType`: the checks in the order the code makes them;
      None stands for `null`. */
  function DetectImageMimeType(b: seq<Byte>): (r: Option<string>)
    ensures r == Some("image/png") <==> PngPrefix(b)
    ensures r == Some("image/jpeg") <==> JpegPrefix(b)
    ensures r == Some("image/gif") <==> GifPrefix(b)
    ensures r == Some("image/webp") <==> WebpPrefix(b)
    ensures r == Some("image/svg+xml") <==> SvgPrefix(b)
    ensures r.None? <==> !PngPrefix(b) && !JpegPrefix(b) && !GifPrefix(b) && !WebpPrefix(b) && !SvgPrefix(b)
    ensures |b| < 3 ==> r.None?
  {
    if PngPrefix(b) then Some("image/png")
    else if JpegPrefix(b) then Some("image/jpeg")
    else if GifPrefix(b) then Some("image/gif")
    else if WebpPrefix(b) then Some("image/webp")
    else if SvgPrefix(b) then Some("image/svg+xml")
    else None
  }

  /** The five signatures start with five different bytes, so no buffer
      matches two of them and the order of the checks does not matter. */
  lemma SignaturesExclusive(b: seq<Byte>)
    ensures PngPrefix(b) ==> !JpegPrefix(b) && !GifPrefix(b) && !WebpPrefix(b) && !SvgPrefix(b)
    ensures JpegPrefix(b) ==> !GifPrefix(b) && !WebpPrefix(b) && !SvgPrefix(b)
    ensures GifPrefix(b) ==> !WebpPrefix(b) && !SvgPrefix(b)
    ensures WebpPrefix(b) ==> !SvgPrefix(b)
  {
  }

  /** The eight-byte signature section 5.2 of the PNG specification
      prescribes. */
  const PngSignature: seq<Byte> := [0x89, 0x50, 0x4E, 0x47, 0x0D, 0x0A, 0x1A, 0x0A]

  /** The header block of section 17 of the GIF89a specification: the
      signature `GIF` and the version `87a` or `89a`. */
  predicate GifHeader(b: seq<Byte>) {
    |b| >= 6 && b[..3] == [0x47, 0x49, 0x46] && (b[3..6] == [0x38, 0x37, 0x61] || b[3..6] == [0x38, 0x39, 0x61])
  }

  /** Every file that opens with the PNG signature is reported as PNG,
      and every file with a GIF header as GIF. */
  lemma StandardHeadersRecognised(b: seq<Byte>)
    ensures PngSignature <= b ==> DetectImageMimeType(b) == Some("image/png")
    ensures GifHeader(b) ==> DetectImageMimeType(b) == Some("image/gif")
  {
    if PngSignature <= b {
      assert b[..8] == PngSignature;
      assert b[0] == PngSignature[0] && b[1] == PngSignature[1] && b[2] == PngSignature[2] && b[3] == PngSignature[3];
    }
    if GifHeader(b) {
      assert b[0] == b[..3][0] && b[1] == b[..3][1] && b[2] == b[..3][2];
      assert b[3] == b[3..6][0] && b[4] == b[3..6][1] && b[5] == b[3..6][2];
    }
  }
}

=== FILE: validation.dfy ===
/** What a zod schema reports: the parsed (possibly transformed) value,
    or the list of issues, each with the field it is about and its
    message, in the order the fields and their checks are declared. */
module Validation {
  import opened Text

  datatype Issue = Issue(path: string, message: string)

  datatype Parsed<+T> = Valid(value: T) | Invalid(issues: seq<Issue>)

  /** The message `min(1, "Required")` and `required_error` report. */
  const Required := "Required"

  /** The message zod reports for a value outside a native enum. */
  const InvalidEnum := "Invalid enum value"

  /** One check of a field: no issue when it passes. */
  function Check(ok: bool, path: string, message: string): seq<Issue> {
    if ok then [] else [Issue(path, message)]
  }

  /** The outcome once every field has been checked: valid exactly when
      no check reported anything. */
  function Conclude<T>(issues: seq<Issue>, value: T): (r: Parsed<T>)
    ensures r.Valid? <==> |issues| == 0
    ensures r.Valid? ==> r.value == value
    ensures r.Invalid? ==> r.issues == issues
  {
    if |issues| == 0 then Valid(value) else Invalid(issues)
  }

  /** `z.string().trim().min(1, "Required")`: the trimmed value must not
      be empty, so a string of white space fails. */
  function TrimmedRequired(path: string, s: string): (r: seq<Issue>)
    ensures |r| == 0 <==> !Blank(s)
    ensures forall i | 0 <= i < |r| :: r[i] == Issue(path, Required)
    ensures forall x :: x in r <==> Blank(s) && x == Issue(path, Required)
  {
    TrimEmptyIffBlank(s);
    Check(Trim(s) != "", path, Required)
  }

  /** `z.string().min(n, message)` without trimming. */
  function MinLength(path: string, s: string, n: nat, message: string): (r: seq<Issue>)
    ensures |r| == 0 <==> |s| >= n
    ensures forall i | 0 <= i < |r| :: r[i] == Issue(path, message)
    ensures forall x :: x in r <==> |s| < n && x == Issue(path, message)
  {
    Check(|s| >= n, path, message)
  }
}

=== FILE: workspace_resource.dfy ===
/** `WorkspaceResource`: workspaces live directly below the endpoint; no
    method passes an override base. */
module WorkspaceResource {
  import opened Wrappers
  import opened ApiClient
  import opened BaseResource

  datatype WorkspaceMethod =
    | GetWorkspaces
    | GetWorkspace(id: string)
    | GetWorkspaceIcon(id: string)
    | CreateWorkspace
    | UpdateWorkspace(id: string)
    | DeleteWorkspace(id: string)

  /** The `BaseResource` operation each method delegates to. */
  function OperationOf(m: WorkspaceMethod): (op: Operation)
    ensures !op.UsesEndpoint() && op.url.None?
  {
    match m
    case GetWorkspaces => GetAll(None)
    case GetWorkspace(id) => GetById(id, None)
    case GetWorkspaceIcon(id) => GetIcon(id, None)
    case CreateWorkspace => Create(None)
    case UpdateWorkspace(id) => UpdateById(id, None)
    case DeleteWorkspace(id) => DeleteById(id, None)
  }

  /** The listing and the creation go to the endpoint itself, the by-id
      methods to `endpoint/{id}`, the icon to `endpoint/{id}/icon`. */
  lemma WorkspaceUrls(res: Resource, m: WorkspaceMethod)
    ensures (m.GetWorkspaces? || m.CreateWorkspace?) ==> Plan(res, OperationOf(m)).url == res.endpoint
    ensures (m.GetWorkspace? || m.UpdateWorkspace? || m.DeleteWorkspace?) ==>
      Plan(res, OperationOf(m)).url == res.endpoint + "/" + m.id
    ensures m.GetWorkspaceIcon? ==> Plan(res, OperationOf(m)).url == res.endpoint + "/" + m.id + ("/" + "icon")
    ensures m.GetWorkspaceIcon? ==> Plan(res, OperationOf(m)).verb == GetBinary
  {
    PlanMatchesSegments(res, OperationOf(m));
    if !m.GetWorkspaces? && !m.CreateWorkspace? {
      PathTemplates(res.endpoint, m.id, "icon");
    }
  }
}

=== FILE: workspace_routes.dfy ===
/** The data shaping of the workspace routes
    (`src/features/workspaces/server/route.ts`): the analytics counters,
    the invitation of a user by e-mail, and the member list of a new
    workspace. */
module WorkspaceRoutes {
  import opened Wrappers
  import opened Text
  import opened Seqs
  import opened ApiClient
  import opened BaseResource
  import opened Domain
  import opened CaseResource
  import opened Wrapper
  import opened Routes
  import opened Analytics

  // ---------------------------------------------------------------------
  // GET /:workspaceId/analytics

  /** The cases the workspace analytics count: those of the workspace. */
  function InWorkspace(workspaceId: string): Case -> bool {
    (c: Case) => c.workspaceId == workspaceId
  }

  /** The one case listing the analytics fetch: the workspace's first
      project only. */
  function AnalyticsRequest(workspaceId: string, projects: seq<Project>): (m: CaseMethod)
    requires |projects| > 0
    ensures m == GetCases(workspaceId, projects[0].id)
  {
    GetCases(workspaceId, projects[0].id)
  }

  /** The analytics fetch `endpoint/{workspace}/projects/{first project}/cases`
      with a GET, whatever the other projects are. */
  lemma AnalyticsUrl(res: Resource, workspaceId: string, projects: seq<Project>)
    requires |projects| > 0
    ensures var call := Plan(res, CaseResource.OperationOf(res, AnalyticsRequest(workspaceId, projects)));
      call.url == Path(res.endpoint, [workspaceId, "projects", projects[0].id, "cases"]) && call.verb == ApiClient.Get
  {
    var m := AnalyticsRequest(workspaceId, projects);
    CaseUrl(res, m);
    PlanMatchesSegments(res, CaseResource.OperationOf(res, m));
    assert [workspaceId, "projects", projects[0].id, "cases"] + [] == [workspaceId, "projects", projects[0].id, "cases"];
  }

  /** `GET /:workspaceId/analytics`, given the project list, the case
      listing of the first project, and the profile of the current user
      the route consults. Without projects every counter is zero; the
      cases counted are those of the workspace. */
  function WorkspaceAnalytics(
    workspaceId: string, projects: Envelope<seq<Project>>, cases: Envelope<seq<Case>>,
    currentUser: Option<Profile>, inThis: string -> bool, inLast: string -> bool): (r: Response<Counters>)
    ensures Truthy(projects.error) ==> r == Thrown("Something happened getting Projects")
    ensures !Truthy(projects.error) && (!projects.data.Value? || projects.data.value == []) ==> r == Ok(Zero)
    ensures !Truthy(projects.error) && projects.data.Value? && projects.data.value != [] ==>
      r == (match Demand(cases, "Something happened getting cases", "No cases found")
            case Thrown(e) => Thrown(e)
            case Ok(cs) => Ok(Tally(cs, inThis, inLast, InWorkspace(workspaceId), UserIdOf(currentUser))))
  {
    if Truthy(projects.error) then Thrown("Something happened getting Projects")
    else if !projects.data.Value? || |projects.data.value| == 0 then Ok(Zero)
    else
      match Demand(cases, "Something happened getting cases", "No cases found")
      case Thrown(e) => Thrown(e)
      case Ok(cs) => Ok(Tally(cs, inThis, inLast, InWorkspace(workspaceId), UserIdOf(currentUser)))
  }

  /** The analytics as written: the current user is asked of the cases
      resource (`cases.getUserInfo()`). */
  function AnalyticsAsWritten(
    a: App, workspaceId: string, projects: Envelope<seq<Project>>, cases: Envelope<seq<Case>>,
    inThis: string -> bool, inLast: string -> bool): Response<Counters>
  {
    WorkspaceAnalytics(workspaceId, projects, cases, UserInfo(a.w.cases), inThis, inLast)
  }

  /** Since only the auth resource ever caches a profile, the analytics as
      written always count, as "assigned", the cases with no assignee. */
  lemma AssignedCountsUnassigned(
    a: App, workspaceId: string, projects: Envelope<seq<Project>>, cases: Envelope<seq<Case>>,
    inThis: string -> bool, inLast: string -> bool)
    requires OnlyAuthKnowsUser(a.w)
    ensures var r := AnalyticsAsWritten(a, workspaceId, projects, cases, inThis, inLast);
      r.Ok? && r.data != Zero ==>
        r.data.assignedTaskCount == Count(cases.data.value, And(InWindow(inThis, InWorkspace(workspaceId)), AssignedTo(None)))
  {
    assert Wrapper.Get(a.w, Cases).client.userInfo.None?;
  }

  /** The analytics as evidently intended: the current user is the one
      the auth resource cached at login. */
  function AnalyticsCorrected(
    a: App, workspaceId: string, projects: Envelope<seq<Project>>, cases: Envelope<seq<Case>>,
    inThis: string -> bool, inLast: string -> bool): Response<Counters>
  {
    WorkspaceAnalytics(workspaceId, projects, cases, UserInfo(a.w.auth), inThis, inLast)
  }

  /** With the corrected lookup, the assigned count is the number of this
      month's cases assigned to the logged-in user. */
  lemma CorrectedCountsTheUsersCases(
    a: App, workspaceId: string, projects: seq<Project>, cases: seq<Case>,
    inThis: string -> bool, inLast: string -> bool, u: Profile)
    requires projects != [] && a.w.auth.client.userInfo == Some(u)
    ensures var r := AnalyticsCorrected(a, workspaceId, Envelope(Value(projects), None), Envelope(Value(cases), None), inThis, inLast);
      r.Ok? && r.data.assignedTaskCount == Count(cases, And(InWindow(inThis, InWorkspace(workspaceId)), AssignedTo(Some(u.id))))
  {
  }

  /** The input that shows the difference: one case of this month,
      assigned to the logged-in user. As written it is not counted as
      assigned; corrected, it is. */
  lemma AnalyticsFindingWitness(a: App, u: Profile, p: Project, c: Case, inLast: string -> bool)
    requires OnlyAuthKnowsUser(a.w) && a.w.auth.client.userInfo == Some(u)
    requires c.assigneeId == Some(u.id) && c.workspaceId == "w"
    ensures var env := (Envelope(Value([p]), None), Envelope(Value([c]), None));
      AnalyticsAsWritten(a, "w", env.0, env.1, _ => true, inLast) ==
        Ok(Tally([c], _ => true, inLast, InWorkspace("w"), None)) &&
      Tally([c], _ => true, inLast, InWorkspace("w"), None).assignedTaskCount == 0 &&
      AnalyticsCorrected(a, "w", env.0, env.1, _ => true, inLast).data.assignedTaskCount == 1
  {
    assert Wrapper.Get(a.w, Cases).client.userInfo.None?;
  }

  // ---------------------------------------------------------------------
  // POST /:workspaceId/invite-user

  /** The fixed password every invitation is created with. */
  const InvitePassword := "12345678"

  /** The account the invitation creates. */
  datatype Invitation = Invitation(
    email: string, username: string, password: string, firstName: string,
    lastName: string, sendPasswordResetMail: bool, loginUrl: string)

  /** `email.split("@")[0]`: the text before the first `@` (all of it
      when there is none). */
  function InviteUsername(email: string): (r: string)
    ensures r <= email && '@' !in r
    ensures |r| < |email| ==> email[|r|] == '@'
  {
    SplitHead(email, '@');
    Split(email, '@')[0]
  }

  const LoginUrlHead := "http://localhost:3000/reset-password?username="

  /** The reset-password link sent with the invitation. */
  function LoginUrl(username: string): string {
    LoginUrlHead + username + "&password=" + InvitePassword
  }

  /** The invitation for `email`: the user name is the e-mail's local
      part, used again in the link. */
  function Invite(email: string): (r: Invitation)
    ensures r.email == email && r.username == InviteUsername(email)
    ensures r.password == InvitePassword && r.firstName == "" && r.lastName == "" && r.sendPasswordResetMail
    ensures |r.loginUrl| >= |LoginUrlHead| + |r.username|
    ensures r.loginUrl[..|LoginUrlHead|] == LoginUrlHead
    ensures r.loginUrl[|LoginUrlHead|..|LoginUrlHead| + |r.username|] == r.username
  {
    var name := InviteUsername(email);
    Invitation(email, name, InvitePassword, "", "", true, LoginUrl(name))
  }

  /** An address with a local part free of `@` yields that local part. */
  lemma InviteUsesLocalPart(local: string, domain: string)
    requires '@' !in local
    ensures InviteUsername(local + "@" + domain) == local
  {
    SplitAround(local, domain, '@');
    SplitAtom(local, '@');
  }

  /** The answer: `"success"` unless the member creation reports an error. */
  function InviteResponse<T>(created: Envelope<T>): (r: Response<string>)
    ensures r.Ok? <==> !Truthy(created.error)
    ensures r.Ok? ==> r.data == "success"
    ensures r.Thrown? ==> r.message == "Error inviting user"
  {
    if Truthy(created.error) then Thrown("Error inviting user") else Ok("success")
  }

  // ---------------------------------------------------------------------
  // POST /: a new workspace's members

  /** `user?.id ? [user?.id] : []`. */
  function CreatorMembers(user: Option<Profile>): (r: seq<string>)
    ensures user.Some? && user.value.id != "" ==> r == [user.value.id]
    ensures !(user.Some? && user.value.id != "") ==> r == []
  {
    if user.Some? && user.value.id != "" then [user.value.id] else []
  }

  /** The body the route sends to create a workspace. */
  datatype WorkspaceBody = WorkspaceBody(title: string, description: string, members: seq<string>)

  /** The body as written: the creator is looked up on the workspaces
      resource (`workspaces.getUserInfo()`). */
  function CreateBodyAsWritten(a: App, name: string): WorkspaceBody
  {
    WorkspaceBody(name, "This is a workspace", CreatorMembers(UserInfo(a.w.workspaces)))
  }

  /** Since the workspaces resource never caches a profile, every
      workspace is created without members. */
  lemma CreatedWorkspacesHaveNoMembers(a: App, name: string)
    requires OnlyAuthKnowsUser(a.w)
    ensures CreateBodyAsWritten(a, name).members == []
  {
    assert Wrapper.Get(a.w, Workspaces).client.userInfo.None?;
  }

  /** The body as evidently intended: the creator is the user the auth
      resource cached at login. */
  function CreateBodyCorrected(a: App, name: string): WorkspaceBody
  {
    WorkspaceBody(name, "This is a workspace", CreatorMembers(UserInfo(a.w.auth)))
  }

  /** After a successful login, the corrected body makes the user a
      member of the workspace they create, while the body as written
      still has no members. */
  lemma LoggedInCreatorBecomesMember(
    a: App, user: Credentials, t: TokenResponse, p: Profile, now: int, name: string)
    requires OnlyAuthKnowsUser(a.w) && p.id != ""
    ensures var b := Apply(a, LoginStep(user, false, Fulfilled(t), Fulfilled(p), now));
      CreateBodyCorrected(b, name).members == [p.id] && CreateBodyAsWritten(b, name).members == []
  {
    var b := Apply(a, LoginStep(user, false, Fulfilled(t), Fulfilled(p), now));
    LoginCachesProfile(a, user, false, t, p, now);
    ProfilesStayWithAuth(a, [LoginStep(user, false, Fulfilled(t), Fulfilled(p), now)]);
    assert Replay(a, [LoginStep(user, false, Fulfilled(t), Fulfilled(p), now)]) == b;
    CreatedWorkspacesHaveNoMembers(b, name);
  }
}

=== FILE: wrapper.dfy ===
/** `ApiWrapper`: the single object the routes talk to. It builds six
    resources, each with a client of its own, so a profile cached by one
    client is invisible to the others. The application state is the
    wrapper together with the shared cookie store. */
module Wrapper {
  import opened Wrappers
  import opened ApiClient
  import opened BaseResource
  import AuthResource

  datatype ApiWrapper = ApiWrapper(
    auth: Resource, cases: Resource, bpmn: Resource,
    projects: Resource, workspaces: Resource, members: Resource)

  /** The six resources, by name. */
  datatype Which = Auth | Cases | Bpmns | Projects | Workspaces | Members

  function Get(w: ApiWrapper, which: Which): Resource {
    match which
    case Auth => w.auth
    case Cases => w.cases
    case Bpmns => w.bpmn
    case Projects => w.projects
    case Workspaces => w.workspaces
    case Members => w.members
  }

  function With(w: ApiWrapper, which: Which, res: Resource): (r: ApiWrapper)
    ensures Get(r, which) == res
    ensures forall other | other != which :: Get(r, other) == Get(w, other)
  {
    match which
    case Auth => w.(auth := res)
    case Cases => w.(cases := res)
    case Bpmns => w.(bpmn := res)
    case Projects => w.(projects := res)
    case Workspaces => w.(workspaces := res)
    case Members => w.(members := res)
  }

  /** The paths below `API_URL` the constructor gives each resource (the
      auth resource gets the empty path). */
  datatype Paths = Paths(cases: string, bpmn: string, projects: string, workspaces: string, members: string)

  /** The constructor: six fresh resources, none with a profile. */
  function NewWrapper(apiUrl: string, paths: Paths, clientId: string, clientSecret: string): (w: ApiWrapper)
    ensures forall which :: Get(w, which).client.userInfo.None?
    ensures w.auth.endpoint == apiUrl
    ensures w.cases.endpoint == apiUrl + paths.cases && w.members.endpoint == apiUrl + paths.members
  {
    ApiWrapper(
      NewResource(apiUrl, "", clientId, clientSecret),
      NewResource(apiUrl, paths.cases, clientId, clientSecret),
      NewResource(apiUrl, paths.bpmn, clientId, clientSecret),
      NewResource(apiUrl, paths.projects, clientId, clientSecret),
      NewResource(apiUrl, paths.workspaces, clientId, clientSecret),
      NewResource(apiUrl, paths.members, clientId, clientSecret))
  }

  /** The server process: the wrapper and the cookie store. */
  datatype App = App(w: ApiWrapper, store: Store)

  /** What can happen to the process: the auth resource's `login`, any
      resource operation (with its scripted replies), or a logout through
      one of the resources. */
  datatype Step =
    | LoginStep(user: Credentials, returnToken: bool, tokenReply: Reply<TokenResponse>, profileReply: Reply<Profile>, now: int)
    | RequestStep(which: Which, op: Operation, replies: seq<Reply<string>>, grants: seq<Reply<TokenResponse>>, now: int)
    | LogoutStep(which: Which)

  function Apply(a: App, step: Step): (r: App)
    ensures forall which | which != Auth || !step.LoginStep? ::
      Get(r.w, which).client.userInfo == Get(a.w, which).client.userInfo ||
      (step.LogoutStep? && which == step.which && Get(r.w, which).client.userInfo.None?)
    ensures forall which :: Get(r.w, which).endpoint == Get(a.w, which).endpoint
  {
    match step
    case LoginStep(user, returnToken, tokenReply, profileReply, now) =>
      var run := AuthResource.Login(a.w.auth, a.store, user, returnToken, tokenReply, profileReply, now);
      App(With(a.w, Auth, run.res), run.store)
    case RequestStep(which, op, replies, grants, now) =>
      var run := Perform(Get(a.w, which), a.store, op, replies, grants, now);
      App(a.w, run.store)
    case LogoutStep(which) =>
      var (res, store) := Logout(Get(a.w, which), a.store);
      App(With(a.w, which, res), store)
  }

  /** The state after a sequence of steps. */
  function Replay(a: App, steps: seq<Step>): App
    decreases |steps|
  {
    if |steps| == 0 then a else Replay(Apply(a, steps[0]), steps[1..])
  }

  /** No resource but the auth resource has a profile. */
  predicate OnlyAuthKnowsUser(w: ApiWrapper) {
    forall which | which != Auth :: Get(w, which).client.userInfo.None?
  }

  /** Whatever happens, the cases, bpmn, projects, workspaces and members
      resources never learn who is logged in: their `getUserInfo` stays
      null from construction on. */
  lemma {:induction false} ProfilesStayWithAuth(a: App, steps: seq<Step>)
    requires OnlyAuthKnowsUser(a.w)
    ensures OnlyAuthKnowsUser(Replay(a, steps).w)
    decreases |steps|
  {
    if |steps| > 0 {
      ProfilesStayWithAuth(Apply(a, steps[0]), steps[1..]);
    }
  }

  /** A successful login caches the profile on the auth resource. */
  lemma LoginCachesProfile(a: App, user: Credentials, returnToken: bool, t: TokenResponse, p: Profile, now: int)
    ensures Apply(a, LoginStep(user, returnToken, Fulfilled(t), Fulfilled(p), now)).w.auth.client.userInfo == Some(p)
  {
  }

  /** The states the server can be in: anything a fresh wrapper reaches. */
  predicate Reachable(a: App, apiUrl: string, paths: Paths, clientId: string, clientSecret: string, store0: Store, steps: seq<Step>) {
    a == Replay(App(NewWrapper(apiUrl, paths, clientId, clientSecret), store0), steps)
  }

  /** In every reachable state the non-auth resources have no profile. */
  lemma ReachableProfiles(a: App, apiUrl: string, paths: Paths, clientId: string, clientSecret: string, store0: Store, steps: seq<Step>)
    requires Reachable(a, apiUrl, paths, clientId, clientSecret, store0, steps)
    ensures OnlyAuthKnowsUser(a.w)
  {
    ProfilesStayWithAuth(App(NewWrapper(apiUrl, paths, clientId, clientSecret), store0), steps);
  }
}

=== FILE: wrappers.dfy ===
/** Optional values and results shared by every module of the model. */
module Wrappers {

  /** A JavaScript value that may be `undefined`/`null` (None) or present. */
  datatype Option<+T> = None | Some(value: T) {

    /** The value, or `default` when absent (the `??` operator). */
    function GetOr(default: T): T {
      match this
      case Some(v) => v
      case None => default
    }
  }

  /** A computation that either yields a value or fails with a message
      (a thrown `Error` in the source). */
  datatype Result<+T> = Success(value: T) | Failure(error: string)
}
